=== FILE: README.md ===
# Prime tower: analysis, layer optimisation and code injection

This project models the core of the prime tower generator of a multi-tool
FFF post-processor (`prime_tower.py`). Before a tool change the new tool has
to be primed, and an idle tool that will be used again later oozes while it
waits. The prime tower is printed next to the part to absorb both: on every
layer each tool that prints prints one "band" of concentric rings, and tools
on standby get a ring band of their own. The model covers four stages.

- **Analysis** (`Scan`, `ToolStatus`, `Bands`). A single pass over the
  state-annotated G-code token list finds the layers
  (AFTER/BEFORE_LAYER_CHANGE labels), the tool changes, and the
  TOOL_BLOCK_START/END labels of every tool block.
  - Each layer gets its active, idle and disabled tool sets.
  - Every tool gets its brim and band ring radii.
- **Optimisation** (`Optimizer`). Consecutive layers are squashed into one
  tower layer. A layer is folded in while no tool repeats and the combined
  height stays inside the toolset's height window.
- **Ring geometry** (`Geometry`, `Shapes`).
  - A ring is a polygon of `faces` vertices. Band rings are rotated by the
    layer number.
  - A shape travels to its first vertex, sets the print feed and extrudes
    along the remaining edges, closing the loop.
  - Idle-tool bands are bracketed by a retraction and a detraction.
- **Injection** (`Transitions`, `Stream`, `Inject`). For every entry of a
  layer's tool sequence a block is built: move in, the band, the idle bands
  (first entry only), then move out. It is spliced right after the entry's
  injection point.

The Python objects share `ToolChangeInfo` records between lists and mutate
them in place. The model keeps all tool changes in one table
(`PrimeTower.changes`), and layers refer to them by index.

Tokens are an index-addressed sequence. Each token carries the machine state
after it (`post`). Synthesised G-code is a small instruction type. It has an
abstract machine semantics (`GCode.Run`), so "the block leaves the machine as
it found it" can be stated and proved.

The injected token list is a sequence of entries: either an original token
(by index) or an added instruction.

Configuration values are one immutable `Conf.Config` record. The trigonometry
of ring vertices, segment lengths and the extrusion formula are its
uninterpreted function fields.

Some details of the code are easy to misread, and the model follows the
code in each of them:

- Brim and band ladders both start at the tower radius. They never meet
  on one layer, because below the brim height only the brim table is read
  and above it only the band table (lines 276-279).
- The inward brim rings use tool 0's nozzle diameter, whatever the tools of
  layer 0 are.
- The scan computes the toolset's minimum layer height but never checks it.
  Only the maximum can fail.

## Model

| member | source | states |
|---|---|---|
| Geometry.Zigzag | prime_tower.py:22-30 | the zig-zag alternates the two circles: even positions are the inner circle's vertex i, odd ones the outer circle's vertex i, 2·faces points in all |
| Geometry.InterleaveSplit | prime_tower.py:27-29 | taking the even and the odd positions of an interleaving gives back the two original vertex lists |
| Geometry.RotateRight | prime_tower.py:78-79 | deque rotation by n for any integer n: same length, and position k holds the element that was at (k − n) mod length |
| Geometry.RotateInverse | prime_tower.py:78-79 | rotating by n and then by −n restores the ring |
| Geometry.RotateFull | prime_tower.py:78-79 | rotating by a multiple of the ring length leaves it unchanged, so ring starts repeat with period `faces` |
| Shapes.PrintShape | prime_tower.py:50-70 | fails exactly when the tool is not active on the layer or the vertex list is empty. Otherwise: a travel to the first vertex, the print feed, then one extruding move per further vertex (and one back to the first when closed); every extrusion is the amount computed for the tool, the layer height and that edge's length |
| Shapes.ShapeRun | prime_tower.py:58-68 | executing a printed shape changes only the head position (to the last vertex, or the first when closed) and the feed rate (the print speed); height and retraction are untouched |
| Shapes.RingsCode | prime_tower.py:76-81 | the band's rings are printed one after another, each closed: the head visits every ring (rotated by the layer number) in radius order, returning to each ring's first vertex before the next; the code starts with a travel and every extrusion is metered for the tool and layer height |
| Shapes.PillarBand | prime_tower.py:73-87 | a tool missing from the radius table fails with the unknown-tool error; otherwise the band fails exactly when it has rings and the tool is inactive (or rings have no faces), and succeeds with plain code that visits all the tool's rings, each rotated by the layer number, every extrusion metered |
| Shapes.IdleBand | prime_tower.py:94-102 | one idle tool's rings printed with the printing tool: retraction first, the first travel, then the detraction, everything else plain; the path is the idle tool's rings unrotated and every extrusion is metered for the printing tool; it succeeds exactly when the idle tool has rings, the printing tool is active and rings have faces |
| Shapes.IdleBands | prime_tower.py:94-103 | the idle tools' bands one after another: they succeed exactly when there are no idle tools, or the printing tool is active, rings have faces and every idle tool has rings; the path is each idle tool's rings in turn; no Z move, not left retracted, one retraction and one detraction per idle tool |
| Shapes.IdleToolBands | prime_tower.py:90-109 | idle-tool infill for a layer, idle tools in ascending order: succeeds exactly when the layer has no idle tool or the printing tool is active, rings have faces and every idle tool has rings; path, Z-neutrality and the retraction/detraction pair per idle tool as for the idle bands |
| Transitions.MoveIn | prime_tower.py:113-131 | fails only on an empty band. It adds exactly one travel feed, one Z move iff the machine is not already at the layer height, one retraction iff the filament was primed, and one detraction iff the retraction state is known; the band's first move sits right after the left-hand insertions and the rest of the band is unchanged |
| Transitions.MoveInLands | prime_tower.py:113-131 | executing move-in plus a plain band from a known retraction state ends at the tower layer's height with the filament primed |
| Transitions.MoveOut | prime_tower.py:134-168 | fails exactly when the marker's Z is unknown and keeps the block as a prefix. Before a layer change it only re-retracts a retracted marker. Elsewhere it adds one retraction first, ends with a detraction iff the marker was primed, never extrudes, and its only XY target is the marker's position, when known |
| Transitions.MoveOutOrder | prime_tower.py:144-163 | leaving to a marker of known position off a layer change: retract, the travel feed, then the XY travel made at the higher of the tower and marker heights (so Z goes first when the marker is higher, after when lower), one Z move exactly when the heights differ, and the marker's feed restored before the final detraction |
| Transitions.RoundTrip | prime_tower.py:113-168 | move-in, a plain band, Z-neutral idle code and move-out together: off a layer change the filament is primed again exactly when the marker was primed (a retracted or unknown marker is left retracted), and the whole machine state is restored when the marker's XY is known; before a layer change the head is at the tower height with the marker's retraction state when that was known |
| Stream.SpliceKeepsOrigins | prime_tower.py:226 | inserting a block after a token keeps every original token, in order |
| Stream.SplicePlacesBlock | prime_tower.py:226 | the block is inserted immediately after the (first) occurrence of the marker token and nowhere else |
| Inject.IdleFor | prime_tower.py:204-207 | the idle bands go into the first block of the layer only; their retractions number the idle tools there and zero elsewhere |
| Inject.Block | prime_tower.py:182-226 | a tool-sequence entry without an injection point fails with the missing-marker error; a built block is spliced at that entry's injection point, which lies in the token list and has a known Z |
| Inject.BlockPath | prime_tower.py:201-224 | the tool path of a block: the entry tool's rings rotated by the layer number, then (first block only) every idle tool's rings unrotated in ascending order, then the marker's position when move-out returns to it |
| Inject.BlockMetered | prime_tower.py:201-224 | every extrusion of a block, idle bands included, is metered for the entry's tool and the layer height |
| Inject.BlockRestores | prime_tower.py:212-226 | every built block leaves the machine as its injection point found it: off a layer change primed exactly when the marker was, and the full state when the marker's XY is known; before a layer change at the tower height, with the marker's retraction state when known |
| Inject.BlockRetractions | prime_tower.py:204-224 | a block's retractions are the idle tools' (first entry only), one for move-in when primed, and one for move-out (before a layer change only when retracted) |
| Inject.LayerPlan | prime_tower.py:171-230 | a terminal layer (one active tool, none idle) gets no block; otherwise the plan succeeds exactly when every entry's block does, is then those blocks in tool-sequence order, each at its injection point and restoring, and otherwise fails with the first failing block's error |
| Inject.InjectLayer | prime_tower.py:171-230 | injecting a layer fails exactly when its plan does, with the same error; otherwise it splices the plan's blocks, in order, after their injection points, keeping every original token; a terminal layer leaves the list as it is |
| Inject.InjectLayerPlaces | prime_tower.py:182-226 | when the entries' injection points differ, after injecting a layer each entry's block sits in one piece right after its injection point |
| Inject.ApplyPlaces | prime_tower.py:226 | splicing blocks at pairwise different tokens places every block, whole, right after its token; later splices do not break earlier ones |
| Inject.AllPlans | prime_tower.py:478-481 | the run's plan succeeds exactly when every layer's plan does, is their concatenation in layer order, and otherwise fails with the first failing layer's error |
| Inject.InjectGcode | prime_tower.py:478-481 | injecting all layers fails exactly when the run's plan does, with its error; otherwise it is the run's blocks spliced in layer order into the original tokens, which all stay, in order; a tower of terminal layers injects nothing |
| Inject.InjectGcodePlaces | prime_tower.py:478-481 | when no two blocks of the run share an injection point, every block of the run ends up in one piece right after its injection point |
| Bands.LadderBounds | prime_tower.py:254-257 | a tool's ladder has `width` rings, strictly increasing, all strictly between its start radius and start + width·nozzle |
| Bands.LaddersOrdered | prime_tower.py:250-257 | the ladders of successive tools continue outward: each is increasing, all lie above the tower radius, and every ring of an earlier tool is inward of every ring of a later one |
| Bands.AssignLast | prime_tower.py:251-252 | a tool listed twice keeps the ladder of its last occurrence (the table entry is overwritten) |
| Bands.InwardBounds | prime_tower.py:258-262 | the inward brim rings are increasing, between one nozzle and the tower radius, start within two nozzles of the centre, and are absent exactly when the radius is at most 1.5 nozzles |
| Bands.GeneratePillarBands | prime_tower.py:242-272 | fails exactly when layer 0 has no tool and inward rings are needed; otherwise both tables are keyed by exactly layer 0's tools |
| Bands.PillarBandsShape | prime_tower.py:242-272 | each tool's band and brim rings increase outward; each tool gets the ladder of its last position; the last tool's brim is the inward rings followed by its own ladder |
| Bands.GeneratedLookup | prime_tower.py:242-279 | looking a tool up in generated tables, on brim and band layers alike, succeeds exactly for the tools of the order, yields increasing radii, and otherwise fails with the unknown-tool error |
| ToolStatus.AnalyzeToolStatus | prime_tower.py:282-315 | only the three status sets of each layer are recomputed; every other field and the layer count are kept |
| ToolStatus.ActiveIsCarriedPlusChanges | prime_tower.py:286-298 | a layer's active tools are the tool carried in from the last earlier change plus the tools of its own changes |
| ToolStatus.IdleAndDisabledClosedForm | prime_tower.py:300-315 | idle = tools active in some later layer but not here; disabled = enabled tools not active here or later (the backward recurrence solved) |
| ToolStatus.StatusPartition | prime_tower.py:282-315 | active, idle and disabled are pairwise disjoint and together are all enabled tools; the last layer has no idle tool |
| ToolStatus.AnalyzeIdempotent | prime_tower.py:282-315 | re-running the status analysis on its own output changes nothing (the optimizer re-runs it) |
| Scan.OnAfter | prime_tower.py:328-351 | AFTER_LAYER_CHANGE keeps the change table; a non-zero layer opens a new layer and layer 0 reuses the current one; the layer gets the label's number, Z and start, and a tool sequence holding just the current tool |
| Scan.ScanPrefix | prime_tower.py:326-400 | a scan that succeeds on a prefix satisfies the scan invariant: layers per label, changes per TOOLCHANGE, markers on the right labels, block labels naming the current tool, tool sequences carried between layers; each change sits in exactly the layer counted by the non-zero AFTER_LAYER_CHANGE labels before it; each layer's end is the last BEFORE_LAYER_CHANGE label seen with that count; layer 0's tool sequence is its changes, led by the tool current at its label; each layer starts at the AFTER_LAYER_CHANGE label that last made it current; each change's block start and end are the last TOOL_BLOCK_START and TOOL_BLOCK_END labels naming a tool that were read while it was the current change, and none if there was none. An error names the offending token |
| Scan.StepInv | prime_tower.py:326-400 | each token's handler keeps the whole scan invariant, including which layer every change belongs to (lines 332-335, 374-380), that each layer's end is the last BEFORE_LAYER_CHANGE label of that layer (line 356), layer 0's tool sequence (lines 345-349), each layer's start (line 343) and each change's block markers (lines 389 and 398); or it fails at a token that explains the error |
| Scan.AnalyzeGcode | prime_tower.py:318-413 | a successful analysis yields an analysed tower: the scan's structure (with each change in the layer its label count names, each layer's start and end the last AFTER_LAYER_CHANGE and BEFORE_LAYER_CHANGE labels of that layer, and each change's block markers the last block labels read while it was current), every layer's statuses already those the status pass computes, and the radius table the one generated for layer 0's tool order; a failure names its token or is the missing inward-ring tool |
| Scan.TooHighAt | prime_tower.py:354-370 | a layer-height error of the scan names a BEFORE_LAYER_CHANGE label at which the scan of the tokens before it succeeded and its current layer is higher than the maximum for that layer's toolset |
| Scan.AnalyzeTooHigh | prime_tower.py:318-370 | a layer-height error of the whole analysis satisfies the same condition at the label it names |
| Scan.HeightsChecked | prime_tower.py:354-370 | if the scan of a prefix succeeds, then at every BEFORE_LAYER_CHANGE label in it the scan up to that label succeeded and its current layer was no higher than the maximum for its toolset |
| Scan.AnalyzeHeightsWithin | prime_tower.py:318-370 | a successful analysis passed the height check at every BEFORE_LAYER_CHANGE label of the run |
| Optimizer.StopAtFacts | prime_tower.py:425-429 | the fold runs over every non-terminal layer after the first and stops at the first terminal one |
| Optimizer.FoldIffFits | prime_tower.py:431-446 | the next layer is folded into the current group iff the extended group still has no repeated tool and its summed height lies in the window of its active tools |
| Optimizer.FoldKeeps | prime_tower.py:425-467 | the fold keeps its invariant: output layers partition the input range into contiguous groups, with the changes concatenated, heights summed and renumbered by position |
| Optimizer.InvIsMaximal | prime_tower.py:425-467 | every group fits, every shorter prefix of a group fits too, and every group but the last could not take the next layer: the greedy grouping is maximal |
| Optimizer.Squash | prime_tower.py:420-473 | the output is non-empty, no longer than the scanned part, numbered by position, and holds the same changes in the same order; its statuses are already those the status analysis computes |
| Optimizer.SquashGroups | prime_tower.py:420-467 | each output layer is a maximal group of consecutive input layers, with that group's summed height and concatenated changes; every prefix of a group also fit when it was formed, so a group ends at the first layer it could not take |
| Optimizer.MaximalUnique | prime_tower.py:425-467 | at most one choice of group starts is maximal in that sense: two maximal groupings of the same layers are equal |
| Optimizer.SquashStartsUnique | prime_tower.py:420-467 | the optimizer's group starts are the only maximal grouping of the scanned layers |
| Optimizer.OptimizeLayersAsWritten | prime_tower.py:455-461 | as written, a squashed layer keeps the tool sequence of the group's first layer; folded changes do not join it |
| Optimizer.OptimizeLayers | prime_tower.py:420-473 | corrected: the same grouping, and every output layer whose group's first layer banded all its changes bands all of its changes |
| Optimizer.SameGrouping | prime_tower.py:431-461 | the as-written and the corrected optimizer choose the same group starts and produce the same layers up to their tool sequences: the merge test never reads a tool sequence |
| Optimizer.SquashWellFormed | prime_tower.py:455-467 | squashing keeps every marker inside the token list, so the result can be injected |
| Scenarios.TwoLayersFold | prime_tower.py:431-461 | two layers that alternate tools in a wide window fold into one layer holding both changes |
| Scenarios.FoldedChangeLosesItsBand | prime_tower.py:456 | the counterexample: as written, the folded layer's change gets no band (tool sequence stays [T0]) |
| Scenarios.FoldedChangeKeepsItsBand | prime_tower.py:455-461 | with the correction, the same input gives the tool sequence [T0, T1], and each change has its band |
| Scenarios.BandRadiiOfTwoTools | prime_tower.py:250-272 | for two 0.4 mm tools at radius 20 with two rings each, T0's brim and band rings are 20.2 and 20.6, and T1's band rings are 21.0 and 21.4 |
| Scenarios.MoveInFromRetracted | prime_tower.py:113-131 | from a retracted state at tower height, move-in adds only the travel feed before the first move and a detraction after it |
| Scenarios.MoveOutBeforeLayerChange | prime_tower.py:164-166 | before a layer change a retracted marker only gets the retraction back |
| Scenarios.MoveOutReturnsHigher | prime_tower.py:144-163 | leaving to a higher primed marker: retract, travel feed, Z first, then XY, restore the feed, detract |
| Pipeline.ShapedLayersBanded | prime_tower.py:345-380 | every layer opened by the scan after the first bands each of its own changes (its tool sequence ends with its change list) |
| Pipeline.AnalyzedOptimizable | prime_tower.py:318-481 | an analysed tower is a valid input of the optimizer; the corrected optimizer's output is a valid input of the injection, and every output layer after the first bands all its changes |
| Pipeline.MarkerLabels | prime_tower.py:182-197 | in a scanned tower the injection point of entry k > 0 is the last TOOL_BLOCK_START label read while its change was current; entry 0's is layer 0's last AFTER_LAYER_CHANGE label on layer 0, the layer's last BEFORE_LAYER_CHANGE label on a layer without changes, and otherwise the last TOOL_BLOCK_END label read while the carried change was current; each point is absent exactly when no such label was read, carries the label kind and tool named, and entry 0's is never a later entry's |

## Left out

- The ring vertex trigonometry, the `round(…, 3)` of vertex coordinates, the segment length (`math.sqrt`) and `conf.calculate_E` are uninterpreted functions of the configuration. They are not modelled numerically.
- The `deque` rotation is modelled as index arithmetic on the vertex sequence.
- Optimizer.Squash: the merged height is the exact sum; the `round(…, 2)` applied to it is not modelled, because floating-point rounding is outside the model.
- Debug, verbose-comment and performance output (`conf.DEBUG`, `conf.GCODE_VERBOSE`, `conf.PERF_INFO`, `time.time()`) are not modelled. Neither is the X/Y warning `print` in move-out, which changes no code.
- `print_report` only prints, so it is not modelled.
- `doublelinkedlist` and the G-code tokenizer and state annotator are not part of this model. The token list is a sequence of tokens carrying their post-state, and the injected list is a sequence of entries.
- Python set iteration order is unspecified. Idle tools are iterated in ascending order.
- `LayerInfo`, `ToolChangeInfo` and `conf` are not part of this model. Their fields and the configuration values are inferred from their use here.
- Shapes.PrintShape: the `retract_on_move` parameter is accepted but never used by the source, so it is not modelled.
- Transitions.RoundTrip: before a layer change, the final retraction state is promised only when the marker's was known. From an unknown state move-in adds no detraction and move-out adds no retraction, so the result depends on the band. Off a layer change an unknown marker is promised to end retracted.
- Inject.BlockRestores: inherits the same gap before a layer change with an unknown retraction state.
- Transitions.MoveIn: `append_node` on the head of the band is read as "right after the band's first move" (lines 117-129). The Z move for a lower tower and both detractions therefore follow the first travel, and the retraction and the travel feed precede it.
- Scan.OnBefore: the toolset passed to the height limits is a list in the source (lines 360-361). The model passes the set of its tools. The height limits (`conf.min_layer_height`/`max_layer_height`) are not part of this model, and they are assumed to depend only on which tools are present, not on their order or repetition.
- Inject.InjectLayerPlaces: placement is proved under the assumption that the entries' injection points differ. For an analysed tower, Pipeline.MarkerLabels proves that entry 0's point is never a later entry's. That two later entries have different points is not proved.
- Inject.InjectGcodePlaces: likewise assumes that all injection points of the run differ.
- Inject.InjectLayer: the blocks of a layer are planned first and then spliced, instead of being spliced one by one. Each block depends only on its marker's state, and any error aborts the run, so the resulting list is the same.
- Scan.AnalyzeGcode: requires AFTER_LAYER_CHANGE numbers to run 0…0, 1, 2, 3, … in order. The status analysis indexes layers by number, so other numberings index the wrong layer in the source.
- Optimizer.Squash: requires a non-empty layer list numbered by position, as the analysis produces. The source would fail on an empty list.
- The driver that calls analysis, optimisation and injection in turn is not part of this model.
- Exceptions are modelled as a `Result` error. The model aborts the whole run, but the source leaves earlier splices of a failing run in the token list.

## Findings

| source | as written | input that shows it | evidently intended | confidence | as-written member | corrected member |
|---|---|---|---|---|---|---|
| prime_tower.py:456 | squashing a layer appends its tool changes to the kept layer's `tool_change_seq` only, while injection (line 182) prints one band per `tools_sequence` entry | layer 0 with T0 (tool sequence [T0]) and layer 1 switching to T1 (tool sequence [T0, T1]), height window wide enough to fold: the squashed layer has changes [T0, T1] but tool sequence [T0], so T1 is never primed on the tower | the folded changes also extend the kept layer's `tools_sequence`, so every tool change keeps its band | medium, not executed (`LayerInfo` is not part of this model, but lines 347/349 and 379-380 show the two lists are separate objects) | Optimizer.OptimizeLayersAsWritten, Scenarios.FoldedChangeLosesItsBand | Optimizer.OptimizeLayers, Scenarios.FoldedChangeKeepsItsBand |

=== FILE: bands.dfy ===
/** Band and brim radius sizing (PrimeTower.generate_pillar_bands and
    PrimeTower.get_pillar_bands).

    In layer 0's tool order every tool receives a ladder of ring radii that
    steps outward by its nozzle diameter, continuing where the previous tool's
    ladder ended. The brim additionally walks inward from the tower radius
    with tool 0's nozzle diameter and prepends those rings to the last tool's
    brim list. */
module Bands {
  import opened Wrappers
  import opened GCode
  import opened Conf
  import opened Tower

  predicate Increasing(rs: seq<real>) {
    forall i, j :: 0 <= i < j < |rs| ==> rs[i] < rs[j]
  }

  /** One tool's rings: `w` times step half a nozzle out, record the radius,
      step the other half out. */
  function Ladder(r: real, d: real, w: nat): seq<real>
    decreases w
  {
    if w == 0 then [] else [r + d / 2.0] + Ladder(r + d, d, w - 1)
  }

  /** A ladder holds `w` increasing radii strictly between its start and
      its start plus `w` nozzle diameters. */
  lemma LadderBounds(r: real, d: real, w: nat)
    requires d > 0.0
    ensures |Ladder(r, d, w)| == w
    ensures Increasing(Ladder(r, d, w))
    ensures forall k :: 0 <= k < w ==> r < Ladder(r, d, w)[k] < r + Span(w, d)
  {
    LadderWithin(r, d, w);
    LadderIncreasing(r, d, w);
  }

  lemma {:induction false} LadderWithin(r: real, d: real, w: nat)
    requires d > 0.0
    ensures |Ladder(r, d, w)| == w
    ensures forall k :: 0 <= k < w ==> r < Ladder(r, d, w)[k] < r + Span(w, d)
    decreases w
  {
    if w > 0 {
      LadderWithin(r + d, d, w - 1);
      SpanStep(w, d);
      var rest := Ladder(r + d, d, w - 1);
      assert Ladder(r, d, w) == [r + d / 2.0] + rest;
      forall k | 0 <= k < w ensures r < Ladder(r, d, w)[k] < r + Span(w, d) {
        if k == 0 {
          assert Ladder(r, d, w)[k] == r + d / 2.0;
        } else {
          assert Ladder(r, d, w)[k] == rest[k - 1];
          assert r + d < rest[k - 1] < (r + d) + Span(w - 1, d);
        }
      }
    }
  }

  lemma {:induction false} LadderIncreasing(r: real, d: real, w: nat)
    requires d > 0.0
    ensures Increasing(Ladder(r, d, w))
    decreases w
  {
    if w > 0 {
      LadderIncreasing(r + d, d, w - 1);
      LadderWithin(r + d, d, w - 1);
      var rest := Ladder(r + d, d, w - 1);
      var ls := Ladder(r, d, w);
      assert ls == [r + d / 2.0] + rest;
      forall i, j | 0 <= i < j < |ls| ensures ls[i] < ls[j] {
        assert ls[j] == rest[j - 1];
        if i > 0 {
          assert ls[i] == rest[i - 1];
        }
      }
    }
  }

  lemma SpanStep(w: nat, d: real)
    requires w > 0 && d > 0.0
    ensures Span(w, d) == d + Span(w - 1, d) && Span(w, d) >= d
  {
    assert (w as real) * d == d + ((w - 1) as real) * d;
  }

  /** Radial extent of `w` rings of width `d`. */
  function Span(w: nat, d: real): real {
    (w as real) * d
  }

  /** The rings of every tool of `order`, each ladder starting where the
      previous one ended. */
  function Ladders(c: Config, order: seq<ToolId>, r: real, w: nat): (ls: seq<seq<real>>)
    ensures |ls| == |order|
    decreases |order|
  {
    if |order| == 0 then []
    else
      var d := c.nozzle(order[0]);
      [Ladder(r, d, w)] + Ladders(c, order[1..], r + Span(w, d), w)
  }

  lemma LaddersStep(c: Config, order: seq<ToolId>, r: real, w: nat)
    requires |order| > 0
    ensures Ladders(c, order, r, w)
            == [Ladder(r, c.nozzle(order[0]), w)] + Ladders(c, order[1..], r + Span(w, c.nozzle(order[0])), w)
  {
  }

  /** Every ring of every list lies strictly outward of `r`. */
  predicate AllAbove(ls: seq<seq<real>>, r: real) {
    forall k, a :: 0 <= k < |ls| && 0 <= a < |ls[k]| ==> r < ls[k][a]
  }

  /** Every ring of an earlier list lies inward of every ring of a later one. */
  predicate Separated(ls: seq<seq<real>>) {
    forall k, k', a, b :: 0 <= k < k' < |ls| && 0 <= a < |ls[k]| && 0 <= b < |ls[k']| ==>
      ls[k][a] < ls[k'][b]
  }

  lemma SeparatedCons(x: seq<real>, rest: seq<seq<real>>, r: real, r': real)
    requires r <= r'
    requires forall a :: 0 <= a < |x| ==> r < x[a] < r'
    requires AllAbove(rest, r') && Separated(rest)
    ensures AllAbove([x] + rest, r) && Separated([x] + rest)
  {
    var ls := [x] + rest;
    forall k, a | 0 <= k < |ls| && 0 <= a < |ls[k]| ensures r < ls[k][a] {
      if k > 0 {
        assert ls[k] == rest[k - 1];
        assert r' < ls[k][a];
      }
    }
    forall k, k', a, b | 0 <= k < k' < |ls| && 0 <= a < |ls[k]| && 0 <= b < |ls[k']|
      ensures ls[k][a] < ls[k'][b]
    {
      assert ls[k'] == rest[k' - 1];
      if k > 0 {
        assert ls[k] == rest[k - 1];
      }
    }
  }

  /** Each tool's list holds `w` strictly increasing rings outward of the
      start radius, and every ring of an earlier tool lies inward of every
      ring of a later one. */
  lemma {:induction false} LaddersOrdered(c: Config, order: seq<ToolId>, r: real, w: nat)
    requires PositiveNozzles(c)
    ensures var ls := Ladders(c, order, r, w);
            && (forall k :: 0 <= k < |ls| ==> |ls[k]| == w && Increasing(ls[k]))
            && AllAbove(ls, r)
            && Separated(ls)
    decreases |order|
  {
    if |order| > 0 {
      var d := c.nozzle(order[0]);
      var r' := r + Span(w, d);
      var ls := Ladders(c, order, r, w);
      var rest := Ladders(c, order[1..], r', w);
      LaddersStep(c, order, r, w);
      NozzlePositive(c, order[0]);
      LadderBounds(r, d, w);
      LaddersOrdered(c, order[1..], r', w);
      SeparatedCons(Ladder(r, d, w), rest, r, r');
      forall k | 0 <= k < |ls| ensures |ls[k]| == w && Increasing(ls[k]) {
        if k > 0 {
          assert ls[k] == rest[k - 1];
        }
      }
    }
  }

  /** A radius table filled in tool order: each tool of `order` is set to
      its ladder, later entries overwriting earlier ones. */
  function Assign(order: seq<ToolId>, ladders: seq<seq<real>>): (m: map<ToolId, seq<real>>)
    requires |order| == |ladders|
    ensures m.Keys == Elems(order)
    decreases |order|
  {
    if |order| == 0 then map[]
    else
      var n := |order| - 1;
      ElemsSnoc(order);
      Assign(order[..n], ladders[..n])[order[n] := ladders[n]]
  }

  /** A tool listed more than once keeps the rings of its last occurrence. */
  lemma {:induction false} AssignLast(order: seq<ToolId>, ladders: seq<seq<real>>, k: nat)
    requires |order| == |ladders| && k < |order|
    requires forall j :: k < j < |order| ==> order[j] != order[k]
    ensures Assign(order, ladders)[order[k]] == ladders[k]
    decreases |order|
  {
    var n := |order| - 1;
    if k < n {
      AssignLast(order[..n], ladders[..n], k);
    }
  }

  /** The inward brim rings, innermost first: starting at `r`, while the
      radius exceeds 1.5 nozzle diameters step half a nozzle in, record,
      step the other half in. */
  function InwardRings(r: real, d: real): seq<real>
    requires d > 0.0
    decreases (r / d).Floor
  {
    if r > 1.5 * d then
      DivStep(r, d);
      InwardRings(r - d, d) + [r - d / 2.0]
    else []
  }

  lemma ZeroProduct(x: real, d: real)
    requires d > 0.0 && x * d == 0.0
    ensures x == 0.0
  {
  }

  lemma DivStep(r: real, d: real)
    requires d > 0.0
    ensures (r - d) / d == r / d - 1.0
  {
    var q := r / d;
    var q2 := (r - d) / d;
    assert q * d == r;
    assert q2 * d == r - d;
    assert (q2 - (q - 1.0)) * d == q2 * d - q * d + d;
    ZeroProduct(q2 - (q - 1.0), d);
  }

  lemma DivLower(r: real, d: real)
    requires d > 0.0 && r > 1.5 * d
    ensures r / d > 1.0
  {
  }

  lemma InwardStep(r: real, d: real)
    requires d > 0.0 && r > 1.5 * d
    ensures InwardRings(r, d) == InwardRings(r - d, d) + [r - d / 2.0]
  {
  }

  /** The inward rings increase, lie strictly between one nozzle diameter
      and the start radius, and the loop stops once the next step would go
      below 1.5 nozzle diameters. */
  lemma {:induction false} InwardBounds(r: real, d: real)
    requires d > 0.0
    ensures var rs := InwardRings(r, d);
            && Increasing(rs)
            && (forall k :: 0 <= k < |rs| ==> d < rs[k] < r)
            && (|rs| > 0 ==> rs[0] <= 2.0 * d)
            && (|rs| == 0 <==> r <= 1.5 * d)
    decreases (r / d).Floor
  {
    if r > 1.5 * d {
      InwardStep(r, d);
      DivStep(r, d);
      DivLower(r, d);
      InwardBounds(r - d, d);
      InwardSnoc(InwardRings(r - d, d), r, d);
    }
  }

  /** One more ring, half a nozzle inside `r`, on top of rings that lie
      below `r - d`. */
  lemma InwardSnoc(p: seq<real>, r: real, d: real)
    requires d > 0.0 && r > 1.5 * d
    requires Increasing(p) && (forall k :: 0 <= k < |p| ==> d < p[k] < r - d)
    requires |p| > 0 ==> p[0] <= 2.0 * d
    requires |p| == 0 <==> r - d <= 1.5 * d
    ensures var rs := p + [r - d / 2.0];
            && Increasing(rs)
            && (forall k :: 0 <= k < |rs| ==> d < rs[k] < r)
            && rs[0] <= 2.0 * d
  {
    var rs := p + [r - d / 2.0];
    assert forall k :: 0 <= k < |p| ==> rs[k] == p[k];
    assert rs[|p|] == r - d / 2.0;
  }

  /** Layer 0's tool order: its tool sequence, then its idle tools ascending. */
  function Layer0Order(changes: seq<ToolChange>, l: Layer): seq<ToolId>
    requires LayerRefsValid(l, |changes|)
  {
    ToolIds(changes, l.toolsSeq) + SortedElems(l.idle)
  }

  /** generate_pillar_bands for the tool order of layer 0. The brim and band
      ladders both start at the tower radius; the inward rings are prepended
      to the brim list of the last tool of the order. With no tool at all
      the inward loop fails as soon as it has a ring to record. */
  function GeneratePillarBands(c: Config, order: seq<ToolId>): (r: Result<Radii, Error>)
    requires PositiveNozzles(c)
    ensures r.Failure? <==> |order| == 0 && c.towerR > 1.5 * c.nozzle(0)
    ensures r.Failure? ==> r.error == NoToolForInwardRings
    ensures r.Success? ==> r.value.brim.Keys == Elems(order) && r.value.band.Keys == Elems(order)
  {
    var brim := Assign(order, Ladders(c, order, c.towerR, c.brimWidth));
    var band := Assign(order, Ladders(c, order, c.towerR, c.bandWidth));
    NozzlePositive(c, 0);
    var inward := InwardRings(c.towerR, c.nozzle(0));
    InwardBounds(c.towerR, c.nozzle(0));
    if |order| == 0 then
      if |inward| > 0 then Failure(NoToolForInwardRings) else Success(Radii(brim, band))
    else
      Success(Radii(brim[Last(order) := inward + brim[Last(order)]], band))
  }

  /** Every value of a radius table is the ladder of the key's last occurrence. */
  lemma AssignFrom(order: seq<ToolId>, ladders: seq<seq<real>>, t: ToolId)
    requires |order| == |ladders| && t in Elems(order)
    ensures exists k :: (0 <= k < |order| && order[k] == t && Assign(order, ladders)[t] == ladders[k]
                         && forall j :: k < j < |order| ==> order[j] != t)
  {
    var k :| 0 <= k < |order| && order[k] == t;
    while exists j :: k < j < |order| && order[j] == t
      invariant 0 <= k < |order| && order[k] == t
      decreases |order| - k
    {
      var k' :| k < k' < |order| && order[k'] == t;
      k := k';
    }
    AssignLast(order, ladders, k);
  }

  /** The radius tables generate_pillar_bands builds: every band list is the
      ladder of the tool's last occurrence; every brim list is too, except
      that the last tool's list starts with the inward rings; and every list,
      brim or band, strictly increases. */
  lemma PillarBandsShape(c: Config, order: seq<ToolId>)
    requires PositiveNozzles(c)
    requires GeneratePillarBands(c, order).Success?
    ensures var radii := GeneratePillarBands(c, order).value;
            var brims := Ladders(c, order, c.towerR, c.brimWidth);
            var bands := Ladders(c, order, c.towerR, c.bandWidth);
            && (forall t :: t in radii.band ==> Increasing(radii.band[t]))
            && (forall t :: t in radii.brim ==> Increasing(radii.brim[t]))
            && (forall k :: 0 <= k < |order| && (forall j :: k < j < |order| ==> order[j] != order[k]) ==>
                  radii.band[order[k]] == bands[k])
            && (forall k :: 0 <= k < |order| - 1 && (forall j :: k < j < |order| ==> order[j] != order[k]) ==>
                  radii.brim[order[k]] == brims[k])
            && (|order| > 0 ==> radii.brim[Last(order)] == InwardRings(c.towerR, c.nozzle(0)) + Last(brims))
  {
    var radii := GeneratePillarBands(c, order).value;
    var brims := Ladders(c, order, c.towerR, c.brimWidth);
    var bands := Ladders(c, order, c.towerR, c.bandWidth);
    NozzlePositive(c, 0);
    var inward := InwardRings(c.towerR, c.nozzle(0));
    InwardBounds(c.towerR, c.nozzle(0));
    LaddersOrdered(c, order, c.towerR, c.brimWidth);
    LaddersOrdered(c, order, c.towerR, c.bandWidth);
    AssignedShape(order, bands);
    if |order| > 0 {
      assert radii.brim == Assign(order, brims)[Last(order) := inward + Assign(order, brims)[Last(order)]];
      BrimShape(order, brims, inward, c.towerR);
    } else {
      AssignedShape(order, brims);
    }
  }

  /** Every list of a radius table is increasing when every ladder is, and
      a tool's list is the ladder of its last occurrence. */
  lemma AssignedShape(order: seq<ToolId>, ladders: seq<seq<real>>)
    requires |order| == |ladders| && forall k :: 0 <= k < |ladders| ==> Increasing(ladders[k])
    ensures var m := Assign(order, ladders);
            && (forall t :: t in m ==> Increasing(m[t]))
            && (forall k :: 0 <= k < |order| && (forall j :: k < j < |order| ==> order[j] != order[k]) ==>
                  m[order[k]] == ladders[k])
  {
    var m := Assign(order, ladders);
    forall k | 0 <= k < |order| && (forall j :: k < j < |order| ==> order[j] != order[k])
      ensures m[order[k]] == ladders[k]
    {
      AssignLast(order, ladders, k);
    }
    forall t | t in m ensures Increasing(m[t]) {
      AssignFrom(order, ladders, t);
    }
  }

  /** The brim table: the last tool's list gets the inward rings in front. */
  lemma BrimShape(order: seq<ToolId>, ladders: seq<seq<real>>, inward: seq<real>, r: real)
    requires |order| == |ladders| > 0 && forall k :: 0 <= k < |ladders| ==> Increasing(ladders[k])
    requires AllAbove(ladders, r)
    requires Increasing(inward) && forall k :: 0 <= k < |inward| ==> inward[k] < r
    ensures var m := Assign(order, ladders);
            var m' := m[Last(order) := inward + m[Last(order)]];
            && (forall t :: t in m' ==> Increasing(m'[t]))
            && (forall k :: 0 <= k < |order| - 1 && (forall j :: k < j < |order| ==> order[j] != order[k]) ==>
                  m'[order[k]] == ladders[k])
            && m'[Last(order)] == inward + Last(ladders)
  {
    var n := |order| - 1;
    var m := Assign(order, ladders);
    AssignedShape(order, ladders);
    AssignLast(order, ladders, n);
    forall a | 0 <= a < |ladders[n]| ensures r < ladders[n][a] {
    }
    PrependInward(inward, ladders[n], r);
  }

  /** Prepending rings that lie below `r` to a list that lies above `r`
      keeps it increasing. */
  lemma PrependInward(inward: seq<real>, outer: seq<real>, r: real)
    requires Increasing(inward) && Increasing(outer)
    requires forall k :: 0 <= k < |inward| ==> inward[k] < r
    requires forall k :: 0 <= k < |outer| ==> r < outer[k]
    ensures Increasing(inward + outer)
  {
    var s := inward + outer;
    forall i, j | 0 <= i < j < |s| ensures s[i] < s[j] {
      if j < |inward| {
        assert s[i] == inward[i] && s[j] == inward[j];
      } else if i >= |inward| {
        assert s[i] == outer[i - |inward|] && s[j] == outer[j - |inward|];
      } else {
        assert s[i] == inward[i] && s[j] == outer[j - |inward|];
      }
    }
  }

  /** get_pillar_bands: the brim list while `layerNum < brim_height`, the
      band list afterwards; a tool missing from the table is an error. */
  function GetPillarBands(c: Config, radii: Radii, layerNum: int, tool: ToolId): (r: Result<seq<real>, Error>)
    ensures layerNum < c.brimHeight ==> (r.Success? <==> tool in radii.brim)
    ensures layerNum >= c.brimHeight ==> (r.Success? <==> tool in radii.band)
    ensures r.Success? ==> r.value == (if layerNum < c.brimHeight then radii.brim else radii.band)[tool]
    ensures r.Failure? ==> r.error == UnknownTool(tool)
  {
    var table := if layerNum < c.brimHeight then radii.brim else radii.band;
    if tool in table then Success(table[tool]) else Failure(UnknownTool(tool))
  }

  /** Looking a tool up in generated tables succeeds exactly for the tools
      of the order, on brim and band layers alike, and yields an increasing
      list of radii. */
  lemma GeneratedLookup(c: Config, order: seq<ToolId>, layerNum: int, tool: ToolId)
    requires PositiveNozzles(c) && GeneratePillarBands(c, order).Success?
    ensures var r := GetPillarBands(c, GeneratePillarBands(c, order).value, layerNum, tool);
      && (r.Success? <==> tool in Elems(order))
      && (r.Success? ==> Increasing(r.value))
      && (r.Failure? ==> r.error == UnknownTool(tool))
  {
    PillarBandsShape(c, order);
  }
}

=== FILE: conf.dfy ===
/** The configuration values the prime tower reads, passed as one immutable
    record. Trigonometry, the segment length and the extrusion formula are
    left uninterpreted. */
module Conf {
  import opened GCode

  datatype Config = Config(
    printSpeed: real,                    // prime_tower_print_speed
    moveSpeed: real,                     // prime_tower_move_speed
    towerR: real,                        // prime_tower_r
    brimWidth: nat,                      // brim_width
    brimHeight: int,                     // brim_height
    bandWidth: nat,                      // prime_tower_band_width
    faces: nat,                          // prime_tower_band_num_faces
    nozzle: ToolId -> real,              // tool_nozzle_diameter
    minLayerHeight: set<ToolId> -> real, // min_layer_height(toolset)
    maxLayerHeight: set<ToolId> -> real, // max_layer_height(toolset)
    vertex: (real, nat) -> Point,        // k-th vertex of the ring of radius r around the tower centre
    distance: (Point, Point) -> real,    // segment length
    extrusion: (ToolId, real, real) -> real) // calculate_E(tool, layer_height, distance)

  /** Every nozzle diameter is positive. */
  ghost predicate PositiveNozzles(c: Config) {
    forall t :: c.nozzle(t) > 0.0
  }

  lemma NozzlePositive(c: Config, t: ToolId)
    requires PositiveNozzles(c)
    ensures c.nozzle(t) > 0.0
  {
  }
}

=== FILE: gcode.dfy ===
/** The instruction vocabulary the prime tower reads and writes.

    Tokens are produced by the state annotator (not part of this model): each
    carries its kind and the machine state after it executes (`state_post`).
    Synthesized instructions are the handful of G-code commands the prime tower
    emits; `Exec` gives them an abstract machine semantics so that transitions
    into and out of the tower can be stated as state preservation. */
module GCode {
  import opened Wrappers

  type ToolId = int

  /** Retraction status tracked by the state annotator. */
  datatype Retraction = Retracted | Unretracted | UnknownRetraction

  /** Machine state snapshot: unknown coordinates are `None`. */
  datatype MachineState = MachineState(
    x: Option<real>,
    y: Option<real>,
    z: Option<real>,
    feedRate: real,
    retraction: Retraction)

  datatype Point = Point(x: real, y: real)

  /** Instructions synthesized by the prime tower. */
  datatype Instr =
    | Travel(to: Point)            // G1 X Y
    | MoveZ(z: real)               // G1 Z
    | Feed(rate: real)             // G1 F
    | Extrude(to: Point, e: real)  // G1 X Y E
    | Retract                      // G10
    | Detract                      // G11

  /** Effect of one instruction on the machine state. */
  function Exec(s: MachineState, i: Instr): MachineState {
    match i
    case Travel(p) => s.(x := Some(p.x), y := Some(p.y))
    case MoveZ(z) => s.(z := Some(z))
    case Feed(f) => s.(feedRate := f)
    case Extrude(p, _) => s.(x := Some(p.x), y := Some(p.y))
    case Retract => s.(retraction := Retracted)
    case Detract => s.(retraction := Unretracted)
  }

  /** State after executing a sequence of instructions from `s`. */
  function Run(s: MachineState, code: seq<Instr>): MachineState
    decreases |code|
  {
    if |code| == 0 then s else Run(Exec(s, code[0]), code[1..])
  }

  lemma {:induction false} RunAppend(s: MachineState, a: seq<Instr>, b: seq<Instr>)
    ensures Run(s, a + b) == Run(Run(s, a), b)
    decreases |a|
  {
    if |a| == 0 {
      assert a + b == b;
    } else {
      assert (a + b)[1..] == a[1..] + b;
      RunAppend(Exec(s, a[0]), a[1..], b);
    }
  }

  /** No instruction of `code` changes the Z height. */
  predicate ZNeutral(code: seq<Instr>) {
    forall k :: 0 <= k < |code| ==> !code[k].MoveZ?
  }

  lemma {:induction false} RunZNeutral(s: MachineState, code: seq<Instr>)
    requires ZNeutral(code)
    ensures Run(s, code).z == s.z
    decreases |code|
  {
    if |code| > 0 {
      RunZNeutral(Exec(s, code[0]), code[1..]);
    }
  }

  lemma RunOne(s: MachineState, i: Instr)
    ensures Run(s, [i]) == Exec(s, i)
  {
    assert [i][1..] == [];
  }

  lemma RunTwo(s: MachineState, i: Instr, j: Instr)
    ensures Run(s, [i, j]) == Exec(Exec(s, i), j)
  {
    assert [i, j] == [i] + [j];
    RunAppend(s, [i], [j]);
    RunOne(s, i);
    RunOne(Exec(s, i), j);
  }

  lemma RunSnoc(s: MachineState, a: seq<Instr>, i: Instr)
    ensures Run(s, a + [i]) == Exec(Run(s, a), i)
  {
    RunAppend(s, a, [i]);
  }

  /** Only moves in the plane and feed-rate changes: no Z move and no
      retraction change. Printed shapes are plain. */
  predicate Plain(code: seq<Instr>) {
    forall k :: 0 <= k < |code| ==> code[k].Travel? || code[k].Feed? || code[k].Extrude?
  }

  /** A plain sequence keeps the height and the retraction state. */
  lemma {:induction false} RunPlain(s: MachineState, code: seq<Instr>)
    requires Plain(code)
    ensures Run(s, code).z == s.z && Run(s, code).retraction == s.retraction
    decreases |code|
  {
    if |code| > 0 {
      RunPlain(Exec(s, code[0]), code[1..]);
    }
  }

  /** Every retraction is followed by a later detraction. */
  predicate NoRetractAtEnd(code: seq<Instr>) {
    forall k :: 0 <= k < |code| && code[k].Retract? ==> exists j :: k < j < |code| && code[j].Detract?
  }

  /** Code that never leaves the filament retracted keeps an unretracted
      machine unretracted. */
  lemma {:induction false} RunUnretracted(s: MachineState, code: seq<Instr>)
    requires NoRetractAtEnd(code) && s.retraction == Unretracted
    ensures Run(s, code).retraction == Unretracted
    decreases |code|
  {
    if |code| > 0 {
      var n := |code| - 1;
      var front := code[..n];
      assert code == front + [code[n]];
      RunSnoc(s, front, code[n]);
      if !code[n].Detract? {
        assert NoRetractAtEnd(front) by {
          forall k | 0 <= k < |front| && front[k].Retract?
            ensures exists j :: k < j < |front| && front[j].Detract?
          {
            var j :| k < j < |code| && code[j].Detract?;
            assert front[j].Detract?;
          }
        }
        RunUnretracted(s, front);
        if code[n].Retract? {
          assert false;
        }
      }
    }
  }

  /** The points the tool head is sent to, in order. */
  function Path(code: seq<Instr>): (p: seq<Point>)
    ensures |p| <= |code|
    decreases |code|
  {
    if |code| == 0 then []
    else
      var rest := Path(code[1..]);
      match code[0]
      case Travel(q) => [q] + rest
      case Extrude(q, _) => [q] + rest
      case _ => rest
  }

  lemma {:induction false} PathAppend(a: seq<Instr>, b: seq<Instr>)
    ensures Path(a + b) == Path(a) + Path(b)
    decreases |a|
  {
    if |a| == 0 {
      assert a + b == b;
    } else {
      assert (a + b)[1..] == a[1..] + b;
      PathAppend(a[1..], b);
    }
  }

  /** No instruction of `code` moves the head in the plane. */
  predicate Stationary(code: seq<Instr>) {
    forall k :: 0 <= k < |code| ==> !code[k].Travel? && !code[k].Extrude?
  }

  lemma {:induction false} PathStationary(code: seq<Instr>)
    requires Stationary(code)
    ensures Path(code) == []
    decreases |code|
  {
    if |code| > 0 {
      PathStationary(code[1..]);
    }
  }

  lemma PathOne(i: Instr)
    ensures Path([i]) == if i.Travel? || i.Extrude? then [i.to] else []
  {
    assert [i][1..] == [];
  }

  /** Number of occurrences of `i` in `code`. */
  function Count(code: seq<Instr>, i: Instr): nat {
    multiset(code)[i]
  }

  lemma CountAppend(a: seq<Instr>, b: seq<Instr>, i: Instr)
    ensures Count(a + b, i) == Count(a, i) + Count(b, i)
  {
    assert multiset(a + b) == multiset(a) + multiset(b);
  }

  lemma CountOne(x: Instr, i: Instr)
    ensures Count([x], i) == if x == i then 1 else 0
  {
  }

  /** Layer markers and tool-block markers emitted by the slicer as
      parameterized comments. */
  datatype Label =
    | AfterLayerChange(layer: int, z: real)
    | BeforeLayerChange(layer: int, z: real)
    | ToolBlockStart(tool: int)
    | ToolBlockEnd(tool: int)
    | OtherLabel(name: string)

  /** Token kinds: `Command` stands for every token that is neither a
      tool change nor a parameterized label (moves and other commands). */
  datatype Kind =
    | Command
    | ToolChangeCmd(nextTool: int)
    | Params(tag: Label)

  datatype Token = Token(kind: Kind, post: MachineState)

  predicate IsBeforeLayerChange(t: Token) {
    t.kind.Params? && t.kind.tag.BeforeLayerChange?
  }
}

=== FILE: geometry.dfy ===
/** Vertex generation (circle_generate_vertices, zigzag_generate_vertices)
    and the seam rotation the pillar bands apply to a ring (deque.rotate).

    The trigonometry and the three-decimal rounding of a ring vertex are left
    to the configuration's `vertex` function; everything built on top of it
    is modelled exactly. */
module Geometry {
  import opened GCode
  import opened Conf

  /** The `faces` vertices of the ring of radius `radius` around the tower
      centre, in angular order. */
  function Ring(c: Config, radius: real): (vs: seq<Point>)
    ensures |vs| == c.faces
    ensures forall k :: 0 <= k < |vs| ==> vs[k] == c.vertex(radius, k)
  {
    seq(c.faces, k requires 0 <= k < c.faces => c.vertex(radius, k))
  }

  /** Alternates the elements of two sequences of equal length. */
  function Interleave<T>(a: seq<T>, b: seq<T>): (v: seq<T>)
    requires |a| == |b|
    ensures |v| == 2 * |a|
    ensures forall i :: 0 <= i < |a| ==> v[2 * i] == a[i] && v[2 * i + 1] == b[i]
    decreases |a|
  {
    if |a| == 0 then []
    else
      var rest := Interleave(a[1..], b[1..]);
      assert forall i :: 1 <= i < |a| ==> rest[2 * (i - 1)] == a[i] && rest[2 * (i - 1) + 1] == b[i];
      [a[0], b[0]] + rest
  }

  /** Elements at even positions. */
  function Evens<T>(v: seq<T>): (a: seq<T>)
    ensures |a| == (|v| + 1) / 2
    ensures forall i :: 0 <= i < |a| ==> a[i] == v[2 * i]
  {
    seq((|v| + 1) / 2, i requires 0 <= i < (|v| + 1) / 2 => v[2 * i])
  }

  /** Elements at odd positions. */
  function Odds<T>(v: seq<T>): (b: seq<T>)
    ensures |b| == |v| / 2
    ensures forall i :: 0 <= i < |b| ==> b[i] == v[2 * i + 1]
  {
    seq(|v| / 2, i requires 0 <= i < |v| / 2 => v[2 * i + 1])
  }

  /** Interleaving is undone by taking the even and the odd positions. */
  lemma InterleaveSplit<T>(a: seq<T>, b: seq<T>)
    requires |a| == |b|
    ensures Evens(Interleave(a, b)) == a
    ensures Odds(Interleave(a, b)) == b
  {
  }

  /** zigzag_generate_vertices: the vertices of two concentric rings,
      alternating between the inner and the outer one. */
  function Zigzag(c: Config, r1: real, r2: real): (v: seq<Point>)
    ensures |v| == 2 * c.faces
    ensures forall i :: 0 <= i < c.faces ==> v[2 * i] == c.vertex(r1, i) && v[2 * i + 1] == c.vertex(r2, i)
  {
    Interleave(Ring(c, r1), Ring(c, r2))
  }

  /** deque.rotate(n): every element moves `n` places to the right,
      wrapping around; a negative `n` rotates left. */
  function RotateRight<T>(s: seq<T>, n: int): (r: seq<T>)
    ensures |r| == |s|
    ensures forall k :: 0 <= k < |s| ==> r[k] == s[(k - n) % |s|]
  {
    if |s| == 0 then s
    else
      var m := n % |s|;
      var cut := |s| - m;
      var r := s[cut..] + s[..cut];
      assert forall k :: 0 <= k < |s| ==> r[k] == s[(k - n) % |s|] by {
        forall k | 0 <= k < |s| ensures r[k] == s[(k - n) % |s|] {
          RotateIndex(|s|, n, k);
        }
      }
      r
  }

  lemma MulGe(a: int, b: int)
    requires a >= 1 && b > 0
    ensures a * b >= b
  {
    assert a * b == (a - 1) * b + b;
  }

  /** Euclidean division is determined by quotient and remainder. */
  lemma ModUnique(x: int, len: int, q: int, m: int)
    requires len > 0 && 0 <= m < len && x == q * len + m
    ensures x % len == m && x / len == q
  {
    var d := x / len;
    var r := x % len;
    assert x == d * len + r;
    assert (d - q) * len == m - r;
    if d - q >= 1 {
      MulGe(d - q, len);
    } else if q - d >= 1 {
      MulGe(q - d, len);
    }
  }

  lemma RotateIndex(len: nat, n: int, k: nat)
    requires 0 <= k < len
    ensures var cut := len - n % len;
            (k < len - cut ==> (k - n) % len == cut + k)
            && (k >= len - cut ==> (k - n) % len == k - (len - cut))
  {
    var m := n % len;
    var q := n / len;
    assert n == q * len + m;
    if k < m {
      assert k - n == (-q - 1) * len + (len - m + k);
      ModUnique(k - n, len, -q - 1, len - m + k);
    } else {
      assert k - n == (-q) * len + (k - m);
      ModUnique(k - n, len, -q, k - m);
    }
  }

  /** Rotating back by the same amount restores the sequence. */
  lemma RotateInverse<T>(s: seq<T>, n: int)
    ensures RotateRight(RotateRight(s, n), -n) == s
  {
    var r := RotateRight(s, n);
    var t := RotateRight(r, -n);
    forall k | 0 <= k < |s| ensures t[k] == s[k] {
      ModShift(|s|, n, k);
    }
  }

  lemma ModShift(len: nat, n: int, k: nat)
    requires 0 <= k < len
    ensures ((k + n) % len - n) % len == k
  {
    var j := (k + n) % len;
    var q := (k + n) / len;
    assert k + n == q * len + j;
    assert j - n == (-q) * len + k;
    ModUnique(j - n, len, -q, k);
  }

  /** A rotation by a multiple of the length changes nothing; in particular
      the ring of layer 0, and of every layer whose number is a multiple of
      the face count, starts at its angular origin. */
  lemma RotateFull<T>(s: seq<T>, q: int)
    ensures RotateRight(s, q * |s|) == s
  {
    if |s| > 0 {
      forall k | 0 <= k < |s| ensures RotateRight(s, q * |s|)[k] == s[k] {
        assert k - q * |s| == (-q) * |s| + k;
        ModUnique(k - q * |s|, |s|, -q, k);
      }
    }
  }
}

=== FILE: inject.dfy ===
/** Code injection: PrimeTowerLayerInfo.inject_gcode and
    PrimeTower.inject_gcode.

    For every entry of a layer's tool sequence a block is built (move-in,
    the tool's pillar band, the idle-tool bands for the first entry only,
    move-out) and spliced right after that entry's injection point. The
    blocks of a layer are planned first and then spliced: a block depends
    only on the annotated state of its marker token, which splicing never
    changes, and an error aborts the whole run, so this gives the same list
    as interleaving the two. */
module Inject {
  import opened Wrappers
  import opened GCode
  import opened Conf
  import opened Tower
  import opened Shapes
  import opened Transitions
  import opened Stream

  /** A block of code to insert right after the token `at`. */
  datatype Splice = Splice(at: Marker, code: seq<Instr>)

  /** Where the k-th entry of the tool sequence is injected. The first
      entry goes after the layer start on layer 0, after the layer end when
      the layer has no tool change of its own, and otherwise after the end
      of the carried-over tool's block (filling the gap with the same
      filament); every later entry goes right after its TOOL_BLOCK_START label. */
  function InjectionMarker(l: Layer, changes: seq<ToolChange>, k: nat): (m: Option<Marker>)
    requires LayerRefsValid(l, |changes|) && k < |l.toolsSeq|
    ensures k > 0 ==> m == changes[l.toolsSeq[k]].blockStart
    ensures k == 0 && l.num == 0 ==> m == l.start
    ensures k == 0 && l.num != 0 && |l.changeSeq| == 0 ==> m == l.end
    ensures k == 0 && l.num != 0 && |l.changeSeq| > 0 ==> m == changes[l.toolsSeq[0]].blockEnd
  {
    if k == 0 && l.num == 0 then l.start
    else if k == 0 && |l.changeSeq| == 0 then l.end
    else if k == 0 then changes[l.toolsSeq[0]].blockEnd
    else changes[l.toolsSeq[k]].blockStart
  }

  lemma MarkerWithin(l: Layer, changes: seq<ToolChange>, k: nat, n: nat)
    requires LayerRefsValid(l, |changes|) && k < |l.toolsSeq| && MarkersWithin(changes, l, n)
    ensures InjectionMarker(l, changes, k).Some? ==> InjectionMarker(l, changes, k).value < n
  {
  }

  /** The idle-tool bands that go into the k-th block: all of them in the
      first block, none in the others. */
  function IdleFor(c: Config, radii: Radii, l: Layer, tool: ToolId, k: nat): (r: Result<seq<Instr>, Error>)
    ensures r.Success? ==> ZNeutral(r.value) && NoRetractAtEnd(r.value)
    ensures r.Success? ==> Count(r.value, Retract) == (if k == 0 then |l.idle| else 0)
    ensures k > 0 || |l.idle| == 0 ==> r == Success([])
  {
    if k == 0 && |l.idle| != 0 then IdleToolBands(c, radii, l, tool) else Success([])
  }

  /** The block for the k-th entry of the layer's tool sequence. */
  function Block(c: Config, radii: Radii, tokens: seq<Token>, changes: seq<ToolChange>, l: Layer, k: nat)
    : (r: Result<Splice, Error>)
    requires LayerRefsValid(l, |changes|) && k < |l.toolsSeq| && MarkersWithin(changes, l, |tokens|)
    ensures InjectionMarker(l, changes, k).None? ==> r == Failure(MissingMarker(l.num, k))
    ensures r.Success? ==>
      && InjectionMarker(l, changes, k) == Some(r.value.at)
      && r.value.at < |tokens|
      && tokens[r.value.at].post.z.Some?
  {
    var mk := InjectionMarker(l, changes, k);
    if mk.None? then Failure(MissingMarker(l.num, k))
    else
      MarkerWithin(l, changes, k, |tokens|);
      var tool := changes[l.toolsSeq[k]].toolId;
      var band :- PillarBand(c, radii, l, tool);
      var idle :- IdleFor(c, radii, l, tool, k);
      var code :- MoveIn(c, l, tokens[mk.value].post, band);
      var out :- MoveOut(c, l, mk.value, tokens[mk.value], code + idle);
      Success(Splice(mk.value, out))
  }

  /** Every block leaves the machine as `RoundTrip` describes: off a layer
      change it is back at the marker's position, height and feed rate when
      the position was known, primed again exactly when the marker was
      primed; before a layer change it is at the tower layer's height, with
      the marker's retraction state when that was known. */
  lemma BlockRestores(c: Config, radii: Radii, tokens: seq<Token>, changes: seq<ToolChange>, l: Layer, k: nat)
    requires LayerRefsValid(l, |changes|) && k < |l.toolsSeq| && MarkersWithin(changes, l, |tokens|)
    ensures var r := Block(c, radii, tokens, changes, l, k);
      r.Success? ==> Restores(l, tokens, r.value)
  {
    var r := Block(c, radii, tokens, changes, l, k);
    if r.Success? {
      var m := r.value.at;
      var tool := changes[l.toolsSeq[k]].toolId;
      var band := PillarBand(c, radii, l, tool).value;
      var idle := IdleFor(c, radii, l, tool, k).value;
      RoundTrip(c, l, m, tokens[m], band, idle);
    }
  }

  /** The restoring property of one spliced block. */
  predicate Restores(l: Layer, tokens: seq<Token>, b: Splice)
    requires b.at < |tokens|
  {
    var s := tokens[b.at].post;
    var f := Run(s, b.code);
    var before := IsBeforeLayerChange(tokens[b.at]);
    && (before ==> f.z == Some(l.z) && (s.retraction != UnknownRetraction ==> f.retraction == s.retraction))
    && (!before ==> f.retraction == Back(s))
    && (!before && s.x.Some? && s.y.Some? ==> f == s.(retraction := Back(s)))
    && (!before && (s.x.None? || s.y.None?) ==> f.z == Some(l.z))
  }

  /** What a block draws: the pillar band of its tool on this layer's
      rotation, then (first block only) every idle tool's rings, unrotated,
      in ascending tool order, and finally the marker's own position when
      move-out travels back to it. */
  lemma BlockPath(c: Config, radii: Radii, tokens: seq<Token>, changes: seq<ToolChange>, l: Layer, k: nat)
    requires LayerRefsValid(l, |changes|) && k < |l.toolsSeq| && MarkersWithin(changes, l, |tokens|)
    ensures var r := Block(c, radii, tokens, changes, l, k);
      r.Success? ==>
        Path(r.value.code)
          == BandPath(c, radii, l.num, changes[l.toolsSeq[k]].toolId, l.num)
           + (if k == 0 then IdlePath(c, radii, l.num, SortedElems(l.idle)) else [])
           + ReturnPoint(tokens[r.value.at])
  {
    var r := Block(c, radii, tokens, changes, l, k);
    if r.Success? {
      BlockParts(c, radii, tokens, changes, l, k);
      var m := r.value.at;
      var tool := changes[l.toolsSeq[k]].toolId;
      var band := PillarBand(c, radii, l, tool).value;
      var idle := IdleFor(c, radii, l, tool, k).value;
      WrappedPath(c, l, m, tokens[m], band, idle);
      IdleForPath(c, radii, l, tool, k);
    }
  }

  /** A successful block is move-out after move-in around its tool's band,
      followed by the idle part. */
  lemma BlockParts(c: Config, radii: Radii, tokens: seq<Token>, changes: seq<ToolChange>, l: Layer, k: nat)
    requires LayerRefsValid(l, |changes|) && k < |l.toolsSeq| && MarkersWithin(changes, l, |tokens|)
    ensures var r := Block(c, radii, tokens, changes, l, k);
      r.Success? ==>
        var m := r.value.at;
        var tool := changes[l.toolsSeq[k]].toolId;
        var band := PillarBand(c, radii, l, tool);
        var idle := IdleFor(c, radii, l, tool, k);
        && band.Success? && idle.Success?
        && MoveIn(c, l, tokens[m].post, band.value).Success?
        && MoveOut(c, l, m, tokens[m], MoveIn(c, l, tokens[m].post, band.value).value + idle.value)
           == Success(r.value.code)
  {
  }

  /** The point move-out travels back to, if any. */
  function ReturnPoint(tok: Token): seq<Point> {
    var s := tok.post;
    if !IsBeforeLayerChange(tok) && s.x.Some? && s.y.Some? then [Point(s.x.value, s.y.value)] else []
  }

  /** The path of a wrapped band: the band's, then the idle code's, then
      the return point. */
  lemma WrappedPath(c: Config, l: Layer, m: Marker, tok: Token, band: seq<Instr>, idle: seq<Instr>)
    requires MoveIn(c, l, tok.post, band).Success?
    requires MoveOut(c, l, m, tok, MoveIn(c, l, tok.post, band).value + idle).Success?
    ensures Path(MoveOut(c, l, m, tok, MoveIn(c, l, tok.post, band).value + idle).value)
            == Path(band) + Path(idle) + ReturnPoint(tok)
  {
    var code := MoveIn(c, l, tok.post, band).value + idle;
    var out := MoveOut(c, l, m, tok, code).value;
    assert out == code + out[|code|..];
    PathAppend(code, out[|code|..]);
    PathAppend(MoveIn(c, l, tok.post, band).value, idle);
    if IsBeforeLayerChange(tok) {
      PathOne(Retract);
    }
  }

  /** The idle part of a block draws the idle tools' rings. */
  lemma IdleForPath(c: Config, radii: Radii, l: Layer, tool: ToolId, k: nat)
    requires IdleFor(c, radii, l, tool, k).Success?
    ensures Path(IdleFor(c, radii, l, tool, k).value)
            == if k == 0 then IdlePath(c, radii, l.num, SortedElems(l.idle)) else []
  {
    if k == 0 && |l.idle| == 0 {
      assert SortedElems(l.idle) == [];
    }
  }

  /** Every extrusion of a block, bands of idle tools included, is metered
      for the block's tool and the layer's height. */
  lemma BlockMetered(c: Config, radii: Radii, tokens: seq<Token>, changes: seq<ToolChange>, l: Layer, k: nat)
    requires LayerRefsValid(l, |changes|) && k < |l.toolsSeq| && MarkersWithin(changes, l, |tokens|)
    ensures var r := Block(c, radii, tokens, changes, l, k);
      r.Success? ==> Metered(c, changes[l.toolsSeq[k]].toolId, l.height, r.value.code)
  {
    var r := Block(c, radii, tokens, changes, l, k);
    if r.Success? {
      BlockParts(c, radii, tokens, changes, l, k);
      var m := r.value.at;
      var tool := changes[l.toolsSeq[k]].toolId;
      var band := PillarBand(c, radii, l, tool).value;
      var idle := IdleFor(c, radii, l, tool, k).value;
      WrappedMetered(c, l, m, tokens[m], band, idle, tool);
    }
  }

  lemma WrappedMetered(c: Config, l: Layer, m: Marker, tok: Token, band: seq<Instr>, idle: seq<Instr>, tool: ToolId)
    requires |band| > 0 && band[0].Travel? && Metered(c, tool, l.height, band)
    requires Anchored(idle) && Metered(c, tool, l.height, idle)
    requires MoveOut(c, l, m, tok, MoveIn(c, l, tok.post, band).value + idle).Success?
    ensures Metered(c, tool, l.height, MoveOut(c, l, m, tok, MoveIn(c, l, tok.post, band).value + idle).value)
  {
    var code := MoveIn(c, l, tok.post, band).value;
    MoveInMetered(c, l, tok.post, band, tool);
    MeteredAppend(c, tool, l.height, None, code, idle);
    OutMetered(c, l, m, tok, code + idle, tool);
  }

  /** Move-out adds no extrusion, so it keeps metered code metered. */
  lemma OutMetered(c: Config, l: Layer, m: Marker, tok: Token, code: seq<Instr>, tool: ToolId)
    requires Metered(c, tool, l.height, code)
    requires MoveOut(c, l, m, tok, code).Success?
    ensures Metered(c, tool, l.height, MoveOut(c, l, m, tok, code).value)
  {
    var out := MoveOut(c, l, m, tok, code).value;
    assert out == code + out[|code|..];
    MeteredNoExtrude(c, tool, l.height, None, code, out[|code|..]);
  }

  /** Move-in keeps a band that travels first metered. */
  lemma MoveInMetered(c: Config, l: Layer, s: MachineState, band: seq<Instr>, tool: ToolId)
    requires |band| > 0 && band[0].Travel? && Metered(c, tool, l.height, band)
    ensures Metered(c, tool, l.height, MoveIn(c, l, s, band).value)
  {
    assert MoveIn(c, l, s, band).value
        == MoveInBefore(c, l, s) + [band[0]] + MoveInAfter(l, s) + band[1..];
    MoveInStationary(c, l, s);
    AroundMetered(c, tool, l.height, MoveInBefore(c, l, s), band, MoveInAfter(l, s));
  }

  /** Non-moving instructions around a band's first travel keep it metered. */
  lemma AroundMetered(c: Config, tool: ToolId, h: real, pre: seq<Instr>, band: seq<Instr>, post: seq<Instr>)
    requires |band| > 0 && band[0].Travel? && Metered(c, tool, h, band)
    requires Stationary(pre) && Stationary(post)
    ensures Metered(c, tool, h, pre + [band[0]] + post + band[1..])
  {
    var rest := [band[0]] + (post + band[1..]);
    assert pre + [band[0]] + post + band[1..] == pre + rest;
    MeteredSkip(c, tool, h, None, pre, rest);
    assert rest[1..] == post + band[1..];
    MeteredSkip(c, tool, h, Some(band[0].to), post, band[1..]);
  }

  /** Retractions in a block: those of the idle bands (first block only),
      the move-in one when the filament was primed, and the move-out one
      (before a layer change only if the marker was retracted). */
  lemma BlockRetractions(c: Config, radii: Radii, tokens: seq<Token>, changes: seq<ToolChange>, l: Layer, k: nat)
    requires LayerRefsValid(l, |changes|) && k < |l.toolsSeq| && MarkersWithin(changes, l, |tokens|)
    ensures var r := Block(c, radii, tokens, changes, l, k);
      r.Success? ==>
        var s := tokens[r.value.at].post;
        Count(r.value.code, Retract)
          == (if k == 0 then |l.idle| else 0)
           + B2N(s.retraction == Unretracted)
           + (if IsBeforeLayerChange(tokens[r.value.at]) then B2N(s.retraction == Retracted) else 1)
  {
    var r := Block(c, radii, tokens, changes, l, k);
    if r.Success? {
      var m := r.value.at;
      var tool := changes[l.toolsSeq[k]].toolId;
      var band := PillarBand(c, radii, l, tool).value;
      var idle := IdleFor(c, radii, l, tool, k).value;
      assert r.value.code == MoveOut(c, l, m, tokens[m], MoveIn(c, l, tokens[m].post, band).value + idle).value;
      WrappedRetractions(c, l, m, tokens[m], band, idle);
    }
  }

  /** Retractions of a band wrapped by move-in and move-out, with idle code
      between them. */
  lemma WrappedRetractions(c: Config, l: Layer, m: Marker, tok: Token, band: seq<Instr>, idle: seq<Instr>)
    requires |band| > 0 && Plain(band) && tok.post.z.Some?
    ensures var code := MoveIn(c, l, tok.post, band).value + idle;
      var s := tok.post;
      Count(MoveOut(c, l, m, tok, code).value, Retract)
        == Count(idle, Retract)
         + B2N(s.retraction == Unretracted)
         + (if IsBeforeLayerChange(tok) then B2N(s.retraction == Retracted) else 1)
  {
    var s := tok.post;
    var code := MoveIn(c, l, s, band).value;
    var out := MoveOut(c, l, m, tok, code + idle).value;
    var added := out[|code + idle|..];
    assert out == (code + idle) + added;
    CountAppend(code + idle, added, Retract);
    CountAppend(code, idle, Retract);
    PlainNoRetract(band);
    if IsBeforeLayerChange(tok) {
      OptCount(s.retraction == Retracted, Retract, Retract);
      assert added == OptInstr(s.retraction == Retracted, Retract);
    }
  }

  lemma PlainNoRetract(code: seq<Instr>)
    requires Plain(code)
    ensures Count(code, Retract) == 0
  {
    assert Retract !in code by {
      assert forall k :: 0 <= k < |code| ==> code[k] != Retract;
    }
  }

  /** The block attempts for every entry of the tool sequence. */
  function Blocks(c: Config, radii: Radii, tokens: seq<Token>, changes: seq<ToolChange>, l: Layer)
    : (bs: seq<Result<Splice, Error>>)
    requires LayerRefsValid(l, |changes|) && MarkersWithin(changes, l, |tokens|)
    ensures |bs| == |l.toolsSeq|
  {
    seq(|l.toolsSeq|, k requires 0 <= k < |l.toolsSeq| => Block(c, radii, tokens, changes, l, k))
  }

  lemma BlockAt(c: Config, radii: Radii, tokens: seq<Token>, changes: seq<ToolChange>, l: Layer, k: nat)
    requires LayerRefsValid(l, |changes|) && MarkersWithin(changes, l, |tokens|) && k < |l.toolsSeq|
    ensures Blocks(c, radii, tokens, changes, l)[k] == Block(c, radii, tokens, changes, l, k)
  {
  }

  /** The blocks of one layer: none for a terminal layer, otherwise one per
      entry of the tool sequence, each after its injection point and each
      restoring the machine state it found there. */
  function LayerPlan(c: Config, radii: Radii, tokens: seq<Token>, changes: seq<ToolChange>, l: Layer)
    : (r: Result<seq<Splice>, Error>)
    requires LayerRefsValid(l, |changes|) && MarkersWithin(changes, l, |tokens|)
    ensures Terminal(l) ==> r == Success([])
    ensures !Terminal(l) && (exists k :: 0 <= k < |l.toolsSeq| && InjectionMarker(l, changes, k).None?) ==> r.Failure?
    ensures var bs := Blocks(c, radii, tokens, changes, l);
      && (!Terminal(l) ==> (r.Success? <==> forall k :: 0 <= k < |bs| ==> bs[k].Success?))
      && (!Terminal(l) && r.Success? ==> |r.value| == |bs| && forall j :: 0 <= j < |bs| ==> r.value[j] == bs[j].value)
      && (r.Failure? ==>
            exists k :: 0 <= k < |bs| && bs[k].Failure? && bs[k].error == r.error
                        && forall j :: 0 <= j < k ==> bs[j].Success?)
    ensures !Terminal(l) && r.Success? ==>
      && |r.value| == |l.toolsSeq|
      && forall j :: 0 <= j < |r.value| ==>
           && InjectionMarker(l, changes, j) == Some(r.value[j].at)
           && r.value[j].at < |tokens|
           && Restores(l, tokens, r.value[j])
  {
    if Terminal(l) then Success([])
    else
      PlanRestores(c, radii, tokens, changes, l);
      Collect(Blocks(c, radii, tokens, changes, l))
  }

  lemma PlanRestores(c: Config, radii: Radii, tokens: seq<Token>, changes: seq<ToolChange>, l: Layer)
    requires LayerRefsValid(l, |changes|) && MarkersWithin(changes, l, |tokens|)
    ensures var r := Collect(Blocks(c, radii, tokens, changes, l));
      && ((exists k :: 0 <= k < |l.toolsSeq| && InjectionMarker(l, changes, k).None?) ==> r.Failure?)
      && (r.Success? ==>
            && |r.value| == |l.toolsSeq|
            && forall j :: 0 <= j < |r.value| ==>
                 && InjectionMarker(l, changes, j) == Some(r.value[j].at)
                 && r.value[j].at < |tokens|
                 && Restores(l, tokens, r.value[j]))
  {
    var bs := Blocks(c, radii, tokens, changes, l);
    var r := Collect(bs);
    if exists k :: 0 <= k < |l.toolsSeq| && InjectionMarker(l, changes, k).None? {
      var k :| 0 <= k < |l.toolsSeq| && InjectionMarker(l, changes, k).None?;
      BlockAt(c, radii, tokens, changes, l, k);
      assert bs[k].Failure?;
    }
    if r.Success? {
      forall j | 0 <= j < |r.value|
        ensures && InjectionMarker(l, changes, j) == Some(r.value[j].at)
                && r.value[j].at < |tokens|
                && Restores(l, tokens, r.value[j])
      {
        BlockAt(c, radii, tokens, changes, l, j);
        assert bs[j].value == r.value[j];
        BlockRestores(c, radii, tokens, changes, l, j);
      }
    }
  }

  /** Splices the blocks of a plan in order. */
  function ApplySplices(st: seq<Entry>, plan: seq<Splice>): (r: seq<Entry>)
    requires forall j :: 0 <= j < |plan| ==> plan[j].at in Origins(st)
    ensures Origins(r) == Origins(st)
    ensures |r| == |st| + TotalSize(plan)
    decreases |plan|
  {
    if |plan| == 0 then st
    else
      var next := SpliceAfter(st, plan[0].at, plan[0].code);
      SpliceKeepsOrigins(st, plan[0].at, plan[0].code);
      ApplySplices(next, plan[1..])
  }

  function TotalSize(plan: seq<Splice>): nat
    decreases |plan|
  {
    if |plan| == 0 then 0 else |plan[0].code| + TotalSize(plan[1..])
  }

  /** Every splice of the plan is at a token of `st`. */
  predicate AtOrigins(st: seq<Entry>, plan: seq<Splice>) {
    forall j :: 0 <= j < |plan| ==> plan[j].at in Origins(st)
  }

  lemma WithinOrigins(st: seq<Entry>, n: nat, plan: seq<Splice>)
    requires Origins(st) == Range(0, n)
    requires Within(plan, n)
    ensures AtOrigins(st, plan)
  {
    forall j | 0 <= j < |plan| ensures plan[j].at in Origins(st) {
      assert Range(0, n)[plan[j].at] == plan[j].at;
    }
  }

  /** PrimeTowerLayerInfo.inject_gcode on the token list `st`: it fails
      exactly when the layer's plan does, with its error. */
  function InjectLayer(c: Config, radii: Radii, tokens: seq<Token>, changes: seq<ToolChange>, l: Layer, st: seq<Entry>)
    : (r: Result<seq<Entry>, Error>)
    requires LayerRefsValid(l, |changes|) && MarkersWithin(changes, l, |tokens|)
    requires Origins(st) == Range(0, |tokens|)
    ensures r.Success? ==> Origins(r.value) == Origins(st) && |r.value| >= |st|
    ensures Terminal(l) ==> r == Success(st)
    ensures var plan := LayerPlan(c, radii, tokens, changes, l);
      && (r.Success? <==> plan.Success?)
      && (r.Failure? ==> r.error == plan.error)
      && (r.Success? ==> AtOrigins(st, plan.value) && r.value == ApplySplices(st, plan.value))
  {
    var plan :- LayerPlan(c, radii, tokens, changes, l);
    WithinOrigins(st, |tokens|, plan);
    Success(ApplySplices(st, plan))
  }

  /** The injection points of a layer's blocks are pairwise different. */
  predicate DistinctMarkers(l: Layer, changes: seq<ToolChange>)
    requires LayerRefsValid(l, |changes|)
  {
    forall j, k :: 0 <= j < k < |l.toolsSeq| ==> InjectionMarker(l, changes, j) != InjectionMarker(l, changes, k)
  }

  /** The splices of a plan are at pairwise different tokens. */
  predicate DistinctAt(plan: seq<Splice>) {
    forall i, j :: 0 <= i < j < |plan| ==> plan[i].at != plan[j].at
  }

  /** After injecting a layer whose injection points differ, each of its
      blocks sits in one piece right after its injection point. */
  lemma InjectLayerPlaces(c: Config, radii: Radii, tokens: seq<Token>, changes: seq<ToolChange>, l: Layer, st: seq<Entry>)
    requires LayerRefsValid(l, |changes|) && MarkersWithin(changes, l, |tokens|)
    requires Origins(st) == Range(0, |tokens|)
    requires DistinctMarkers(l, changes)
    ensures var r := InjectLayer(c, radii, tokens, changes, l, st);
      r.Success? && !Terminal(l) ==>
        forall k :: 0 <= k < |l.toolsSeq| ==>
          && InjectionMarker(l, changes, k).Some?
          && Block(c, radii, tokens, changes, l, k).Success?
          && Placed(r.value, InjectionMarker(l, changes, k).value, Block(c, radii, tokens, changes, l, k).value.code)
  {
    var r := InjectLayer(c, radii, tokens, changes, l, st);
    if r.Success? && !Terminal(l) {
      var plan := LayerPlan(c, radii, tokens, changes, l).value;
      assert DistinctAt(plan) by {
        forall i, j | 0 <= i < j < |plan| ensures plan[i].at != plan[j].at {
          assert InjectionMarker(l, changes, i) != InjectionMarker(l, changes, j);
        }
      }
      ApplyPlaces(st, plan);
      var bs := Blocks(c, radii, tokens, changes, l);
      forall k | 0 <= k < |l.toolsSeq|
        ensures && InjectionMarker(l, changes, k).Some?
                && Block(c, radii, tokens, changes, l, k).Success?
                && Placed(r.value, InjectionMarker(l, changes, k).value, Block(c, radii, tokens, changes, l, k).value.code)
      {
        BlockAt(c, radii, tokens, changes, l, k);
        assert plan[k] == bs[k].value;
      }
    }
  }

  /** Splicing a plan with pairwise different tokens places every block. */
  lemma {:induction false} ApplyPlaces(st: seq<Entry>, plan: seq<Splice>)
    requires AtOrigins(st, plan) && DistinctAt(plan)
    ensures forall j :: 0 <= j < |plan| ==> Placed(ApplySplices(st, plan), plan[j].at, plan[j].code)
    decreases |plan|
  {
    if |plan| > 0 {
      var next := SpliceAfter(st, plan[0].at, plan[0].code);
      SpliceKeepsOrigins(st, plan[0].at, plan[0].code);
      SplicePlaced(st, plan[0].at, plan[0].code);
      ApplyPlaces(next, plan[1..]);
      ApplyKeepsPlaced(next, plan[1..], plan[0].at, plan[0].code);
      forall j | 0 <= j < |plan| ensures Placed(ApplySplices(st, plan), plan[j].at, plan[j].code) {
        if j > 0 {
          assert plan[j] == plan[1..][j - 1];
        }
      }
    }
  }

  /** Splices at other tokens leave a placed block in place. */
  lemma {:induction false} ApplyKeepsPlaced(st: seq<Entry>, plan: seq<Splice>, b: nat, block: seq<Instr>)
    requires AtOrigins(st, plan) && Placed(st, b, block)
    requires forall j :: 0 <= j < |plan| ==> plan[j].at != b
    ensures Placed(ApplySplices(st, plan), b, block)
    decreases |plan|
  {
    if |plan| > 0 {
      var next := SpliceAfter(st, plan[0].at, plan[0].code);
      SpliceKeepsOrigins(st, plan[0].at, plan[0].code);
      SpliceKeepsPlaced(st, plan[0].at, plan[0].code, b, block);
      ApplyKeepsPlaced(next, plan[1..], b, block);
    }
  }

  /** Splicing two plans one after the other is splicing their
      concatenation. */
  lemma {:induction false} ApplySplicesAppend(st: seq<Entry>, a: seq<Splice>, b: seq<Splice>)
    requires AtOrigins(st, a) && AtOrigins(st, b)
    ensures AtOrigins(st, a + b)
    ensures ApplySplices(st, a + b) == ApplySplices(ApplySplices(st, a), b)
    decreases |a|
  {
    assert AtOrigins(st, a + b) by {
      forall j | 0 <= j < |a + b| ensures (a + b)[j].at in Origins(st) {
        if j >= |a| {
          assert (a + b)[j] == b[j - |a|];
        }
      }
    }
    if |a| > 0 {
      var next := SpliceAfter(st, a[0].at, a[0].code);
      SpliceKeepsOrigins(st, a[0].at, a[0].code);
      assert (a + b)[0] == a[0];
      assert (a + b)[1..] == a[1..] + b;
      assert AtOrigins(next, a[1..]) by {
        forall j | 0 <= j < |a[1..]| ensures a[1..][j].at in Origins(next) {
          assert a[1..][j] == a[j + 1];
        }
      }
      ApplySplicesAppend(next, a[1..], b);
    } else {
      assert a + b == b;
    }
  }

  /** The plan attempts of layers i, i+1, ... */
  function LayerPlans(c: Config, t: PrimeTower, tokens: seq<Token>, i: nat): (ps: seq<Result<seq<Splice>, Error>>)
    requires WellFormed(t, |tokens|) && i <= |t.layers|
    ensures |ps| == |t.layers| - i
    ensures forall j :: 0 <= j < |ps| ==> ps[j] == LayerPlan(c, t.radii, tokens, t.changes, t.layers[i + j])
    ensures forall j :: 0 <= j < |ps| ==> ps[j].Success? ==> Within(ps[j].value, |tokens|)
  {
    seq(|t.layers| - i, j requires 0 <= j < |t.layers| - i => LayerPlan(c, t.radii, tokens, t.changes, t.layers[i + j]))
  }

  /** The plans of layers i, i+1, ... one after the other: the run's plan
      succeeds exactly when every layer's plan does, and otherwise fails
      with the first failing layer's error. */
  function AllPlans(c: Config, t: PrimeTower, tokens: seq<Token>, i: nat): (r: Result<seq<Splice>, Error>)
    requires WellFormed(t, |tokens|) && i <= |t.layers|
    ensures var ps := LayerPlans(c, t, tokens, i);
      && (r.Success? <==> forall j :: 0 <= j < |ps| ==> ps[j].Success?)
      && (r.Failure? ==>
            exists j :: 0 <= j < |ps| && ps[j] == Failure(r.error)
                        && forall q :: 0 <= q < j ==> ps[q].Success?)
    ensures r.Success? ==> Within(r.value, |tokens|)
  {
    var ps := LayerPlans(c, t, tokens, i);
    ConcatWithin(ps, |tokens|);
    Concat(ps)
  }

  /** The run's plan is the first layer's plan followed by the rest's. */
  lemma AllPlansStep(c: Config, t: PrimeTower, tokens: seq<Token>, i: nat)
    requires WellFormed(t, |tokens|) && i < |t.layers|
    ensures var p := LayerPlan(c, t.radii, tokens, t.changes, t.layers[i]);
      var rest := AllPlans(c, t, tokens, i + 1);
      AllPlans(c, t, tokens, i)
        == if p.Failure? then Failure(p.error)
           else if rest.Failure? then Failure(rest.error)
           else Success(p.value + rest.value)
  {
    var ps := LayerPlans(c, t, tokens, i);
    assert ps[0] == LayerPlan(c, t.radii, tokens, t.changes, t.layers[i]);
    assert ps[1..] == LayerPlans(c, t, tokens, i + 1);
  }

  /** Every splice of the plan is at one of the first `n` tokens. */
  predicate Within(plan: seq<Splice>, n: nat) {
    forall j :: 0 <= j < |plan| ==> plan[j].at < n
  }

  lemma {:induction false} ConcatWithin(ps: seq<Result<seq<Splice>, Error>>, n: nat)
    requires forall j :: 0 <= j < |ps| ==> ps[j].Success? ==> Within(ps[j].value, n)
    ensures Concat(ps).Success? ==> Within(Concat(ps).value, n)
    decreases |ps|
  {
    if |ps| > 0 && ps[0].Success? {
      ConcatWithin(ps[1..], n);
      var rest := Concat(ps[1..]);
      if rest.Success? {
        WithinAppend(ps[0].value, rest.value, n);
      }
    }
  }

  lemma WithinAppend(a: seq<Splice>, b: seq<Splice>, n: nat)
    requires Within(a, n) && Within(b, n)
    ensures Within(a + b, n)
  {
    forall j | 0 <= j < |a + b| ensures (a + b)[j].at < n {
      if j >= |a| {
        assert (a + b)[j] == b[j - |a|];
      }
    }
  }

  /** Injects layers i, i+1, ... in order, stopping at the first error. */
  function InjectFrom(c: Config, t: PrimeTower, tokens: seq<Token>, i: nat, st: seq<Entry>)
    : (r: Result<seq<Entry>, Error>)
    requires WellFormed(t, |tokens|) && i <= |t.layers|
    requires Origins(st) == Range(0, |tokens|)
    ensures r.Success? ==> Origins(r.value) == Origins(st) && |r.value| >= |st|
    ensures (forall j :: i <= j < |t.layers| ==> Terminal(t.layers[j])) ==> r == Success(st)
    decreases |t.layers| - i
  {
    if i == |t.layers| then Success(st)
    else
      var next :- InjectLayer(c, t.radii, tokens, t.changes, t.layers[i], st);
      InjectFrom(c, t, tokens, i + 1, next)
  }

  /** Injecting layer by layer splices all the layers' plans in order, and
      fails with the first failing layer's error. */
  lemma {:induction false} InjectFromPlans(c: Config, t: PrimeTower, tokens: seq<Token>, i: nat, st: seq<Entry>)
    requires WellFormed(t, |tokens|) && i <= |t.layers|
    requires Origins(st) == Range(0, |tokens|)
    ensures InjectsPlans(c, t, tokens, i, st)
    decreases |t.layers| - i
  {
    if i < |t.layers| {
      var l := t.layers[i];
      if LayerPlan(c, t.radii, tokens, t.changes, l).Success? {
        var next := InjectLayer(c, t.radii, tokens, t.changes, l, st).value;
        InjectFromPlans(c, t, tokens, i + 1, next);
        InjectFromStep(c, t, tokens, i, st);
      } else {
        InjectFromFails(c, t, tokens, i, st);
      }
    } else {
      WithinOrigins(st, |tokens|, []);
    }
  }

  /** Injecting layers i, i+1, ... into `st` is splicing their plans. */
  predicate InjectsPlans(c: Config, t: PrimeTower, tokens: seq<Token>, i: nat, st: seq<Entry>)
    requires WellFormed(t, |tokens|) && i <= |t.layers|
    requires Origins(st) == Range(0, |tokens|)
  {
    var r := InjectFrom(c, t, tokens, i, st);
    var a := AllPlans(c, t, tokens, i);
    && (r.Success? <==> a.Success?)
    && (r.Failure? ==> r.error == a.error)
    && (r.Success? ==> AtOrigins(st, a.value) && r.value == ApplySplices(st, a.value))
  }

  lemma InjectFromFails(c: Config, t: PrimeTower, tokens: seq<Token>, i: nat, st: seq<Entry>)
    requires WellFormed(t, |tokens|) && i < |t.layers|
    requires Origins(st) == Range(0, |tokens|)
    requires LayerPlan(c, t.radii, tokens, t.changes, t.layers[i]).Failure?
    ensures InjectsPlans(c, t, tokens, i, st)
  {
    AllPlansStep(c, t, tokens, i);
  }

  lemma InjectFromStep(c: Config, t: PrimeTower, tokens: seq<Token>, i: nat, st: seq<Entry>)
    requires WellFormed(t, |tokens|) && i < |t.layers|
    requires Origins(st) == Range(0, |tokens|)
    requires LayerPlan(c, t.radii, tokens, t.changes, t.layers[i]).Success?
    requires InjectsPlans(c, t, tokens, i + 1, InjectLayer(c, t.radii, tokens, t.changes, t.layers[i], st).value)
    ensures InjectsPlans(c, t, tokens, i, st)
  {
    var p := LayerPlan(c, t.radii, tokens, t.changes, t.layers[i]).value;
    AllPlansStep(c, t, tokens, i);
    var rest := AllPlans(c, t, tokens, i + 1);
    if rest.Success? {
      WithinOrigins(st, |tokens|, p);
      WithinOrigins(st, |tokens|, rest.value);
      ApplySplicesAppend(st, p, rest.value);
    }
  }

  /** PrimeTower.inject_gcode: every layer's code is spliced into the
      token list; the original tokens all stay, in their order. */
  function InjectGcode(c: Config, t: PrimeTower, tokens: seq<Token>): (r: Result<seq<Entry>, Error>)
    requires WellFormed(t, |tokens|)
    ensures r.Success? ==> Origins(r.value) == Range(0, |tokens|) && |r.value| >= |tokens|
    ensures (forall j :: 0 <= j < |t.layers| ==> Terminal(t.layers[j])) ==> r == Success(Initial(|tokens|))
    ensures var a := AllPlans(c, t, tokens, 0);
      && (r.Success? <==> a.Success?)
      && (r.Failure? ==> r.error == a.error)
      && (r.Success? ==> AtOrigins(Initial(|tokens|), a.value) && r.value == ApplySplices(Initial(|tokens|), a.value))
  {
    InitialOrigins(|tokens|);
    InjectFromPlans(c, t, tokens, 0, Initial(|tokens|));
    InjectFrom(c, t, tokens, 0, Initial(|tokens|))
  }

  /** When no two blocks of the whole run share an injection point, every
      block ends up in one piece right after its injection point. */
  lemma InjectGcodePlaces(c: Config, t: PrimeTower, tokens: seq<Token>)
    requires WellFormed(t, |tokens|)
    ensures var r := InjectGcode(c, t, tokens);
      var a := AllPlans(c, t, tokens, 0);
      r.Success? && DistinctAt(a.value) ==>
        forall j :: 0 <= j < |a.value| ==> Placed(r.value, a.value[j].at, a.value[j].code)
  {
    var r := InjectGcode(c, t, tokens);
    var a := AllPlans(c, t, tokens, 0);
    if r.Success? && DistinctAt(a.value) {
      ApplyPlaces(Initial(|tokens|), a.value);
    }
  }
}

=== FILE: optimizer.dfy ===
/** PrimeTower.optimize_layers: a greedy left-to-right fold of adjacent
    layers into one tower layer, followed by a fresh tool-status analysis.

    The fold keeps one current output layer. A candidate layer is folded
    into it when the tools the two change are disjoint and the summed height
    lies within the height window of the union tool set; otherwise the
    candidate becomes the new current layer, renumbered to its output index.
    The fold stops for good at the first candidate with a single active and
    no idle tool, dropping it and every layer after it.

    The fold also reports where each output layer starts in the input
    (`starts`), so that its result can be described group by group. */
module Optimizer {
  import opened Wrappers
  import opened GCode
  import opened Conf
  import opened Tower
  import opened ToolStatus

  /** The tools a list of change references changes to. */
  function ChangeIds(changes: seq<ToolChange>, refs: seq<nat>): (ids: set<ToolId>)
    ensures forall j :: 0 <= j < |refs| && refs[j] < |changes| ==> changes[refs[j]].toolId in ids
  {
    set j | 0 <= j < |refs| && refs[j] < |changes| :: changes[refs[j]].toolId
  }

  lemma ChangeIdsAppend(changes: seq<ToolChange>, a: seq<nat>, b: seq<nat>)
    ensures ChangeIds(changes, a + b) == ChangeIds(changes, a) + ChangeIds(changes, b)
  {
    var ab := a + b;
    forall t | t in ChangeIds(changes, ab) ensures t in ChangeIds(changes, a) + ChangeIds(changes, b) {
      var j :| 0 <= j < |ab| && ab[j] < |changes| && changes[ab[j]].toolId == t;
      if j >= |a| {
        assert ab[j] == b[j - |a|];
      }
    }
    forall t | t in ChangeIds(changes, a) ensures t in ChangeIds(changes, ab) {
      var j :| 0 <= j < |a| && a[j] < |changes| && changes[a[j]].toolId == t;
      assert ab[j] == a[j];
    }
    forall t | t in ChangeIds(changes, b) ensures t in ChangeIds(changes, ab) {
      var j :| 0 <= j < |b| && b[j] < |changes| && changes[b[j]].toolId == t;
      assert ab[j + |a|] == b[j];
    }
  }

  lemma ChangeIdsSingle(changes: seq<ToolChange>, x: nat)
    requires x < |changes|
    ensures ChangeIds(changes, [x]) == {changes[x].toolId}
  {
    assert [x][0] == x;
    assert changes[x].toolId in ChangeIds(changes, [x]);
    forall t | t in ChangeIds(changes, [x]) ensures t == changes[x].toolId {
      var j :| 0 <= j < 1 && [x][j] < |changes| && changes[[x][j]].toolId == t;
    }
  }

  /** Whether candidate `l` may be folded into the current layer `cur`. */
  predicate CanFold(c: Config, changes: seq<ToolChange>, cur: Layer, l: Layer) {
    var next := ChangeIds(changes, l.changeSeq);
    var u := cur.active + next;
    var h := cur.height + l.height;
    && ChangeIds(changes, cur.changeSeq) * next == {}
    && c.minLayerHeight(u) <= h <= c.maxLayerHeight(u)
  }

  /** The current layer after folding `l` into it. With `extend` the tool
      sequence is extended by the folded changes too. */
  function Absorb(changes: seq<ToolChange>, cur: Layer, l: Layer, extend: bool): (r: Layer)
    requires LayerRefsValid(cur, |changes|) && LayerRefsValid(l, |changes|)
    ensures LayerRefsValid(r, |changes|)
    ensures r.changeSeq == cur.changeSeq + l.changeSeq
    ensures r.toolsSeq == cur.toolsSeq + (if extend then l.changeSeq else [])
    ensures r.active == cur.active + ChangeIds(changes, l.changeSeq)
    ensures r.height == cur.height + l.height
    ensures r.num == cur.num && r.start == cur.start && r.z == l.z && r.end == l.end
  {
    cur.(changeSeq := cur.changeSeq + l.changeSeq,
         toolsSeq := if extend then cur.toolsSeq + l.changeSeq else cur.toolsSeq,
         active := cur.active + ChangeIds(changes, l.changeSeq),
         z := l.z,
         height := cur.height + l.height,
         end := l.end)
  }

  /** The first index from `j` on where the fold stops: a terminal layer,
      or the end of the list. */
  function StopAt(ls: seq<Layer>, j: nat): (s: nat)
    requires j <= |ls|
    ensures j <= s <= |ls|
    decreases |ls| - j
  {
    if j == |ls| || Terminal(ls[j]) then j else StopAt(ls, j + 1)
  }

  lemma {:induction false} StopAtFacts(ls: seq<Layer>, j: nat)
    requires j <= |ls|
    ensures forall i :: j <= i < StopAt(ls, j) ==> !Terminal(ls[i])
    ensures StopAt(ls, j) < |ls| ==> Terminal(ls[StopAt(ls, j)])
    decreases |ls| - j
  {
    if j < |ls| && !Terminal(ls[j]) {
      StopAtFacts(ls, j + 1);
    }
  }

  datatype Folded = Folded(layers: seq<Layer>, starts: seq<nat>, stop: nat)

  /** The fold from candidate `j` on, with output `out` so far, whose
      layers start at input indices `starts`. */
  function Fold(c: Config, changes: seq<ToolChange>, ls: seq<Layer>, out: seq<Layer>, starts: seq<nat>,
                j: nat, extend: bool): (r: Folded)
    requires RefsValid(changes, ls) && |out| > 0 && LayerRefsValid(Last(out), |changes|) && j <= |ls|
    ensures r.stop == StopAt(ls, j)
    decreases |ls| - j
  {
    if j == |ls| || Terminal(ls[j]) then Folded(out, starts, j)
    else
      var cur := Last(out);
      var l := ls[j];
      if CanFold(c, changes, cur, l) then
        Fold(c, changes, ls, SetLast(out, Absorb(changes, cur, l, extend)), starts, j + 1, extend)
      else
        Fold(c, changes, ls, out + [l.(num := |out|)], starts + [j], j + 1, extend)
  }

  /** The fold of a whole layer list, starting from its first layer. */
  function FoldLayers(c: Config, changes: seq<ToolChange>, ls: seq<Layer>, extend: bool): Folded
    requires |ls| > 0 && RefsValid(changes, ls)
  {
    Fold(c, changes, ls, [ls[0]], [0], 1, extend)
  }

  // ---------------------------------------------------------------------
  // What the fold keeps true

  /** Where output layer k's group of input layers ends. */
  function End(starts: seq<nat>, j: nat, k: nat): nat
    requires k < |starts|
  {
    if k + 1 < |starts| then starts[k + 1] else j
  }

  /** The group starts cut the input prefix `ls[..j]` into consecutive,
      non-empty groups, one per output layer. */
  predicate Partition(ls: seq<Layer>, out: seq<Layer>, starts: seq<nat>, j: nat) {
    && |out| == |starts| > 0
    && starts[0] == 0
    && j <= |ls|
    && (forall k :: 0 <= k < |starts| ==> k <= starts[k] < j)
    && (forall k, k' :: 0 <= k < k' < |starts| ==> starts[k] < starts[k'])
  }

  lemma EndBounds(ls: seq<Layer>, out: seq<Layer>, starts: seq<nat>, j: nat, k: nat)
    requires Partition(ls, out, starts, j) && k < |starts|
    ensures starts[k] < End(starts, j, k) <= j
  {
  }

  /** Output layer `l`, number `k`, made of the input layers `a .. b-1`:
      it starts where layer `a` starts and ends where layer `b-1` ends, at
      that layer's z; it holds the group's changes in order; and its tool
      sequence is layer `a`'s, extended by the group's later changes when
      `extend` holds. */
  predicate GroupShape(ls: seq<Layer>, l: Layer, k: nat, a: nat, b: nat, extend: bool) {
    && a < b <= |ls|
    && l.num == k
    && l.start == ls[a].start
    && l.z == ls[b - 1].z
    && l.end == ls[b - 1].end
    && l.changeSeq == Span(ls, a, b)
    && l.toolsSeq == ls[a].toolsSeq + (if extend then Span(ls, a + 1, b) else [])
  }

  /** The changes of input layers `a .. b-1`, in order. */
  function Span(ls: seq<Layer>, a: nat, b: nat): seq<nat>
    requires a <= b <= |ls|
    decreases b - a
  {
    if a == b then [] else Span(ls, a, b - 1) + ls[b - 1].changeSeq
  }

  /** A span is the flattening of its slice. */
  lemma {:induction false} SpanIsFlatten(ls: seq<Layer>, a: nat, b: nat)
    requires a <= b <= |ls|
    ensures Span(ls, a, b) == Flatten(ls[a..b])
    decreases b - a
  {
    if a < b {
      var s := ls[a..b];
      SpanIsFlatten(ls, a, b - 1);
      assert s[..|s| - 1] == ls[a..b - 1] && Last(s) == ls[b - 1];
      assert Flatten(s) == Flatten(s[..|s| - 1]) + Last(s).changeSeq;
    }
  }

  /** Sum of the heights of input layers `a .. b-1`. */
  function SumHeights(ls: seq<Layer>, a: nat, b: nat): real
    requires a <= b <= |ls|
    decreases b - a
  {
    if a == b then 0.0 else SumHeights(ls, a, b - 1) + ls[b - 1].height
  }

  /** The height of the group is its summed height; its tool set is layer
      `a`'s plus the tools the group changes to later; and a group of more
      than one layer fits the height window of that set. */
  predicate GroupHeight(c: Config, changes: seq<ToolChange>, ls: seq<Layer>, l: Layer, a: nat, b: nat) {
    && a < b <= |ls|
    && l.height == SumHeights(ls, a, b)
    && l.active == ls[a].active + ChangeIds(changes, Span(ls, a + 1, b))
    && (b - a > 1 ==> c.minLayerHeight(l.active) <= l.height <= c.maxLayerHeight(l.active))
  }

  /** Within the input layers `a .. b-1`, no two change to a common tool. */
  predicate GroupDisjoint(changes: seq<ToolChange>, ls: seq<Layer>, a: nat, b: nat) {
    && a <= b <= |ls|
    && forall i, i' :: a <= i < i' < b ==>
         ChangeIds(changes, ls[i].changeSeq) * ChangeIds(changes, ls[i'].changeSeq) == {}
  }

  predicate Groups(c: Config, changes: seq<ToolChange>, ls: seq<Layer>, out: seq<Layer>, starts: seq<nat>,
                   j: nat, extend: bool)
    requires |out| == |starts|
  {
    forall k {:trigger out[k]} :: 0 <= k < |out| ==> GroupAt(c, changes, ls, out[k], k, starts[k], End(starts, j, k), extend)
  }

  /** Output layer `l`, number `k`, is the group of input layers `a .. b-1`,
      grown one fitting layer at a time. */
  predicate GroupAt(c: Config, changes: seq<ToolChange>, ls: seq<Layer>, l: Layer, k: nat, a: nat, b: nat, extend: bool) {
    && GroupShape(ls, l, k, a, b, extend)
    && GroupHeight(c, changes, ls, l, a, b)
    && GroupDisjoint(changes, ls, a, b)
    && PrefixesFit(c, changes, ls, a, b)
  }

  /** Every group of input layers `a .. i-1` with `a < i <= b` fits. */
  predicate PrefixesFit(c: Config, changes: seq<ToolChange>, ls: seq<Layer>, a: nat, b: nat) {
    && a < b <= |ls|
    && forall i :: a < i <= b ==> Fits(c, changes, ls, a, i)
  }

  /** Groups carry over to an output whose earlier layers are unchanged
      and whose last layer is a group. */
  lemma GroupsCarry(c: Config, changes: seq<ToolChange>, ls: seq<Layer>, out: seq<Layer>, starts: seq<nat>, j: nat,
                    out': seq<Layer>, starts': seq<nat>, j': nat, extend: bool)
    requires |out| == |starts| && |out'| == |starts'| > 0 && |out'| - 1 <= |out|
    requires Groups(c, changes, ls, out, starts, j, extend)
    requires forall k :: 0 <= k < |out'| - 1 ==>
      out'[k] == out[k] && starts'[k] == starts[k] && End(starts', j', k) == End(starts, j, k)
    requires var n := |out'| - 1; GroupAt(c, changes, ls, out'[n], n, starts'[n], End(starts', j', n), extend)
    ensures Groups(c, changes, ls, out', starts', j', extend)
  {
    forall k | 0 <= k < |out'|
      ensures GroupAt(c, changes, ls, out'[k], k, starts'[k], End(starts', j', k), extend)
    {
      if k < |out'| - 1 {
        assert GroupAt(c, changes, ls, out[k], k, starts[k], End(starts, j, k), extend);
      }
    }
  }

  /** Every group after the first was started because its first layer could
      not be folded into the group before it. */
  predicate Greedy(c: Config, changes: seq<ToolChange>, ls: seq<Layer>, out: seq<Layer>, starts: seq<nat>)
    requires |out| == |starts|
    requires forall k :: 0 <= k < |starts| ==> starts[k] < |ls|
  {
    forall k :: 0 < k < |out| ==> !CanFold(c, changes, out[k - 1], ls[starts[k]])
  }

  /** Everything the fold keeps true, for output `out` with group starts
      `starts`, after the candidates before `j`. */
  predicate FoldInv(c: Config, changes: seq<ToolChange>, ls: seq<Layer>, out: seq<Layer>, starts: seq<nat>,
                    j: nat, extend: bool) {
    && RefsValid(changes, ls)
    && RefsValid(changes, out)
    && Partition(ls, out, starts, j)
    && Flatten(out) == Span(ls, 0, j)
    && Groups(c, changes, ls, out, starts, j, extend)
    && Greedy(c, changes, ls, out, starts)
  }

  // ---------------------------------------------------------------------
  // Helpers about groups

  lemma FlattenSetLast(out: seq<Layer>, x: Layer)
    requires |out| > 0
    ensures Flatten(SetLast(out, x)) == Flatten(out[..|out| - 1]) + x.changeSeq
    ensures Flatten(out) == Flatten(out[..|out| - 1]) + Last(out).changeSeq
  {
  }

  lemma FlattenSnoc(out: seq<Layer>, x: Layer)
    ensures Flatten(out + [x]) == Flatten(out) + x.changeSeq
  {
    assert (out + [x])[..|out|] == out;
  }

  /** The tools a layer of a group changes to are among the group's. */
  lemma {:induction false} IdsInGroup(changes: seq<ToolChange>, ls: seq<Layer>, a: nat, b: nat, i: nat)
    requires a <= i < b <= |ls|
    ensures ChangeIds(changes, ls[i].changeSeq) <= ChangeIds(changes, Span(ls, a, b))
    decreases b
  {
    ChangeIdsAppend(changes, Span(ls, a, b - 1), ls[b - 1].changeSeq);
    if i < b - 1 {
      IdsInGroup(changes, ls, a, b - 1, i);
    }
  }

  // ---------------------------------------------------------------------
  // Folding a candidate into the current layer

  lemma MergeGroupShape(ls: seq<Layer>, cur: Layer, x: Layer, k: nat, a: nat, j: nat, extend: bool)
    requires j < |ls| && GroupShape(ls, cur, k, a, j, extend)
    requires x.num == cur.num && x.start == cur.start && x.z == ls[j].z && x.end == ls[j].end
    requires x.changeSeq == cur.changeSeq + ls[j].changeSeq
    requires x.toolsSeq == cur.toolsSeq + (if extend then ls[j].changeSeq else [])
    ensures GroupShape(ls, x, k, a, j + 1, extend)
  {
  }

  lemma MergeGroupHeight(c: Config, changes: seq<ToolChange>, ls: seq<Layer>, cur: Layer, x: Layer, a: nat, j: nat)
    requires j < |ls| && GroupHeight(c, changes, ls, cur, a, j)
    requires CanFold(c, changes, cur, ls[j])
    requires x.active == cur.active + ChangeIds(changes, ls[j].changeSeq)
    requires x.height == cur.height + ls[j].height
    ensures GroupHeight(c, changes, ls, x, a, j + 1)
  {
    ChangeIdsAppend(changes, Span(ls, a + 1, j), ls[j].changeSeq);
  }

  lemma MergeGroupDisjoint(c: Config, changes: seq<ToolChange>, ls: seq<Layer>, cur: Layer, a: nat, j: nat)
    requires j < |ls| && GroupDisjoint(changes, ls, a, j) && a < j
    requires cur.changeSeq == Span(ls, a, j)
    requires CanFold(c, changes, cur, ls[j])
    ensures GroupDisjoint(changes, ls, a, j + 1)
  {
    forall i | a <= i < j ensures ChangeIds(changes, ls[i].changeSeq) <= ChangeIds(changes, cur.changeSeq) {
      IdsInGroup(changes, ls, a, j, i);
    }
  }

  lemma MergeCover(ls: seq<Layer>, out: seq<Layer>, j: nat, x: Layer)
    requires j < |ls| && |out| > 0 && Flatten(out) == Span(ls, 0, j)
    requires x.changeSeq == Last(out).changeSeq + ls[j].changeSeq
    ensures Flatten(SetLast(out, x)) == Span(ls, 0, j + 1)
  {
    var pre := Flatten(out[..|out| - 1]);
    FlattenSetLast(out, x);
    assert Span(ls, 0, j + 1) == Span(ls, 0, j) + ls[j].changeSeq;
    assert (pre + Last(out).changeSeq) + ls[j].changeSeq == pre + (Last(out).changeSeq + ls[j].changeSeq);
  }

  lemma MergeGroups(c: Config, changes: seq<ToolChange>, ls: seq<Layer>, out: seq<Layer>, starts: seq<nat>,
                    j: nat, x: Layer, extend: bool)
    requires |out| == |starts| > 0 && Groups(c, changes, ls, out, starts, j, extend)
    requires GroupAt(c, changes, ls, x, |out| - 1, starts[|out| - 1], j + 1, extend)
    ensures Groups(c, changes, ls, SetLast(out, x), starts, j + 1, extend)
  {
    var m := |out|;
    var out' := SetLast(out, x);
    forall k | 0 <= k < m - 1 ensures out'[k] == out[k] && End(starts, j + 1, k) == End(starts, j, k) {
      assert out'[k] == out'[..m - 1][k];
    }
    assert End(starts, j + 1, m - 1) == j + 1 && out'[m - 1] == x;
    GroupsCarry(c, changes, ls, out, starts, j, out', starts, j + 1, extend);
  }

  /** The group of the current layer, grown by candidate `j`. */
  lemma MergeGroupAt(c: Config, changes: seq<ToolChange>, ls: seq<Layer>, out: seq<Layer>, starts: seq<nat>,
                     j: nat, extend: bool)
    requires j < |ls| && Partition(ls, out, starts, j) && Groups(c, changes, ls, out, starts, j, extend)
    requires RefsValid(changes, ls) && RefsValid(changes, out)
    requires CanFold(c, changes, Last(out), ls[j])
    ensures GroupAt(c, changes, ls, Absorb(changes, Last(out), ls[j], extend), |out| - 1, starts[|out| - 1], j + 1, extend)
  {
    var m := |out|;
    var cur := Last(out);
    var x := Absorb(changes, cur, ls[j], extend);
    var a := starts[m - 1];
    assert End(starts, j, m - 1) == j;
    assert GroupAt(c, changes, ls, out[m - 1], m - 1, a, j, extend);
    MergeGroupShape(ls, cur, x, m - 1, a, j, extend);
    MergeGroupHeight(c, changes, ls, cur, x, a, j);
    MergeGroupDisjoint(c, changes, ls, cur, a, j);
    assert LayerRefsValid(cur, |changes|) && LayerRefsValid(ls[j], |changes|);
    FoldedFits(c, changes, ls, cur, m - 1, a, j, extend);
    PrefixesSnoc(c, changes, ls, a, j);
  }

  lemma PrefixesSnoc(c: Config, changes: seq<ToolChange>, ls: seq<Layer>, a: nat, b: nat)
    requires b < |ls| && PrefixesFit(c, changes, ls, a, b) && Fits(c, changes, ls, a, b + 1)
    ensures PrefixesFit(c, changes, ls, a, b + 1)
  {
    forall i | a < i <= b + 1 ensures Fits(c, changes, ls, a, i) {
      if i <= b {
        assert a < i <= b;
      }
    }
  }

  lemma MergeRefs(changes: seq<ToolChange>, out: seq<Layer>, x: Layer)
    requires |out| > 0 && RefsValid(changes, out) && LayerRefsValid(x, |changes|)
    ensures RefsValid(changes, SetLast(out, x))
  {
    var out' := SetLast(out, x);
    forall k | 0 <= k < |out'| ensures LayerRefsValid(out'[k], |changes|) {
      if k < |out| - 1 {
        assert out'[k] == out'[..|out| - 1][k];
      }
    }
  }

  lemma MergeInv(c: Config, changes: seq<ToolChange>, ls: seq<Layer>, out: seq<Layer>, starts: seq<nat>,
                 j: nat, extend: bool)
    requires j < |ls| && FoldInv(c, changes, ls, out, starts, j, extend)
    requires CanFold(c, changes, Last(out), ls[j])
    ensures FoldInv(c, changes, ls, SetLast(out, Absorb(changes, Last(out), ls[j], extend)), starts, j + 1, extend)
  {
    var x := Absorb(changes, Last(out), ls[j], extend);
    var out' := SetLast(out, x);
    assert Partition(ls, out', starts, j + 1);
    MergeCover(ls, out, j, x);
    MergeGroupAt(c, changes, ls, out, starts, j, extend);
    MergeGroups(c, changes, ls, out, starts, j, x, extend);
    MergeRefs(changes, out, x);
    MergeGreedy(c, changes, ls, out, starts, x);
  }

  lemma MergeGreedy(c: Config, changes: seq<ToolChange>, ls: seq<Layer>, out: seq<Layer>, starts: seq<nat>, x: Layer)
    requires |out| == |starts| > 0 && (forall k :: 0 <= k < |starts| ==> starts[k] < |ls|)
    requires Greedy(c, changes, ls, out, starts)
    ensures Greedy(c, changes, ls, SetLast(out, x), starts)
  {
    var out' := SetLast(out, x);
    forall k | 0 < k < |out'| ensures !CanFold(c, changes, out'[k - 1], ls[starts[k]]) {
      assert out'[k - 1] == out'[..|out| - 1][k - 1];
    }
  }

  // ---------------------------------------------------------------------
  // Starting a new output layer with the candidate

  lemma SplitGroup(c: Config, changes: seq<ToolChange>, ls: seq<Layer>, j: nat, k: nat, extend: bool)
    requires j < |ls|
    ensures GroupAt(c, changes, ls, ls[j].(num := k), k, j, j + 1, extend)
  {
    assert ChangeIds(changes, []) == {};
    assert SumHeights(ls, j, j + 1) == ls[j].height;
    assert Fits(c, changes, ls, j, j + 1);
  }

  lemma SplitGroups(c: Config, changes: seq<ToolChange>, ls: seq<Layer>, out: seq<Layer>, starts: seq<nat>,
                    j: nat, extend: bool)
    requires j < |ls| && |out| == |starts| > 0 && Groups(c, changes, ls, out, starts, j, extend)
    ensures Groups(c, changes, ls, out + [ls[j].(num := |out|)], starts + [j], j + 1, extend)
  {
    var m := |out|;
    var x := ls[j].(num := m);
    var out' := out + [x];
    var starts' := starts + [j];
    forall k | 0 <= k < m
      ensures out'[k] == out[k] && starts'[k] == starts[k] && End(starts', j + 1, k) == End(starts, j, k)
    {
    }
    assert out'[m] == x && starts'[m] == j && End(starts', j + 1, m) == j + 1;
    SplitGroup(c, changes, ls, j, m, extend);
    GroupsCarry(c, changes, ls, out, starts, j, out', starts', j + 1, extend);
  }

  lemma SplitGreedy(c: Config, changes: seq<ToolChange>, ls: seq<Layer>, out: seq<Layer>, starts: seq<nat>, j: nat)
    requires j < |ls| && |out| == |starts| > 0 && (forall k :: 0 <= k < |starts| ==> starts[k] < |ls|)
    requires Greedy(c, changes, ls, out, starts)
    requires !CanFold(c, changes, Last(out), ls[j])
    ensures Greedy(c, changes, ls, out + [ls[j].(num := |out|)], starts + [j])
  {
    var out' := out + [ls[j].(num := |out|)];
    var starts' := starts + [j];
    forall k | 0 < k < |out'| ensures !CanFold(c, changes, out'[k - 1], ls[starts'[k]]) {
      assert out'[k - 1] == out[k - 1];
    }
  }

  lemma SplitInv(c: Config, changes: seq<ToolChange>, ls: seq<Layer>, out: seq<Layer>, starts: seq<nat>,
                 j: nat, extend: bool)
    requires j < |ls| && FoldInv(c, changes, ls, out, starts, j, extend)
    requires !CanFold(c, changes, Last(out), ls[j])
    ensures FoldInv(c, changes, ls, out + [ls[j].(num := |out|)], starts + [j], j + 1, extend)
  {
    var x := ls[j].(num := |out|);
    SplitPartition(ls, out, starts, j, x);
    SplitCover(ls, out, j, x);
    SplitGroups(c, changes, ls, out, starts, j, extend);
    SplitRefs(changes, ls, out, j);
    SplitGreedy(c, changes, ls, out, starts, j);
  }

  lemma SplitPartition(ls: seq<Layer>, out: seq<Layer>, starts: seq<nat>, j: nat, x: Layer)
    requires j < |ls| && Partition(ls, out, starts, j)
    ensures Partition(ls, out + [x], starts + [j], j + 1)
  {
    assert |starts| - 1 <= starts[|starts| - 1] < j;
  }

  lemma SplitCover(ls: seq<Layer>, out: seq<Layer>, j: nat, x: Layer)
    requires j < |ls| && Flatten(out) == Span(ls, 0, j) && x.changeSeq == ls[j].changeSeq
    ensures Flatten(out + [x]) == Span(ls, 0, j + 1)
  {
    FlattenSnoc(out, x);
  }

  lemma SplitRefs(changes: seq<ToolChange>, ls: seq<Layer>, out: seq<Layer>, j: nat)
    requires j < |ls| && RefsValid(changes, ls) && RefsValid(changes, out)
    ensures RefsValid(changes, out + [ls[j].(num := |out|)])
  {
    assert LayerRefsValid(ls[j], |changes|);
  }

  /** Induction over the fold: a property of the fold state that every
      step keeps holds of the final state. */
  lemma {:induction false} FoldInduction(c: Config, changes: seq<ToolChange>, ls: seq<Layer>, out: seq<Layer>,
                                         starts: seq<nat>, j: nat, extend: bool,
                                         P: (seq<Layer>, seq<nat>, nat) -> bool)
    requires RefsValid(changes, ls) && |out| > 0 && LayerRefsValid(Last(out), |changes|) && j <= |ls|
    requires P(out, starts, j)
    requires forall o: seq<Layer>, s: seq<nat>, i: nat ::
      0 < |o| && i < |ls| && !Terminal(ls[i]) && LayerRefsValid(Last(o), |changes|) && P(o, s, i) ==>
        if CanFold(c, changes, Last(o), ls[i])
        then P(SetLast(o, Absorb(changes, Last(o), ls[i], extend)), s, i + 1)
        else P(o + [ls[i].(num := |o|)], s + [i], i + 1)
    ensures var f := Fold(c, changes, ls, out, starts, j, extend);
            P(f.layers, f.starts, f.stop)
    decreases |ls| - j
  {
    if j < |ls| && !Terminal(ls[j]) {
      var cur := Last(out);
      assert LayerRefsValid(ls[j], |changes|);
      if CanFold(c, changes, cur, ls[j]) {
        var out' := SetLast(out, Absorb(changes, cur, ls[j], extend));
        FoldInduction(c, changes, ls, out', starts, j + 1, extend, P);
      } else {
        var out' := out + [ls[j].(num := |out|)];
        FoldInduction(c, changes, ls, out', starts + [j], j + 1, extend, P);
      }
    }
  }

  /** Every step of the fold keeps its invariant. */
  lemma StepKeeps(c: Config, changes: seq<ToolChange>, ls: seq<Layer>, extend: bool)
    ensures forall o: seq<Layer>, s: seq<nat>, i: nat ::
      0 < |o| && i < |ls| && !Terminal(ls[i]) && LayerRefsValid(Last(o), |changes|)
      && FoldInv(c, changes, ls, o, s, i, extend) ==>
        if CanFold(c, changes, Last(o), ls[i])
        then FoldInv(c, changes, ls, SetLast(o, Absorb(changes, Last(o), ls[i], extend)), s, i + 1, extend)
        else FoldInv(c, changes, ls, o + [ls[i].(num := |o|)], s + [i], i + 1, extend)
  {
    forall o: seq<Layer>, s: seq<nat>, i: nat |
      0 < |o| && i < |ls| && !Terminal(ls[i]) && LayerRefsValid(Last(o), |changes|)
      && FoldInv(c, changes, ls, o, s, i, extend)
      ensures if CanFold(c, changes, Last(o), ls[i])
              then FoldInv(c, changes, ls, SetLast(o, Absorb(changes, Last(o), ls[i], extend)), s, i + 1, extend)
              else FoldInv(c, changes, ls, o + [ls[i].(num := |o|)], s + [i], i + 1, extend)
    {
      if CanFold(c, changes, Last(o), ls[i]) {
        MergeInv(c, changes, ls, o, s, i, extend);
      } else {
        SplitInv(c, changes, ls, o, s, i, extend);
      }
    }
  }

  /** The fold keeps its invariant to the end. */
  lemma FoldKeeps(c: Config, changes: seq<ToolChange>, ls: seq<Layer>, out: seq<Layer>,
                  starts: seq<nat>, j: nat, extend: bool)
    requires FoldInv(c, changes, ls, out, starts, j, extend)
    ensures var f := Fold(c, changes, ls, out, starts, j, extend);
            FoldInv(c, changes, ls, f.layers, f.starts, f.stop, extend)
  {
    StepKeeps(c, changes, ls, extend);
    assert LayerRefsValid(Last(out), |changes|);
    FoldInduction(c, changes, ls, out, starts, j, extend,
                  (o: seq<Layer>, s: seq<nat>, i: nat) => FoldInv(c, changes, ls, o, s, i, extend));
  }

  lemma FoldStarts(c: Config, changes: seq<ToolChange>, ls: seq<Layer>, extend: bool)
    requires |ls| > 0 && RefsValid(changes, ls) && ls[0].num == 0
    ensures FoldInv(c, changes, ls, [ls[0]], [0], 1, extend)
  {
    assert Flatten([ls[0]]) == Flatten([]) + ls[0].changeSeq;
    assert Span(ls, 0, 1) == ls[0].changeSeq;
    assert ChangeIds(changes, []) == {};
    assert SumHeights(ls, 0, 1) == ls[0].height;
  }

  lemma FoldResult(c: Config, changes: seq<ToolChange>, ls: seq<Layer>, extend: bool)
    requires |ls| > 0 && RefsValid(changes, ls) && ls[0].num == 0
    ensures var f := FoldLayers(c, changes, ls, extend);
            f.stop == StopAt(ls, 1) && FoldInv(c, changes, ls, f.layers, f.starts, f.stop, extend)
  {
    FoldStarts(c, changes, ls, extend);
    FoldKeeps(c, changes, ls, [ls[0]], [0], 1, extend);
  }

  // ---------------------------------------------------------------------
  // The groups, described from the input alone

  /** A span splits after its first layer. */
  lemma {:induction false} SpanFront(ls: seq<Layer>, a: nat, b: nat)
    requires a < b <= |ls|
    ensures Span(ls, a, b) == ls[a].changeSeq + Span(ls, a + 1, b)
    decreases b - a
  {
    if a + 1 < b {
      SpanFront(ls, a, b - 1);
    }
  }

  /** A tool the group changes to is one some layer of it changes to. */
  lemma {:induction false} IdsOfSpan(changes: seq<ToolChange>, ls: seq<Layer>, a: nat, b: nat, t: ToolId)
    requires a <= b <= |ls| && t in ChangeIds(changes, Span(ls, a, b))
    ensures exists i :: a <= i < b && t in ChangeIds(changes, ls[i].changeSeq)
    decreases b - a
  {
    ChangeIdsAppend(changes, Span(ls, a, b - 1), ls[b - 1].changeSeq);
    if t !in ChangeIds(changes, ls[b - 1].changeSeq) {
      IdsOfSpan(changes, ls, a, b - 1, t);
    }
  }

  /** The input layers `a .. b-1` may form one output layer: no two of
      them change to a common tool and, when there are several, their
      summed height fits the window of the first layer's tools plus the
      tools the later ones change to. */
  predicate Fits(c: Config, changes: seq<ToolChange>, ls: seq<Layer>, a: nat, b: nat)
    requires a < b <= |ls|
  {
    var u := ls[a].active + ChangeIds(changes, Span(ls, a + 1, b));
    && GroupDisjoint(changes, ls, a, b)
    && (b - a > 1 ==> c.minLayerHeight(u) <= SumHeights(ls, a, b) <= c.maxLayerHeight(u))
  }

  lemma GroupFits(c: Config, changes: seq<ToolChange>, ls: seq<Layer>, l: Layer, k: nat, a: nat, b: nat, extend: bool)
    requires GroupAt(c, changes, ls, l, k, a, b, extend)
    ensures Fits(c, changes, ls, a, b)
  {
  }

  /** A layer that can join a group changes to none of the group's tools. */
  lemma SpanIdsDisjoint(changes: seq<ToolChange>, ls: seq<Layer>, a: nat, b: nat)
    requires a < b < |ls| && GroupDisjoint(changes, ls, a, b + 1)
    ensures ChangeIds(changes, Span(ls, a, b)) * ChangeIds(changes, ls[b].changeSeq) == {}
  {
    forall t | t in ChangeIds(changes, Span(ls, a, b)) ensures t !in ChangeIds(changes, ls[b].changeSeq) {
      IdsOfSpan(changes, ls, a, b, t);
      var i :| a <= i < b && t in ChangeIds(changes, ls[i].changeSeq);
      assert t !in ChangeIds(changes, ls[i].changeSeq) * ChangeIds(changes, ls[b].changeSeq);
    }
  }

  /** A group stays open for the next layer when it fits with that layer. */
  lemma OpenGroup(c: Config, changes: seq<ToolChange>, ls: seq<Layer>, l: Layer, k: nat, a: nat, b: nat, extend: bool)
    requires b < |ls| && GroupAt(c, changes, ls, l, k, a, b, extend)
    requires Fits(c, changes, ls, a, b + 1)
    ensures CanFold(c, changes, l, ls[b])
  {
    var next := ChangeIds(changes, ls[b].changeSeq);
    var u := ls[a].active + ChangeIds(changes, Span(ls, a + 1, b + 1));
    SpanIdsDisjoint(changes, ls, a, b);
    assert ChangeIds(changes, l.changeSeq) * next == {};
    assert Span(ls, a + 1, b + 1) == Span(ls, a + 1, b) + ls[b].changeSeq;
    ChangeIdsAppend(changes, Span(ls, a + 1, b), ls[b].changeSeq);
    assert l.active + next == u;
    assert l.height + ls[b].height == SumHeights(ls, a, b + 1);
  }

  /** The fold's merge test, read on groups: the current layer of group
      `a .. b-1` absorbs layer `b` exactly when the group fits with it. */
  lemma FoldIffFits(c: Config, changes: seq<ToolChange>, ls: seq<Layer>, l: Layer, k: nat, a: nat, b: nat, extend: bool)
    requires b < |ls| && GroupAt(c, changes, ls, l, k, a, b, extend)
    requires LayerRefsValid(l, |changes|) && LayerRefsValid(ls[b], |changes|)
    ensures CanFold(c, changes, l, ls[b]) <==> Fits(c, changes, ls, a, b + 1)
  {
    if CanFold(c, changes, l, ls[b]) {
      FoldedFits(c, changes, ls, l, k, a, b, extend);
    }
    if Fits(c, changes, ls, a, b + 1) {
      OpenGroup(c, changes, ls, l, k, a, b, extend);
    }
  }

  /** A group whose current layer absorbs the next one still fits. */
  lemma FoldedFits(c: Config, changes: seq<ToolChange>, ls: seq<Layer>, l: Layer, k: nat, a: nat, b: nat, extend: bool)
    requires b < |ls| && GroupAt(c, changes, ls, l, k, a, b, extend)
    requires LayerRefsValid(l, |changes|) && LayerRefsValid(ls[b], |changes|)
    requires CanFold(c, changes, l, ls[b])
    ensures Fits(c, changes, ls, a, b + 1)
  {
    var x := Absorb(changes, l, ls[b], extend);
    MergeGroupHeight(c, changes, ls, l, x, a, b);
    MergeGroupDisjoint(c, changes, ls, l, a, b);
  }

  /** The output of the fold, described from the input: consecutive groups
      from layer 0 up to the stop, each of which fits with every shorter
      group from the same start fitting too, and each but the last would
      not fit with the first layer of the next group added. So each group
      ends at the first layer it would not fit with. */
  predicate MaximalGroups(c: Config, changes: seq<ToolChange>, ls: seq<Layer>, starts: seq<nat>, stop: nat)
  {
    && |starts| > 0 && starts[0] == 0 && stop <= |ls|
    && (forall k :: 0 <= k < |starts| ==> k <= starts[k] < stop)
    && (forall k, k' :: 0 <= k < k' < |starts| ==> starts[k] < starts[k'])
    && (forall k {:trigger End(starts, stop, k)} :: 0 <= k < |starts| ==>
          && Fits(c, changes, ls, starts[k], End(starts, stop, k))
          && (k + 1 < |starts| ==> !Fits(c, changes, ls, starts[k], End(starts, stop, k) + 1)))
    && (forall k, i :: 0 <= k < |starts| && starts[k] < i <= End(starts, stop, k) ==>
          Fits(c, changes, ls, starts[k], i))
  }

  /** Maximal groups up to a stop are unique: the input layers alone
      determine where every group starts. */
  lemma MaximalUnique(c: Config, changes: seq<ToolChange>, ls: seq<Layer>, s1: seq<nat>, s2: seq<nat>, stop: nat)
    requires MaximalGroups(c, changes, ls, s1, stop) && MaximalGroups(c, changes, ls, s2, stop)
    ensures s1 == s2
  {
    var m := if |s1| < |s2| then |s1| - 1 else |s2| - 1;
    MaximalAgree(c, changes, ls, s1, s2, stop, m);
    NextStart(c, changes, ls, s1, s2, stop, m);
    assert |s1| == |s2| == m + 1;
  }

  /** Two maximal groupings agree on their first `k + 1` starts. */
  lemma {:induction false} MaximalAgree(c: Config, changes: seq<ToolChange>, ls: seq<Layer>,
                                        s1: seq<nat>, s2: seq<nat>, stop: nat, k: nat)
    requires MaximalGroups(c, changes, ls, s1, stop) && MaximalGroups(c, changes, ls, s2, stop)
    requires k < |s1| && k < |s2|
    ensures forall i :: 0 <= i <= k ==> s1[i] == s2[i]
    decreases k
  {
    if k > 0 {
      MaximalAgree(c, changes, ls, s1, s2, stop, k - 1);
      NextStart(c, changes, ls, s1, s2, stop, k - 1);
    }
  }

  /** Two maximal groupings with a common start for group `k` end that
      group at the same layer, and both go on or both stop there. */
  lemma NextStart(c: Config, changes: seq<ToolChange>, ls: seq<Layer>, s1: seq<nat>, s2: seq<nat>, stop: nat, k: nat)
    requires MaximalGroups(c, changes, ls, s1, stop) && MaximalGroups(c, changes, ls, s2, stop)
    requires k < |s1| && k < |s2| && s1[k] == s2[k]
    ensures End(s1, stop, k) == End(s2, stop, k)
    ensures k + 1 < |s1| <==> k + 1 < |s2|
    ensures k + 1 < |s1| ==> s1[k + 1] == s2[k + 1]
  {
    var a := s1[k];
    var e1 := End(s1, stop, k);
    var e2 := End(s2, stop, k);
    assert a < e1 <= stop && a < e2 <= stop;
    if e1 < e2 {
      assert false;
    }
    if e2 < e1 {
      assert false;
    }
  }

  /** A group fits, and a group closed because its layer would not absorb
      the next one would not fit with that layer. */
  lemma GroupMaximal(c: Config, changes: seq<ToolChange>, ls: seq<Layer>, l: Layer, k: nat, a: nat, b: nat,
                     extend: bool, closed: bool)
    requires GroupAt(c, changes, ls, l, k, a, b, extend)
    requires closed ==>
      && b < |ls|
      && LayerRefsValid(l, |changes|) && LayerRefsValid(ls[b], |changes|)
      && !CanFold(c, changes, l, ls[b])
    ensures Fits(c, changes, ls, a, b)
    ensures forall i :: a < i <= b ==> Fits(c, changes, ls, a, i)
    ensures closed ==> b < |ls| && !Fits(c, changes, ls, a, b + 1)
  {
    GroupFits(c, changes, ls, l, k, a, b, extend);
    if closed {
      ClosedGroup(c, changes, ls, l, k, a, b, extend);
    }
  }

  /** A group closed because its layer would not absorb the next one
      would not fit with that layer. */
  lemma ClosedGroup(c: Config, changes: seq<ToolChange>, ls: seq<Layer>, l: Layer, k: nat, a: nat, b: nat, extend: bool)
    requires b < |ls| && GroupAt(c, changes, ls, l, k, a, b, extend)
    requires LayerRefsValid(l, |changes|) && LayerRefsValid(ls[b], |changes|)
    requires !CanFold(c, changes, l, ls[b])
    ensures !Fits(c, changes, ls, a, b + 1)
  {
    FoldIffFits(c, changes, ls, l, k, a, b, extend);
  }

  lemma InvIsMaximal(c: Config, changes: seq<ToolChange>, ls: seq<Layer>, out: seq<Layer>, starts: seq<nat>,
                     j: nat, extend: bool)
    requires FoldInv(c, changes, ls, out, starts, j, extend)
    ensures MaximalGroups(c, changes, ls, starts, j)
  {
    InvClosed(c, changes, ls, out, starts, j, extend);
    GroupsMaximal(c, changes, ls, out, starts, j, extend);
  }

  /** Every group after the first starts at a layer the group before it
      would not absorb. */
  lemma InvClosed(c: Config, changes: seq<ToolChange>, ls: seq<Layer>, out: seq<Layer>, starts: seq<nat>,
                  j: nat, extend: bool)
    requires FoldInv(c, changes, ls, out, starts, j, extend)
    ensures Closed(c, changes, ls, out, starts)
  {
  }

  predicate Closed(c: Config, changes: seq<ToolChange>, ls: seq<Layer>, out: seq<Layer>, starts: seq<nat>)
    requires |out| == |starts|
  {
    forall k :: 0 < k < |starts| ==>
      && starts[k] < |ls|
      && LayerRefsValid(out[k - 1], |changes|) && LayerRefsValid(ls[starts[k]], |changes|)
      && !CanFold(c, changes, out[k - 1], ls[starts[k]])
  }

  /** Groups that were each closed by a layer they would not absorb are
      maximal. */
  lemma GroupsMaximal(c: Config, changes: seq<ToolChange>, ls: seq<Layer>, out: seq<Layer>, starts: seq<nat>,
                      j: nat, extend: bool)
    requires Partition(ls, out, starts, j) && j <= |ls|
    requires Groups(c, changes, ls, out, starts, j, extend)
    requires Closed(c, changes, ls, out, starts)
    ensures MaximalGroups(c, changes, ls, starts, j)
  {
    forall k | 0 <= k < |starts|
      ensures Fits(c, changes, ls, starts[k], End(starts, j, k))
      ensures forall i :: starts[k] < i <= End(starts, j, k) ==> Fits(c, changes, ls, starts[k], i)
      ensures k + 1 < |starts| ==> !Fits(c, changes, ls, starts[k], End(starts, j, k) + 1)
    {
      assert GroupAt(c, changes, ls, out[k], k, starts[k], End(starts, j, k), extend);
      GroupMaximal(c, changes, ls, out[k], k, starts[k], End(starts, j, k), extend, k + 1 < |starts|);
    }
  }

  // ---------------------------------------------------------------------
  // optimize_layers

  /** The output layers the invariant describes are numbered by position,
      no more than the input layers they cover, and hold those layers'
      changes in order. */
  lemma InvOutput(c: Config, changes: seq<ToolChange>, ls: seq<Layer>, out: seq<Layer>, starts: seq<nat>,
                  j: nat, extend: bool)
    requires FoldInv(c, changes, ls, out, starts, j, extend)
    ensures Numbered(out) && 0 < |out| <= j
    ensures Flatten(out) == Flatten(ls[..j])
  {
    forall k | 0 <= k < |out| ensures out[k].num == k {
      assert GroupAt(c, changes, ls, out[k], k, starts[k], End(starts, j, k), extend);
    }
    assert |out| - 1 <= starts[|out| - 1] < j;
    SpanIsFlatten(ls, 0, j);
    assert ls[0..j] == ls[..j];
  }

  /** The layers after folding, with `extend` choosing whether a folded
      layer's changes also extend the tool sequence, and their tool status
      analysed afresh. */
  function Squash(c: Config, t: PrimeTower, extend: bool): (r: PrimeTower)
    requires |t.layers| > 0 && RefsValid(t.changes, t.layers) && Numbered(t.layers)
    ensures r.changes == t.changes && r.radii == t.radii
    ensures 0 < |r.layers| <= StopAt(t.layers, 1)
    ensures Numbered(r.layers) && RefsValid(r.changes, r.layers)
    ensures Flatten(r.layers) == Flatten(t.layers[..StopAt(t.layers, 1)])
    ensures AnalyzeToolStatus(r.changes, r.layers) == r.layers
  {
    var f := FoldLayers(c, t.changes, t.layers, extend);
    FoldOutput(c, t, extend);
    StatusOutput(t.changes, f.layers, StopAt(t.layers, 1), Flatten(t.layers[..StopAt(t.layers, 1)]));
    PrimeTower(AnalyzeToolStatus(t.changes, f.layers), t.changes, t.radii)
  }

  /** The folded layers: at most one per scanned layer, numbered by
      position, holding the scanned layers' changes in order. */
  lemma FoldOutput(c: Config, t: PrimeTower, extend: bool)
    requires |t.layers| > 0 && RefsValid(t.changes, t.layers) && Numbered(t.layers)
    ensures var f := FoldLayers(c, t.changes, t.layers, extend);
      && 0 < |f.layers| <= StopAt(t.layers, 1)
      && Numbered(f.layers) && RefsValid(t.changes, f.layers)
      && Flatten(f.layers) == Flatten(t.layers[..StopAt(t.layers, 1)])
  {
    var f := FoldLayers(c, t.changes, t.layers, extend);
    FoldResult(c, t.changes, t.layers, extend);
    InvOutput(c, t.changes, t.layers, f.layers, f.starts, f.stop, extend);
  }

  /** Analysing the statuses of layers keeps their number, numbering,
      references and changes, and gives a fixpoint of the analysis. */
  lemma StatusOutput(changes: seq<ToolChange>, ls: seq<Layer>, bound: nat, flat: seq<nat>)
    requires 0 < |ls| <= bound && Numbered(ls) && RefsValid(changes, ls) && Flatten(ls) == flat
    ensures var r := AnalyzeToolStatus(changes, ls);
      && 0 < |r| <= bound && Numbered(r) && RefsValid(changes, r)
      && Flatten(r) == flat
      && AnalyzeToolStatus(changes, r) == r
  {
    FlattenSameChanges(AnalyzeToolStatus(changes, ls), ls);
    AnalyzeIdempotent(changes, ls);
  }

  /** Where each output layer starts in the input. */
  function SquashStarts(c: Config, t: PrimeTower, extend: bool): (starts: seq<nat>)
    requires |t.layers| > 0 && RefsValid(t.changes, t.layers) && Numbered(t.layers)
    ensures |starts| == |Squash(c, t, extend).layers|
    ensures forall k :: 0 <= k < |starts| ==> k <= starts[k] < StopAt(t.layers, 1)
  {
    FoldResult(c, t.changes, t.layers, extend);
    FoldLayers(c, t.changes, t.layers, extend).starts
  }

  /** Output layer k is the group of input layers from its start to the
      next one's (or to the stop): it spans them, its height is theirs
      summed, the groups fit, and each group but the last was closed
      because it would not fit with one more layer. */
  lemma SquashGroups(c: Config, t: PrimeTower, extend: bool)
    requires |t.layers| > 0 && RefsValid(t.changes, t.layers) && Numbered(t.layers)
    ensures var r := Squash(c, t, extend);
            var starts := SquashStarts(c, t, extend);
            var stop := StopAt(t.layers, 1);
            && |starts| == |r.layers|
            && MaximalGroups(c, t.changes, t.layers, starts, stop)
            && forall k :: 0 <= k < |starts| ==>
                 && GroupShape(t.layers, r.layers[k], k, starts[k], End(starts, stop, k), extend)
                 && r.layers[k].height == SumHeights(t.layers, starts[k], End(starts, stop, k))
  {
    var f := FoldLayers(c, t.changes, t.layers, extend);
    FoldResult(c, t.changes, t.layers, extend);
    InvIsMaximal(c, t.changes, t.layers, f.layers, f.starts, f.stop, extend);
    assert Squash(c, t, extend).layers == AnalyzeToolStatus(t.changes, f.layers);
    StatusKeepsGroups(c, t.changes, t.layers, f.layers, Squash(c, t, extend).layers, f.starts, f.stop, extend);
  }

  /** The fold's group starts are the only maximal grouping of the input
      layers up to the stop. */
  lemma SquashStartsUnique(c: Config, t: PrimeTower, extend: bool, starts: seq<nat>)
    requires |t.layers| > 0 && RefsValid(t.changes, t.layers) && Numbered(t.layers)
    requires MaximalGroups(c, t.changes, t.layers, starts, StopAt(t.layers, 1))
    ensures starts == SquashStarts(c, t, extend)
  {
    SquashGroups(c, t, extend);
    MaximalUnique(c, t.changes, t.layers, starts, SquashStarts(c, t, extend), StopAt(t.layers, 1));
  }

  /** The status pass leaves each group's span, markers and height alone. */
  lemma StatusKeepsGroups(c: Config, changes: seq<ToolChange>, ls: seq<Layer>, out: seq<Layer>, r: seq<Layer>,
                          starts: seq<nat>, j: nat, extend: bool)
    requires |out| == |starts| == |r| && Groups(c, changes, ls, out, starts, j, extend)
    requires forall i :: 0 <= i < |r| ==>
      r[i] == out[i].(active := r[i].active, idle := r[i].idle, disabled := r[i].disabled)
    ensures forall k :: 0 <= k < |starts| ==>
              && GroupShape(ls, r[k], k, starts[k], End(starts, j, k), extend)
              && r[k].height == SumHeights(ls, starts[k], End(starts, j, k))
  {
    forall k | 0 <= k < |starts|
      ensures GroupShape(ls, r[k], k, starts[k], End(starts, j, k), extend)
      ensures r[k].height == SumHeights(ls, starts[k], End(starts, j, k))
    {
      assert GroupAt(c, changes, ls, out[k], k, starts[k], End(starts, j, k), extend);
    }
  }

  /** Every change of the layer is in its tool sequence, in order, as its
      tail: injection prints one band per tool-sequence entry, so each
      change made in the layer gets its band. */
  predicate ChangesBanded(l: Layer) {
    |l.changeSeq| <= |l.toolsSeq| && l.toolsSeq[|l.toolsSeq| - |l.changeSeq|..] == l.changeSeq
  }

  lemma BandedGroup(ls: seq<Layer>, l: Layer, k: nat, a: nat, b: nat)
    requires GroupShape(ls, l, k, a, b, true) && ChangesBanded(ls[a])
    ensures ChangesBanded(l)
  {
    SpanFront(ls, a, b);
    var ts := ls[a].toolsSeq;
    var cs := ls[a].changeSeq;
    var rest := Span(ls, a + 1, b);
    var p := ts[..|ts| - |cs|];
    assert ts == p + cs;
    assert l.toolsSeq == p + (cs + rest);
    assert l.toolsSeq[|l.toolsSeq| - |l.changeSeq|..] == cs + rest;
  }

  /** optimize_layers as written: a folded layer's changes join the
      current layer's change list but not its tool sequence. */
  function OptimizeLayersAsWritten(c: Config, t: PrimeTower): (r: PrimeTower)
    requires |t.layers| > 0 && RefsValid(t.changes, t.layers) && Numbered(t.layers)
    ensures r.changes == t.changes && r.radii == t.radii && 0 < |r.layers| <= |t.layers|
    ensures Flatten(r.layers) == Flatten(t.layers[..StopAt(t.layers, 1)])
    ensures var starts := SquashStarts(c, t, false);
            |starts| == |r.layers| &&
            forall k :: 0 <= k < |r.layers| ==> r.layers[k].toolsSeq == t.layers[starts[k]].toolsSeq
  {
    SquashGroups(c, t, false);
    Squash(c, t, false)
  }

  /** optimize_layers, with a folded layer's changes also appended to the
      current layer's tool sequence, so that each gets its band. */
  function OptimizeLayers(c: Config, t: PrimeTower): (r: PrimeTower)
    requires |t.layers| > 0 && RefsValid(t.changes, t.layers) && Numbered(t.layers)
    ensures r.changes == t.changes && r.radii == t.radii && 0 < |r.layers| <= |t.layers|
    ensures Flatten(r.layers) == Flatten(t.layers[..StopAt(t.layers, 1)])
    ensures var starts := SquashStarts(c, t, true);
            |starts| == |r.layers| &&
            forall k :: 0 <= k < |r.layers| && ChangesBanded(t.layers[starts[k]]) ==> ChangesBanded(r.layers[k])
  {
    var r := Squash(c, t, true);
    SquashGroups(c, t, true);
    var starts := SquashStarts(c, t, true);
    var stop := StopAt(t.layers, 1);
    assert forall k :: 0 <= k < |r.layers| && ChangesBanded(t.layers[starts[k]]) ==> ChangesBanded(r.layers[k]) by {
      forall k | 0 <= k < |r.layers| && ChangesBanded(t.layers[starts[k]]) ensures ChangesBanded(r.layers[k]) {
        BandedGroup(t.layers, r.layers[k], k, starts[k], End(starts, stop, k));
      }
    }
    r
  }

  /** Two layer lists that differ at most in their tool sequences. */
  predicate SameUpToTools(a: seq<Layer>, b: seq<Layer>) {
    |a| == |b| && forall k :: 0 <= k < |a| ==> a[k].(toolsSeq := b[k].toolsSeq) == b[k]
  }

  /** Whether the fold extends tool sequences does not change how it
      groups: CanFold never looks at a tool sequence. */
  lemma {:induction false} FoldSameGrouping(c: Config, changes: seq<ToolChange>, ls: seq<Layer>,
                                            o1: seq<Layer>, o2: seq<Layer>, starts: seq<nat>, j: nat)
    requires RefsValid(changes, ls) && j <= |ls|
    requires |o1| > 0 && SameUpToTools(o1, o2)
    requires LayerRefsValid(Last(o1), |changes|) && LayerRefsValid(Last(o2), |changes|)
    ensures var f1 := Fold(c, changes, ls, o1, starts, j, true);
            var f2 := Fold(c, changes, ls, o2, starts, j, false);
            f1.starts == f2.starts && SameUpToTools(f1.layers, f2.layers)
    decreases |ls| - j
  {
    if j < |ls| && !Terminal(ls[j]) {
      var cur1 := Last(o1);
      var cur2 := Last(o2);
      var l := ls[j];
      assert cur1.(toolsSeq := cur2.toolsSeq) == cur2;
      if CanFold(c, changes, cur1, l) {
        var x1 := Absorb(changes, cur1, l, true);
        var x2 := Absorb(changes, cur2, l, false);
        var p1 := SetLast(o1, x1);
        var p2 := SetLast(o2, x2);
        assert SameUpToTools(p1, p2) by {
          forall k | 0 <= k < |p1| ensures p1[k].(toolsSeq := p2[k].toolsSeq) == p2[k] {
            if k < |o1| - 1 {
              assert p1[k] == o1[k] && p2[k] == o2[k];
            }
          }
        }
        FoldSameGrouping(c, changes, ls, p1, p2, starts, j + 1);
      } else {
        var p1 := o1 + [l.(num := |o1|)];
        var p2 := o2 + [l.(num := |o2|)];
        assert SameUpToTools(p1, p2) by {
          forall k | 0 <= k < |p1| ensures p1[k].(toolsSeq := p2[k].toolsSeq) == p2[k] {
            if k < |o1| {
              assert p1[k] == o1[k] && p2[k] == o2[k];
            }
          }
        }
        FoldSameGrouping(c, changes, ls, p1, p2, starts + [j], j + 1);
      }
    }
  }

  /** The tool-status pass reads only change lists, so it keeps two lists
      that differ only in tool sequences that way. */
  lemma StatusSameUpToTools(changes: seq<ToolChange>, a: seq<Layer>, b: seq<Layer>)
    requires RefsValid(changes, a) && RefsValid(changes, b) && Numbered(a) && Numbered(b)
    requires SameUpToTools(a, b)
    ensures SameUpToTools(AnalyzeToolStatus(changes, a), AnalyzeToolStatus(changes, b))
  {
    assert LayerToolIds(changes, a) == LayerToolIds(changes, b) by {
      forall i | 0 <= i < |a| ensures a[i].changeSeq == b[i].changeSeq {
        assert a[i].(toolsSeq := b[i].toolsSeq) == b[i];
      }
    }
  }

  /** optimize_layers as written and with extended tool sequences group
      the layers the same way: the same group starts and the same layers,
      up to their tool sequences. */
  lemma SameGrouping(c: Config, t: PrimeTower)
    requires |t.layers| > 0 && RefsValid(t.changes, t.layers) && Numbered(t.layers)
    ensures SquashStarts(c, t, true) == SquashStarts(c, t, false)
    ensures SameUpToTools(OptimizeLayers(c, t).layers, OptimizeLayersAsWritten(c, t).layers)
  {
    var f1 := FoldLayers(c, t.changes, t.layers, true);
    var f2 := FoldLayers(c, t.changes, t.layers, false);
    FoldSameGrouping(c, t.changes, t.layers, [t.layers[0]], [t.layers[0]], [0], 1);
    FoldResult(c, t.changes, t.layers, true);
    FoldResult(c, t.changes, t.layers, false);
    InvOutput(c, t.changes, t.layers, f1.layers, f1.starts, f1.stop, true);
    InvOutput(c, t.changes, t.layers, f2.layers, f2.starts, f2.stop, false);
    StatusSameUpToTools(t.changes, f1.layers, f2.layers);
  }

  /** The fold takes each output layer's markers from input layers, so a
      tower whose markers lie within the token list keeps them there. */
  lemma SquashWellFormed(c: Config, t: PrimeTower, extend: bool, n: nat)
    requires |t.layers| > 0 && Numbered(t.layers) && WellFormed(t, n)
    ensures WellFormed(Squash(c, t, extend), n)
  {
    var r := Squash(c, t, extend);
    forall k | 0 <= k < |r.layers| ensures MarkersWithin(r.changes, r.layers[k], n) {
      SquashShape(c, t, extend, k);
      var starts := SquashStarts(c, t, extend);
      var b := End(starts, StopAt(t.layers, 1), k);
      GroupMarkers(t.changes, t.layers, r.layers[k], k, starts[k], b, extend, n);
    }
  }

  /** The shape of one output layer's group. */
  lemma SquashShape(c: Config, t: PrimeTower, extend: bool, k: nat)
    requires |t.layers| > 0 && RefsValid(t.changes, t.layers) && Numbered(t.layers)
    requires k < |Squash(c, t, extend).layers|
    ensures var starts := SquashStarts(c, t, extend);
            GroupShape(t.layers, Squash(c, t, extend).layers[k], k, starts[k],
                       End(starts, StopAt(t.layers, 1), k), extend)
  {
    SquashGroups(c, t, extend);
  }

  /** A group's layer takes its start from the group's first layer and its
      end from the last. */
  lemma GroupMarkers(changes: seq<ToolChange>, ls: seq<Layer>, l: Layer, k: nat, a: nat, b: nat,
                     extend: bool, n: nat)
    requires GroupShape(ls, l, k, a, b, extend)
    requires forall i :: 0 <= i < |ls| ==> MarkersWithin(changes, ls[i], n)
    ensures MarkersWithin(changes, l, n)
  {
    assert MarkersWithin(changes, ls[a], n);
    assert MarkersWithin(changes, ls[b - 1], n);
  }
}

=== FILE: pipeline.dfy ===
/** How the analysis, the optimizer and the injection fit together: the
    tower the analysis builds is a valid input of the optimizer, whose
    output is in turn a valid input of the injection. */
module Pipeline {
  import opened GCode
  import opened Conf
  import opened Tower
  import opened Scan
  import opened Optimizer
  import opened Wrappers
  import opened Inject

  /** Every layer the scan opens starts its tool sequence with the carried
      tool and then lists its own changes, so each of them has a band. */
  lemma {:induction false} ShapedLayersBanded(ls: seq<Layer>, i: nat)
    requires LayersShaped(ls) && 0 < i < |ls|
    ensures ChangesBanded(ls[i])
    decreases |ls|
  {
    var below := ls[..|ls| - 1];
    if i < |ls| - 1 {
      assert ls[i] == below[i];
      ShapedLayersBanded(below, i);
    } else {
      var l := Last(ls);
      assert l.toolsSeq == Carry(|Flatten(below)|) + l.changeSeq;
      assert l.toolsSeq[|l.toolsSeq| - |l.changeSeq|..] == l.changeSeq;
    }
  }

  /** The analysed tower meets the optimizer's requirements, the optimized
      tower meets the injection's, and every optimized layer after the
      first still gives each of its changes a band. */
  lemma AnalyzedOptimizable(c: Config, tokens: seq<Token>, t: PrimeTower)
    requires PositiveNozzles(c) && Analyzed(c, tokens, t)
    ensures |t.layers| > 0 && RefsValid(t.changes, t.layers) && Numbered(t.layers)
    ensures forall i :: 0 < i < |t.layers| ==> ChangesBanded(t.layers[i])
    ensures WellFormed(OptimizeLayers(c, t), |tokens|)
    ensures var r := OptimizeLayers(c, t);
            forall k :: 0 < k < |r.layers| ==> ChangesBanded(r.layers[k])
  {
    forall i | 0 < i < |t.layers| ensures ChangesBanded(t.layers[i]) {
      ShapedLayersBanded(t.layers, i);
    }
    SquashWellFormed(c, t, true, |tokens|);
    OptimizedBanded(c, t);
  }

  /** When every layer after the first bands its changes, so does every
      optimized layer after the first. */
  lemma OptimizedBanded(c: Config, t: PrimeTower)
    requires |t.layers| > 0 && RefsValid(t.changes, t.layers) && Numbered(t.layers)
    requires forall i :: 0 < i < |t.layers| ==> ChangesBanded(t.layers[i])
    ensures var r := OptimizeLayers(c, t);
            forall k :: 0 < k < |r.layers| ==> ChangesBanded(r.layers[k])
  {
    var r := OptimizeLayers(c, t);
    var starts := SquashStarts(c, t, true);
    forall k | 0 < k < |r.layers| ensures ChangesBanded(r.layers[k]) {
      assert k <= starts[k] < |t.layers|;
    }
  }

  /** In a scanned tower every injection point is the label the injection
      means: a later entry's block goes after the last TOOL_BLOCK_START
      label read while its change was current, and the first entry's after
      the last AFTER_LAYER_CHANGE label of layer 0 on layer 0, after the
      layer's last BEFORE_LAYER_CHANGE label when it has no change of its
      own, and otherwise after the last TOOL_BLOCK_END label read while the
      carried change was current. Each is None exactly when no such label
      was read. So the first entry's point is never a later entry's. */
  lemma MarkerLabels(tokens: seq<Token>, t: PrimeTower, i: nat, k: nat)
    requires Scanned(tokens, t) && i < |t.layers| && k < |t.layers[i].toolsSeq|
    ensures var l := t.layers[i];
      var m := InjectionMarker(l, t.changes, k);
      m.Some? ==>
        && m.value < |tokens|
        && (k > 0 ==> tokens[m.value].kind == Params(ToolBlockStart(t.changes[l.toolsSeq[k]].toolId)))
        && (k == 0 && l.num == 0 ==> tokens[m.value].kind == Params(AfterLayerChange(0, l.z)))
        && (k == 0 && l.num != 0 && |l.changeSeq| == 0 ==> IsBeforeLayerChange(tokens[m.value]))
        && (k == 0 && l.num != 0 && |l.changeSeq| > 0 ==>
              tokens[m.value].kind == Params(ToolBlockEnd(t.changes[l.toolsSeq[0]].toolId)))
        && (k > 0 ==> InjectionMarker(l, t.changes, 0) != m)
    ensures var l := t.layers[i];
      var m := InjectionMarker(l, t.changes, k);
      && (k > 0 ==> m == LastBlock(tokens, |tokens|, l.toolsSeq[k], true))
      && (k == 0 && l.num == 0 ==> m == LastAfter(tokens, |tokens|, 0))
      && (k == 0 && l.num != 0 && |l.changeSeq| == 0 ==> m == LastBefore(tokens, |tokens|, i))
      && (k == 0 && l.num != 0 && |l.changeSeq| > 0 ==> m == LastBlock(tokens, |tokens|, l.toolsSeq[0], false))
  {
    var l := t.layers[i];
    assert LayerRefsValid(l, |t.changes|);
    assert LayerMarkersOk(tokens, |tokens|, l);
    assert ChangeMarkersOk(tokens, |tokens|, t.changes[l.toolsSeq[k]]);
    assert ChangeMarkersOk(tokens, |tokens|, t.changes[l.toolsSeq[0]]);
    MarkerKinds(tokens, t.changes, l, k);
    MarkerPlaced(tokens, t, i, k);
  }

  lemma MarkerKinds(tokens: seq<Token>, changes: seq<ToolChange>, l: Layer, k: nat)
    requires LayerRefsValid(l, |changes|) && k < |l.toolsSeq| && LayerMarkersOk(tokens, |tokens|, l)
    requires ChangeMarkersOk(tokens, |tokens|, changes[l.toolsSeq[k]])
    requires ChangeMarkersOk(tokens, |tokens|, changes[l.toolsSeq[0]])
    ensures var m := InjectionMarker(l, changes, k);
      m.Some? ==>
        && m.value < |tokens|
        && (k > 0 ==> tokens[m.value].kind == Params(ToolBlockStart(changes[l.toolsSeq[k]].toolId)))
        && (k == 0 && l.num == 0 ==> tokens[m.value].kind == Params(AfterLayerChange(0, l.z)))
        && (k == 0 && l.num != 0 && |l.changeSeq| == 0 ==> IsBeforeLayerChange(tokens[m.value]))
        && (k == 0 && l.num != 0 && |l.changeSeq| > 0 ==>
              tokens[m.value].kind == Params(ToolBlockEnd(changes[l.toolsSeq[0]].toolId)))
        && (k > 0 ==> InjectionMarker(l, changes, 0) != m)
  {
  }

  lemma MarkerPlaced(tokens: seq<Token>, t: PrimeTower, i: nat, k: nat)
    requires Scanned(tokens, t) && i < |t.layers| && k < |t.layers[i].toolsSeq|
    ensures var l := t.layers[i];
      LayerRefsValid(l, |t.changes|) &&
      var m := InjectionMarker(l, t.changes, k);
      && (k > 0 ==> m == LastBlock(tokens, |tokens|, l.toolsSeq[k], true))
      && (k == 0 && l.num == 0 ==> m == LastAfter(tokens, |tokens|, 0))
      && (k == 0 && l.num != 0 && |l.changeSeq| == 0 ==> m == LastBefore(tokens, |tokens|, i))
      && (k == 0 && l.num != 0 && |l.changeSeq| > 0 ==> m == LastBlock(tokens, |tokens|, l.toolsSeq[0], false))
  {
    var l := t.layers[i];
    assert LayerRefsValid(l, |t.changes|);
    assert l.num == i;
    if k > 0 {
      assert l.toolsSeq[k] < |t.changes|;
    } else {
      assert l.toolsSeq[0] < |t.changes|;
    }
  }
}

=== FILE: scan.dfy ===
/** The single pass over the annotated token list that builds the layer
    records (PrimeTower.analyze_gcode).

    The scan state is the layer list and the tool-change table; the current
    tool is always the most recently created change. The scan is defined on
    prefixes of the token list, one token per step, and its invariant
    relates the state after `n` tokens to definitions read directly off
    those `n` tokens. */
module Scan {
  import opened Wrappers
  import opened GCode
  import opened Conf
  import opened Tower
  import opened ToolStatus
  import opened Bands

  datatype ScanState = ScanState(layers: seq<Layer>, changes: seq<ToolChange>)

  /** Before the first token: one empty layer, no tool selected. */
  const Start := ScanState([EmptyLayer], [])

  // ---------------------------------------------------------------------
  // What the token list says, independently of the scan

  /** The tool a TOOLCHANGE token selects; -1 selects nothing. */
  function SelectedTool(t: Token): Option<ToolId> {
    if t.kind.ToolChangeCmd? && t.kind.nextTool != -1 then Some(t.kind.nextTool) else None
  }

  /** An AFTER_LAYER_CHANGE label with a non-zero layer number. */
  predicate OpensLayer(t: Token) {
    t.kind.Params? && t.kind.tag.AfterLayerChange? && t.kind.tag.layer != 0
  }

  /** Number of layer-opening labels among the first `n` tokens. */
  function NewLayers(tokens: seq<Token>, n: nat): nat
    requires n <= |tokens|
  {
    if n == 0 then 0 else NewLayers(tokens, n - 1) + (if OpensLayer(tokens[n - 1]) then 1 else 0)
  }

  /** Positions of the tool-selecting TOOLCHANGE tokens among the first `n`. */
  function ChangeTokens(tokens: seq<Token>, n: nat): (ct: seq<nat>)
    requires n <= |tokens|
    ensures forall j :: 0 <= j < |ct| ==> ct[j] < n && SelectedTool(tokens[ct[j]]).Some?
  {
    if n == 0 then []
    else ChangeTokens(tokens, n - 1) + (if SelectedTool(tokens[n - 1]).Some? then [n - 1] else [])
  }

  /** Layer numbers arrive in order: zeros only before the first non-zero
      layer, then 1, 2, 3, ... */
  predicate Consecutive(tokens: seq<Token>) {
    forall i :: 0 <= i < |tokens| && tokens[i].kind.Params? && tokens[i].kind.tag.AfterLayerChange? ==>
      var k := tokens[i].kind.tag.layer;
      (k == 0 && NewLayers(tokens, i) == 0) || k == NewLayers(tokens, i) + 1
  }

  /** A TOOL_BLOCK_START or TOOL_BLOCK_END label naming a tool. */
  predicate IsBlockMarker(t: Token) {
    t.kind.Params? && (t.kind.tag.ToolBlockStart? || t.kind.tag.ToolBlockEnd?)
  }

  function BlockTool(t: Token): int
    requires IsBlockMarker(t)
  {
    t.kind.tag.tool
  }

  /** The index of the last tool-selecting TOOLCHANGE among the first `n`. */
  function LastSelection(tokens: seq<Token>, n: nat): Option<nat>
    requires n <= |tokens|
  {
    var ct := ChangeTokens(tokens, n);
    if |ct| == 0 then None else Some(Last(ct))
  }

  // ---------------------------------------------------------------------
  // One step

  /** The change references a fresh layer starts its tool sequence with:
      the current tool, if any. */
  function Carry(n: nat): (r: seq<nat>)
    ensures |r| <= 1 && forall j :: 0 <= j < |r| ==> r[j] == n - 1
  {
    if n == 0 then [] else [n - 1]
  }

  /** AFTER_LAYER_CHANGE(k, z) at token i: a new layer for k != 0; for
      k == 0 the current layer is reset in place (its change list kept). */
  function OnAfter(st: ScanState, k: int, z: real, i: nat): (r: ScanState)
    requires |st.layers| > 0
    ensures r.changes == st.changes
    ensures k != 0 ==> |r.layers| == |st.layers| + 1 && r.layers[..|st.layers|] == st.layers
    ensures k == 0 ==> |r.layers| == |st.layers| && r.layers[..|st.layers| - 1] == st.layers[..|st.layers| - 1]
    ensures Last(r.layers).num == k && Last(r.layers).z == z && Last(r.layers).start == Some(i)
    ensures Last(r.layers).toolsSeq == Carry(|st.changes|)
    ensures Last(r.layers).end == if k != 0 then None else Last(st.layers).end
  {
    var cur := Carry(|st.changes|);
    if k != 0 then
      var prev := Last(st.layers).z;
      var l := EmptyLayer.(num := k, z := z, height := z - prev, start := Some(i), toolsSeq := cur);
      assert (st.layers + [l])[..|st.layers|] == st.layers;
      ScanState(st.layers + [l], st.changes)
    else
      var l := Last(st.layers).(num := 0, z := z, height := z - 0.0, start := Some(i), toolsSeq := cur);
      ScanState(SetLast(st.layers, l), st.changes)
  }

  /** BEFORE_LAYER_CHANGE at token i: records the layer end and rejects a
      layer higher than its tool set allows. */
  function OnBefore(c: Config, st: ScanState, i: nat): (r: Result<ScanState, Error>)
    requires |st.layers| > 0 && LayerRefsValid(Last(st.layers), |st.changes|)
    ensures var l := Last(st.layers);
      r.Failure? <==> l.height > c.maxLayerHeight(ToolSet(st.changes, l.toolsSeq))
    ensures r.Failure? ==> r.error == LayerTooHigh(i)
    ensures r.Success? ==> r.value == ScanState(SetLast(st.layers, Last(st.layers).(end := Some(i))), st.changes)
  {
    var l := Last(st.layers);
    if l.height > c.maxLayerHeight(ToolSet(st.changes, l.toolsSeq)) then Failure(LayerTooHigh(i))
    else Success(ScanState(SetLast(st.layers, l.(end := Some(i))), st.changes))
  }

  /** TOOLCHANGE selecting `tool` at token i: a new change record, appended
      to both the change list and the tool sequence of the current layer. */
  function OnToolChange(st: ScanState, tool: ToolId, i: nat): (r: ScanState)
    requires |st.layers| > 0
    ensures r.changes == st.changes + [ToolChange(tool, i, None, None)]
    ensures var l := Last(st.layers);
      r.layers == SetLast(st.layers, l.(changeSeq := l.changeSeq + [|st.changes|],
                                         toolsSeq := l.toolsSeq + [|st.changes|]))
  {
    var l := Last(st.layers);
    var n := |st.changes|;
    ScanState(SetLast(st.layers, l.(changeSeq := l.changeSeq + [n], toolsSeq := l.toolsSeq + [n])),
              st.changes + [ToolChange(tool, i, None, None)])
  }

  /** TOOL_BLOCK_START / TOOL_BLOCK_END naming `tool` at token i: recorded
      on the current tool's change, which must be for that tool. */
  function OnBlock(st: ScanState, tool: ToolId, start: bool, i: nat): (r: Result<ScanState, Error>)
    ensures r.Failure? <==> |st.changes| == 0 || Last(st.changes).toolId != tool
    ensures r.Failure? ==> r.error == (if |st.changes| == 0 then BlockMarkerWithoutTool(i) else BlockMarkerMismatch(i))
    ensures r.Success? ==> r.value.layers == st.layers && |r.value.changes| == |st.changes|
    ensures r.Success? ==> forall j :: 0 <= j < |st.changes| - 1 ==> r.value.changes[j] == st.changes[j]
    ensures r.Success? ==> var cur := Last(st.changes);
      Last(r.value.changes) == if start then cur.(blockStart := Some(i)) else cur.(blockEnd := Some(i))
  {
    if |st.changes| == 0 then Failure(BlockMarkerWithoutTool(i))
    else
      var j := |st.changes| - 1;
      var cur := st.changes[j];
      if cur.toolId != tool then Failure(BlockMarkerMismatch(i))
      else if start then Success(ScanState(st.layers, st.changes[j := cur.(blockStart := Some(i))]))
      else Success(ScanState(st.layers, st.changes[j := cur.(blockEnd := Some(i))]))
  }

  /** The effect of token `t` (at index i) on the scan state. */
  function Step(c: Config, st: ScanState, t: Token, i: nat): (r: Result<ScanState, Error>)
    requires |st.layers| > 0 && LayerRefsValid(Last(st.layers), |st.changes|)
  {
    match t.kind
    case Params(AfterLayerChange(k, z)) => Success(OnAfter(st, k, z, i))
    case Params(BeforeLayerChange(_, _)) => OnBefore(c, st, i)
    case ToolChangeCmd(nt) => if nt != -1 then Success(OnToolChange(st, nt, i)) else Success(st)
    case Params(ToolBlockStart(tid)) => if tid != -1 then OnBlock(st, tid, true, i) else Success(st)
    case Params(ToolBlockEnd(tid)) => if tid != -1 then OnBlock(st, tid, false, i) else Success(st)
    case _ => Success(st)
  }

  // ---------------------------------------------------------------------
  // The invariant

  /** The block markers recorded on a change are labels of its own tool. */
  predicate ChangeMarkersOk(tokens: seq<Token>, n: nat, tc: ToolChange)
    requires n <= |tokens|
  {
    && (tc.blockStart.Some? ==>
          tc.blockStart.value < n && tokens[tc.blockStart.value].kind == Params(ToolBlockStart(tc.toolId)))
    && (tc.blockEnd.Some? ==>
          tc.blockEnd.value < n && tokens[tc.blockEnd.value].kind == Params(ToolBlockEnd(tc.toolId)))
  }

  /** The change table lists the tool-selecting TOOLCHANGE tokens, in
      order, with the tool each selects. */
  predicate ChangesMatch(tokens: seq<Token>, n: nat, changes: seq<ToolChange>)
    requires n <= |tokens|
  {
    var ct := ChangeTokens(tokens, n);
    && |changes| == |ct|
    && forall j :: 0 <= j < |changes| ==>
         && changes[j].source == ct[j]
         && SelectedTool(tokens[ct[j]]) == Some(changes[j].toolId)
         && ChangeMarkersOk(tokens, n, changes[j])
  }

  /** A layer's start is its AFTER_LAYER_CHANGE label and its end a
      BEFORE_LAYER_CHANGE label. */
  predicate LayerMarkersOk(tokens: seq<Token>, n: nat, l: Layer)
    requires n <= |tokens|
  {
    && (l.start.Some? ==>
          l.start.value < n && tokens[l.start.value].kind == Params(AfterLayerChange(l.num, l.z)))
    && (l.end.Some? ==> l.end.value < n && IsBeforeLayerChange(tokens[l.end.value]))
  }

  /** Every layer after the first starts its tool sequence with the tool
      current when it opened, followed by its own changes, and its height
      is its distance from the layer below; the first layer's height is
      its z. Stated layer by layer from the top. */
  predicate LayersShaped(ls: seq<Layer>)
    decreases |ls|
  {
    && |ls| > 0
    && var l := Last(ls);
       var below := ls[..|ls| - 1];
       if |below| == 0 then l.height == l.z
       else
         && LayersShaped(below)
         && l.toolsSeq == Carry(|Flatten(below)|) + l.changeSeq
         && l.height == l.z - Last(below).z
         && l.start.Some?
  }

  /** Every TOOL_BLOCK_START/END label naming a tool names the tool of the
      last TOOLCHANGE before it. */
  predicate BlocksConsistent(tokens: seq<Token>, n: nat)
    requires n <= |tokens|
  {
    forall i :: 0 <= i < n && IsBlockMarker(tokens[i]) && BlockTool(tokens[i]) != -1 ==>
      && LastSelection(tokens, i).Some?
      && SelectedTool(tokens[LastSelection(tokens, i).value]) == Some(BlockTool(tokens[i]))
  }

  /** What the scan state says about the tokens read so far. */
  predicate TokenInv(tokens: seq<Token>, n: nat, st: ScanState)
    requires n <= |tokens|
  {
    && |st.layers| == 1 + NewLayers(tokens, n)
    && Numbered(st.layers)
    && ChangesMatch(tokens, n, st.changes)
    && (forall i :: 0 <= i < |st.layers| ==> LayerMarkersOk(tokens, n, st.layers[i]))
    && BlocksConsistent(tokens, n)
  }

  /** How the layers and the change table fit together. */
  predicate ShapeInv(st: ScanState) {
    && Flatten(st.layers) == Range(0, |st.changes|)
    && RefsValid(st.changes, st.layers)
    && LayersShaped(st.layers)
  }

  /** The last BEFORE_LAYER_CHANGE label among the first `n` tokens that
      follows exactly `i` layer-opening labels. */
  function LastBefore(tokens: seq<Token>, n: nat, i: nat): (r: Option<nat>)
    requires n <= |tokens|
    ensures r.Some? ==> r.value < n && IsBeforeLayerChange(tokens[r.value]) && NewLayers(tokens, r.value) == i
  {
    if n == 0 then None
    else if IsBeforeLayerChange(tokens[n - 1]) && NewLayers(tokens, n - 1) == i then Some(n - 1)
    else LastBefore(tokens, n - 1, i)
  }

  /** Change j belongs to layer i exactly when i layer-opening labels
      precede its TOOLCHANGE token. */
  predicate ChangesPlaced(tokens: seq<Token>, n: nat, ls: seq<Layer>, changes: seq<ToolChange>)
    requires n <= |tokens|
  {
    && (forall j :: 0 <= j < |changes| ==> changes[j].source < n)
    && forall i, j :: 0 <= i < |ls| && 0 <= j < |changes| ==>
         (j in ls[i].changeSeq <==> NewLayers(tokens, changes[j].source) == i)
  }

  /** Layer i ends at the last BEFORE_LAYER_CHANGE label read while it was
      the current layer, and has no end if there was none. */
  predicate EndsPlaced(tokens: seq<Token>, n: nat, ls: seq<Layer>)
    requires n <= |tokens|
  {
    forall i :: 0 <= i < |ls| ==> ls[i].end == LastBefore(tokens, n, i)
  }

  /** Layer 0's tool sequence: its changes, or, once an AFTER_LAYER_CHANGE
      label for layer 0 was read, the tool current at its last such label
      followed by the changes after that label. */
  predicate FirstTools(tokens: seq<Token>, n: nat, ls: seq<Layer>)
    requires n <= |tokens|
  {
    && |ls| > 0
    && var l := ls[0];
       match l.start
       case None => l.toolsSeq == l.changeSeq
       case Some(p) =>
         && p < n
         && var q := |ChangeTokens(tokens, p)|;
            q <= |l.changeSeq| && l.toolsSeq == Carry(q) + l.changeSeq[q..]
  }

  /** Where the scan puts the changes, the layer ends and layer 0's tools. */
  predicate PlaceInv(tokens: seq<Token>, n: nat, st: ScanState)
    requires n <= |tokens|
  {
    && ChangesPlaced(tokens, n, st.layers, st.changes)
    && EndsPlaced(tokens, n, st.layers)
    && FirstTools(tokens, n, st.layers)
  }

  /** A TOOL_BLOCK_START (`start`) or TOOL_BLOCK_END label naming a tool. */
  predicate IsBlockLabel(t: Token, start: bool) {
    && t.kind.Params?
    && (if start then t.kind.tag.ToolBlockStart? else t.kind.tag.ToolBlockEnd?)
    && t.kind.tag.tool != -1
  }

  /** The last block label of the given kind among the first `n` tokens
      that was read while change j was the current one, that is, after
      exactly j + 1 tool-selecting TOOLCHANGE tokens. */
  function LastBlock(tokens: seq<Token>, n: nat, j: nat, start: bool): (r: Option<nat>)
    requires n <= |tokens|
    ensures r.Some? ==> r.value < n && IsBlockLabel(tokens[r.value], start) && |ChangeTokens(tokens, r.value)| == j + 1
  {
    if n == 0 then None
    else if IsBlockLabel(tokens[n - 1], start) && |ChangeTokens(tokens, n - 1)| == j + 1 then Some(n - 1)
    else LastBlock(tokens, n - 1, j, start)
  }

  predicate IsAfterLayerChange(t: Token) {
    t.kind.Params? && t.kind.tag.AfterLayerChange?
  }

  /** The last AFTER_LAYER_CHANGE label among the first `n` tokens after
      which exactly `i` layer-opening labels have been read: the label that
      opened layer i, or the last layer-0 label for i == 0. */
  function LastAfter(tokens: seq<Token>, n: nat, i: nat): (r: Option<nat>)
    requires n <= |tokens|
    ensures r.Some? ==> r.value < n && IsAfterLayerChange(tokens[r.value]) && NewLayers(tokens, r.value + 1) == i
  {
    if n == 0 then None
    else if IsAfterLayerChange(tokens[n - 1]) && NewLayers(tokens, n) == i then Some(n - 1)
    else LastAfter(tokens, n - 1, i)
  }

  /** Every change records the last TOOL_BLOCK_START and TOOL_BLOCK_END
      labels read while it was the current one, and none if there was none. */
  predicate BlocksPlaced(tokens: seq<Token>, n: nat, changes: seq<ToolChange>)
    requires n <= |tokens|
  {
    forall j :: 0 <= j < |changes| ==>
      && changes[j].blockStart == LastBlock(tokens, n, j, true)
      && changes[j].blockEnd == LastBlock(tokens, n, j, false)
  }

  /** Every layer starts at the AFTER_LAYER_CHANGE label that made it
      current last. */
  predicate StartsPlaced(tokens: seq<Token>, n: nat, ls: seq<Layer>)
    requires n <= |tokens|
  {
    forall i :: 0 <= i < |ls| ==> ls[i].start == LastAfter(tokens, n, i)
  }

  /** Which labels the scan records as block and layer starts. */
  predicate MarksInv(tokens: seq<Token>, n: nat, st: ScanState)
    requires n <= |tokens|
  {
    BlocksPlaced(tokens, n, st.changes) && StartsPlaced(tokens, n, st.layers)
  }

  predicate Inv(tokens: seq<Token>, n: nat, st: ScanState)
    requires n <= |tokens|
  {
    TokenInv(tokens, n, st) && ShapeInv(st) && PlaceInv(tokens, n, st) && MarksInv(tokens, n, st)
  }

  /** Where an error of the scan points. */
  predicate ErrorAt(tokens: seq<Token>, n: nat, e: Error)
    requires n <= |tokens|
  {
    match e
    case LayerTooHigh(at) => at < n && IsBeforeLayerChange(tokens[at])
    case BlockMarkerWithoutTool(at) =>
      at < n && IsBlockMarker(tokens[at]) && BlockTool(tokens[at]) != -1 && LastSelection(tokens, at).None?
    case BlockMarkerMismatch(at) =>
      && at < n && IsBlockMarker(tokens[at]) && BlockTool(tokens[at]) != -1
      && LastSelection(tokens, at).Some?
      && SelectedTool(tokens[LastSelection(tokens, at).value]) != Some(BlockTool(tokens[at]))
    case _ => false
  }

  /** The scan of the first `n` tokens. */
  function ScanPrefix(c: Config, tokens: seq<Token>, n: nat): (r: Result<ScanState, Error>)
    requires n <= |tokens| && Consecutive(tokens)
    ensures r.Success? ==> Inv(tokens, n, r.value)
    ensures r.Failure? ==> ErrorAt(tokens, n, r.error)
  {
    if n == 0 then
      StartInv(tokens);
      Success(Start)
    else
      var prev := ScanPrefix(c, tokens, n - 1);
      if prev.Failure? then
        ErrorWiden(tokens, n - 1, prev.error);
        Failure(prev.error)
      else
        StepInv(c, tokens, n, prev.value);
        Step(c, prev.value, tokens[n - 1], n - 1)
  }

  // ---------------------------------------------------------------------
  // The invariant is kept

  lemma StartInv(tokens: seq<Token>)
    ensures Inv(tokens, 0, Start)
  {
    assert Flatten([EmptyLayer]) == Flatten([]) + [];
  }

  /** Facts about a later position that hold at an earlier one stay true. */
  lemma Widen(tokens: seq<Token>, n: nat, st: ScanState)
    requires n < |tokens| && TokenInv(tokens, n, st)
    ensures forall j :: 0 <= j < |st.changes| ==> ChangeMarkersOk(tokens, n + 1, st.changes[j])
    ensures forall i :: 0 <= i < |st.layers| ==> LayerMarkersOk(tokens, n + 1, st.layers[i])
  {
  }

  /** The current tool of the scan is the one the last TOOLCHANGE selected. */
  lemma CurrentIsLastSelection(tokens: seq<Token>, n: nat, st: ScanState)
    requires n <= |tokens| && TokenInv(tokens, n, st)
    ensures LastSelection(tokens, n).None? <==> |st.changes| == 0
    ensures |st.changes| > 0 ==>
      SelectedTool(tokens[LastSelection(tokens, n).value]) == Some(Last(st.changes).toolId)
  {
  }

  /** A token that selects no tool leaves the change table's facts true. */
  lemma ChangesWiden(tokens: seq<Token>, n: nat, changes: seq<ToolChange>)
    requires n < |tokens| && ChangesMatch(tokens, n, changes) && SelectedTool(tokens[n]).None?
    ensures ChangesMatch(tokens, n + 1, changes)
  {
    assert ChangeTokens(tokens, n + 1) == ChangeTokens(tokens, n);
  }

  /** A token that is no tool-naming block label keeps the labels consistent. */
  lemma BlocksWiden(tokens: seq<Token>, n: nat)
    requires n < |tokens| && BlocksConsistent(tokens, n)
    requires IsBlockMarker(tokens[n]) ==> BlockTool(tokens[n]) == -1
    ensures BlocksConsistent(tokens, n + 1)
  {
  }

  lemma LayersWiden(tokens: seq<Token>, n: nat, ls: seq<Layer>)
    requires n < |tokens| && forall i :: 0 <= i < |ls| ==> LayerMarkersOk(tokens, n, ls[i])
    ensures forall i :: 0 <= i < |ls| ==> LayerMarkersOk(tokens, n + 1, ls[i])
  {
  }

  /** A token that neither opens a layer, selects a tool, nor names a tool
      in a block label leaves the counted facts unchanged. */
  lemma NeutralInv(tokens: seq<Token>, n: nat, st: ScanState)
    requires n < |tokens| && TokenInv(tokens, n, st)
    requires !OpensLayer(tokens[n]) && SelectedTool(tokens[n]).None?
    requires IsBlockMarker(tokens[n]) ==> BlockTool(tokens[n]) == -1
    ensures TokenInv(tokens, n + 1, st)
  {
    ChangesWiden(tokens, n, st.changes);
    BlocksWiden(tokens, n);
    LayersWiden(tokens, n, st.layers);
  }

  lemma AfterTokens(tokens: seq<Token>, n: nat, st: ScanState, k: int, z: real)
    requires n < |tokens| && Consecutive(tokens) && TokenInv(tokens, n, st)
    requires tokens[n].kind == Params(AfterLayerChange(k, z))
    ensures TokenInv(tokens, n + 1, OnAfter(st, k, z, n))
    ensures k == 0 ==> |st.layers| == 1
  {
    Widen(tokens, n, st);
    ChangesWiden(tokens, n, st.changes);
    BlocksWiden(tokens, n);
    assert NewLayers(tokens, n + 1) == NewLayers(tokens, n) + (if k != 0 then 1 else 0);
    assert (k == 0 && NewLayers(tokens, n) == 0) || k == NewLayers(tokens, n) + 1;
    AfterLayers(tokens, n, st, k, z);
  }

  /** The layers after AFTER_LAYER_CHANGE stay numbered by position and
      the opened (or reset) layer starts at this label. */
  lemma AfterLayers(tokens: seq<Token>, n: nat, st: ScanState, k: int, z: real)
    requires n < |tokens| && |st.layers| > 0 && Numbered(st.layers)
    requires forall i :: 0 <= i < |st.layers| ==> LayerMarkersOk(tokens, n + 1, st.layers[i])
    requires tokens[n].kind == Params(AfterLayerChange(k, z))
    requires k != 0 ==> k == |st.layers|
    requires k == 0 ==> |st.layers| == 1
    ensures var r := OnAfter(st, k, z, n);
            && Numbered(r.layers)
            && forall i :: 0 <= i < |r.layers| ==> LayerMarkersOk(tokens, n + 1, r.layers[i])
  {
    var r := OnAfter(st, k, z, n);
    if k != 0 {
      OpenedLayers(tokens, n, st.layers, r.layers, k, z);
    } else {
      ReopenedLayers(tokens, n, st.layers, r.layers, z);
    }
  }

  /** A new layer `k` opened at token n after the others. */
  lemma OpenedLayers(tokens: seq<Token>, n: nat, ls: seq<Layer>, rs: seq<Layer>, k: int, z: real)
    requires n < |tokens| && Numbered(ls)
    requires forall i :: 0 <= i < |ls| ==> LayerMarkersOk(tokens, n + 1, ls[i])
    requires tokens[n].kind == Params(AfterLayerChange(k, z))
    requires k == |ls| && |rs| == |ls| + 1 && rs[..|ls|] == ls
    requires Last(rs).num == k && Last(rs).z == z && Last(rs).start == Some(n) && Last(rs).end == None
    ensures Numbered(rs) && forall i :: 0 <= i < |rs| ==> LayerMarkersOk(tokens, n + 1, rs[i])
  {
    forall i | 0 <= i < |rs| ensures rs[i].num == i && LayerMarkersOk(tokens, n + 1, rs[i]) {
      if i < |ls| {
        assert rs[i] == rs[..|ls|][i];
      }
    }
  }

  /** Layer 0 reopened at token n: the only layer gets its start. */
  lemma ReopenedLayers(tokens: seq<Token>, n: nat, ls: seq<Layer>, rs: seq<Layer>, z: real)
    requires n < |tokens| && |ls| == 1
    requires LayerMarkersOk(tokens, n + 1, ls[0])
    requires tokens[n].kind == Params(AfterLayerChange(0, z))
    requires |rs| == 1
    requires Last(rs).num == 0 && Last(rs).z == z && Last(rs).start == Some(n) && Last(rs).end == Last(ls).end
    ensures Numbered(rs) && forall i :: 0 <= i < |rs| ==> LayerMarkersOk(tokens, n + 1, rs[i])
  {
    assert rs[0] == Last(rs);
  }

  lemma AfterShape(st: ScanState, k: int, z: real, i: nat)
    requires ShapeInv(st) && (k == 0 ==> |st.layers| == 1)
    ensures ShapeInv(OnAfter(st, k, z, i))
  {
    var r := OnAfter(st, k, z, i);
    var l := Last(r.layers);
    if k != 0 {
      assert r.layers == st.layers + [l];
      FlattenAppend(st.layers, [l]);
      assert Flatten([l]) == Flatten([]) + l.changeSeq;
      assert r.layers[..|r.layers| - 1] == st.layers;
    } else {
      assert r.layers == [l];
      assert Flatten(r.layers) == Flatten([]) + l.changeSeq;
      assert Flatten(st.layers) == Flatten([]) + Last(st.layers).changeSeq;
    }
  }

  /** Replacing the last layer by one with the same number and start keeps
      the layer facts, given the new end marker is a BEFORE label. */
  lemma LayersSetLast(tokens: seq<Token>, n: nat, ls: seq<Layer>, l: Layer)
    requires n <= |tokens| && |ls| > 0 && Numbered(ls)
    requires forall i :: 0 <= i < |ls| ==> LayerMarkersOk(tokens, n, ls[i])
    requires l.num == Last(ls).num && l.z == Last(ls).z && l.start == Last(ls).start
    requires l.end.Some? ==> l.end.value < n && IsBeforeLayerChange(tokens[l.end.value])
    ensures Numbered(SetLast(ls, l))
    ensures forall i :: 0 <= i < |ls| ==> LayerMarkersOk(tokens, n, SetLast(ls, l)[i])
  {
    var r := SetLast(ls, l);
    forall i | 0 <= i < |ls| ensures r[i].num == i && LayerMarkersOk(tokens, n, r[i]) {
      if i < |ls| - 1 {
        assert r[i] == r[..|ls| - 1][i] == ls[..|ls| - 1][i] == ls[i];
      }
    }
  }

  lemma BeforeTokens(c: Config, tokens: seq<Token>, n: nat, st: ScanState)
    requires n < |tokens| && TokenInv(tokens, n, st) && IsBeforeLayerChange(tokens[n])
    requires |st.layers| > 0 && LayerRefsValid(Last(st.layers), |st.changes|)
    ensures var r := OnBefore(c, st, n);
      && (r.Success? ==> TokenInv(tokens, n + 1, r.value))
      && (r.Failure? ==> ErrorAt(tokens, n + 1, r.error))
  {
    var r := OnBefore(c, st, n);
    ChangesWiden(tokens, n, st.changes);
    BlocksWiden(tokens, n);
    LayersWiden(tokens, n, st.layers);
    if r.Success? {
      LayersSetLast(tokens, n + 1, st.layers, Last(st.layers).(end := Some(n)));
    }
  }

  lemma BeforeShape(st: ScanState, i: nat)
    requires ShapeInv(st)
    ensures ShapeInv(ScanState(SetLast(st.layers, Last(st.layers).(end := Some(i))), st.changes))
  {
    var ls := SetLast(st.layers, Last(st.layers).(end := Some(i)));
    var m := |ls|;
    assert ls[..m - 1] == st.layers[..m - 1];
    assert ls == ls[..m - 1] + [Last(ls)];
    assert st.layers == st.layers[..m - 1] + [Last(st.layers)];
    assert Flatten(ls) == Flatten(st.layers);
    assert RefsValid(st.changes, ls) by {
      forall j | 0 <= j < m ensures LayerRefsValid(ls[j], |st.changes|) {
        if j < m - 1 {
          assert ls[j] == st.layers[j];
        }
      }
    }
  }

  /** A tool-selecting TOOLCHANGE adds one matching entry to the table. */
  lemma ChangesSnoc(tokens: seq<Token>, n: nat, changes: seq<ToolChange>, tool: ToolId)
    requires n < |tokens| && ChangesMatch(tokens, n, changes)
    requires tokens[n].kind == ToolChangeCmd(tool) && tool != -1
    ensures ChangesMatch(tokens, n + 1, changes + [ToolChange(tool, n, None, None)])
  {
    assert ChangeTokens(tokens, n + 1) == ChangeTokens(tokens, n) + [n];
  }

  /** A TOOLCHANGE token is no block label, so the labels stay consistent. */
  lemma BlocksPastToolChange(tokens: seq<Token>, n: nat)
    requires n < |tokens| && BlocksConsistent(tokens, n) && tokens[n].kind.ToolChangeCmd?
    ensures BlocksConsistent(tokens, n + 1)
  {
    forall i | 0 <= i < n + 1 && IsBlockMarker(tokens[i]) && BlockTool(tokens[i]) != -1
      ensures LastSelection(tokens, i).Some?
      ensures SelectedTool(tokens[LastSelection(tokens, i).value]) == Some(BlockTool(tokens[i]))
    {
      assert i < n;
    }
  }

  lemma ToolChangeTokens(tokens: seq<Token>, n: nat, st: ScanState, tool: ToolId)
    requires n < |tokens| && TokenInv(tokens, n, st)
    requires tokens[n].kind == ToolChangeCmd(tool) && tool != -1
    ensures TokenInv(tokens, n + 1, OnToolChange(st, tool, n))
  {
    var l := Last(st.layers);
    ChangesSnoc(tokens, n, st.changes, tool);
    BlocksPastToolChange(tokens, n);
    LayersWiden(tokens, n, st.layers);
    LayersSetLast(tokens, n + 1, st.layers,
                  l.(changeSeq := l.changeSeq + [|st.changes|], toolsSeq := l.toolsSeq + [|st.changes|]));
    assert ChangeTokens(tokens, n + 1) == ChangeTokens(tokens, n) + [n];
  }

  lemma ToolChangeShape(st: ScanState, tool: ToolId, i: nat)
    requires ShapeInv(st)
    ensures ShapeInv(OnToolChange(st, tool, i))
  {
    var r := OnToolChange(st, tool, i);
    var ls := r.layers;
    var m := |ls|;
    var c := |st.changes|;
    assert |r.changes| == c + 1;
    assert ls == st.layers[..m - 1] + [Last(ls)];
    assert st.layers == st.layers[..m - 1] + [Last(st.layers)];
    assert Flatten(ls) == Flatten(st.layers) + [c] by {
      assert Flatten(ls) == Flatten(st.layers[..m - 1]) + Last(ls).changeSeq;
      assert Flatten(st.layers) == Flatten(st.layers[..m - 1]) + Last(st.layers).changeSeq;
    }
    assert Range(0, c + 1) == Range(0, c) + [c];
    assert RefsValid(r.changes, ls) by {
      forall j | 0 <= j < m ensures LayerRefsValid(ls[j], c + 1) {
        if j < m - 1 {
          assert ls[j] == st.layers[j];
        }
      }
    }
    assert ls[..m - 1] == st.layers[..m - 1];
  }

  lemma BlockTokens(tokens: seq<Token>, n: nat, st: ScanState, tool: ToolId, start: bool)
    requires n < |tokens| && TokenInv(tokens, n, st) && tool != -1
    requires tokens[n].kind == Params(if start then ToolBlockStart(tool) else ToolBlockEnd(tool))
    ensures var r := OnBlock(st, tool, start, n);
      && (r.Success? ==> TokenInv(tokens, n + 1, r.value))
      && (r.Failure? ==> ErrorAt(tokens, n + 1, r.error))
  {
    var r := OnBlock(st, tool, start, n);
    CurrentIsLastSelection(tokens, n, st);
    assert IsBlockMarker(tokens[n]) && BlockTool(tokens[n]) == tool;
    if r.Success? {
      MarkTokens(tokens, n, st, r.value, tool, start);
    }
  }

  /** A block label of the current tool, recorded on the current change,
      keeps the token facts. */
  lemma MarkTokens(tokens: seq<Token>, n: nat, st: ScanState, st': ScanState, tool: ToolId, start: bool)
    requires n < |tokens| && TokenInv(tokens, n, st) && tool != -1
    requires tokens[n].kind == Params(if start then ToolBlockStart(tool) else ToolBlockEnd(tool))
    requires |st.changes| > 0 && Last(st.changes).toolId == tool
    requires st'.layers == st.layers && |st'.changes| == |st.changes|
    requires forall j :: 0 <= j < |st.changes| - 1 ==> st'.changes[j] == st.changes[j]
    requires Last(st'.changes) == if start then Last(st.changes).(blockStart := Some(n)) else Last(st.changes).(blockEnd := Some(n))
    ensures TokenInv(tokens, n + 1, st')
  {
    Widen(tokens, n, st);
    CurrentIsLastSelection(tokens, n, st);
    MarkBlocks(tokens, n, tool);
    MarkChangesMatch(tokens, n, st.changes, st'.changes, tool, start);
  }

  /** A block label naming the tool the last TOOLCHANGE selected keeps the
      labels consistent. */
  lemma MarkBlocks(tokens: seq<Token>, n: nat, tool: ToolId)
    requires n < |tokens| && BlocksConsistent(tokens, n)
    requires IsBlockMarker(tokens[n]) && BlockTool(tokens[n]) == tool
    requires LastSelection(tokens, n).Some? && SelectedTool(tokens[LastSelection(tokens, n).value]) == Some(tool)
    ensures BlocksConsistent(tokens, n + 1)
  {
    forall i | 0 <= i < n + 1 && IsBlockMarker(tokens[i]) && BlockTool(tokens[i]) != -1
      ensures LastSelection(tokens, i).Some?
      ensures SelectedTool(tokens[LastSelection(tokens, i).value]) == Some(BlockTool(tokens[i]))
    {
      if i < n {
        assert BlocksConsistent(tokens, n);
      }
    }
  }

  /** Recording a block label on the current change keeps the change table
      matched with the tokens. */
  lemma MarkChangesMatch(tokens: seq<Token>, n: nat, changes: seq<ToolChange>, ch: seq<ToolChange>,
                         tool: ToolId, start: bool)
    requires n < |tokens| && ChangesMatch(tokens, n, changes) && |changes| > 0
    requires tokens[n].kind == Params(if start then ToolBlockStart(tool) else ToolBlockEnd(tool))
    requires Last(changes).toolId == tool
    requires |ch| == |changes| && forall j :: 0 <= j < |changes| - 1 ==> ch[j] == changes[j]
    requires Last(ch) == if start then Last(changes).(blockStart := Some(n)) else Last(changes).(blockEnd := Some(n))
    ensures ChangesMatch(tokens, n + 1, ch)
  {
    ChangesWiden(tokens, n, changes);
    var ct := ChangeTokens(tokens, n + 1);
    forall j | 0 <= j < |ch|
      ensures ch[j].source == ct[j] && SelectedTool(tokens[ct[j]]) == Some(ch[j].toolId)
      ensures ChangeMarkersOk(tokens, n + 1, ch[j])
    {
      if j < |ch| - 1 {
        assert ch[j] == changes[j];
      } else {
        assert ChangeMarkersOk(tokens, n + 1, changes[j]);
      }
    }
  }

  lemma StepInv(c: Config, tokens: seq<Token>, n: nat, st: ScanState)
    requires 0 < n <= |tokens| && Consecutive(tokens) && Inv(tokens, n - 1, st)
    ensures |st.layers| > 0 && LayerRefsValid(Last(st.layers), |st.changes|)
    ensures var r := Step(c, st, tokens[n - 1], n - 1);
      && (r.Success? ==> Inv(tokens, n, r.value))
      && (r.Failure? ==> ErrorAt(tokens, n, r.error))
  {
    StepFrom(c, tokens, n - 1, st);
    StepPlace(c, tokens, n - 1, st);
    StepMarks(c, tokens, n - 1, st);
  }

  /** The same, with `n` the index of the token read. */
  lemma StepFrom(c: Config, tokens: seq<Token>, n: nat, st: ScanState)
    requires n < |tokens| && Consecutive(tokens) && TokenInv(tokens, n, st) && ShapeInv(st)
    ensures |st.layers| > 0 && LayerRefsValid(Last(st.layers), |st.changes|)
    ensures var r := Step(c, st, tokens[n], n);
      && (r.Success? ==> TokenInv(tokens, n + 1, r.value) && ShapeInv(r.value))
      && (r.Failure? ==> ErrorAt(tokens, n + 1, r.error))
  {
    var t := tokens[n];
    match t.kind
    case Params(AfterLayerChange(k, z)) =>
      AfterInv(tokens, n, st, k, z);
    case Params(BeforeLayerChange(_, _)) =>
      BeforeInv(c, tokens, n, st);
    case ToolChangeCmd(nt) =>
      if nt != -1 {
        ToolChangeInv(tokens, n, st, nt);
      } else {
        NeutralInv(tokens, n, st);
      }
    case Params(ToolBlockStart(tid)) =>
      if tid != -1 {
        BlockInv(tokens, n, st, tid, true);
      } else {
        NeutralInv(tokens, n, st);
      }
    case Params(ToolBlockEnd(tid)) =>
      if tid != -1 {
        BlockInv(tokens, n, st, tid, false);
      } else {
        NeutralInv(tokens, n, st);
      }
    case Params(OtherLabel(_)) =>
      NeutralInv(tokens, n, st);
    case Command =>
      NeutralInv(tokens, n, st);
  }

  lemma AfterInv(tokens: seq<Token>, n: nat, st: ScanState, k: int, z: real)
    requires n < |tokens| && Consecutive(tokens) && TokenInv(tokens, n, st) && ShapeInv(st)
    requires tokens[n].kind == Params(AfterLayerChange(k, z))
    ensures TokenInv(tokens, n + 1, OnAfter(st, k, z, n)) && ShapeInv(OnAfter(st, k, z, n))
  {
    AfterTokens(tokens, n, st, k, z);
    AfterShape(st, k, z, n);
  }

  lemma ToolChangeInv(tokens: seq<Token>, n: nat, st: ScanState, tool: ToolId)
    requires n < |tokens| && TokenInv(tokens, n, st) && ShapeInv(st)
    requires tokens[n].kind == ToolChangeCmd(tool) && tool != -1
    ensures TokenInv(tokens, n + 1, OnToolChange(st, tool, n)) && ShapeInv(OnToolChange(st, tool, n))
  {
    ToolChangeTokens(tokens, n, st, tool);
    ToolChangeShape(st, tool, n);
  }

  lemma BeforeInv(c: Config, tokens: seq<Token>, n: nat, st: ScanState)
    requires n < |tokens| && TokenInv(tokens, n, st) && ShapeInv(st) && IsBeforeLayerChange(tokens[n])
    ensures |st.layers| > 0 && LayerRefsValid(Last(st.layers), |st.changes|)
    ensures var r := OnBefore(c, st, n);
      && (r.Success? ==> TokenInv(tokens, n + 1, r.value) && ShapeInv(r.value))
      && (r.Failure? ==> ErrorAt(tokens, n + 1, r.error))
  {
    BeforeTokens(c, tokens, n, st);
    BeforeShape(st, n);
  }

  lemma BlockInv(tokens: seq<Token>, n: nat, st: ScanState, tool: ToolId, start: bool)
    requires n < |tokens| && TokenInv(tokens, n, st) && ShapeInv(st) && tool != -1
    requires tokens[n].kind == Params(if start then ToolBlockStart(tool) else ToolBlockEnd(tool))
    ensures var r := OnBlock(st, tool, start, n);
      && (r.Success? ==> TokenInv(tokens, n + 1, r.value) && ShapeInv(r.value))
      && (r.Failure? ==> ErrorAt(tokens, n + 1, r.error))
  {
    BlockTokens(tokens, n, st, tool, start);
    var r := OnBlock(st, tool, start, n);
    if r.Success? {
      assert r.value.layers == st.layers && |r.value.changes| == |st.changes|;
    }
  }

  // ---------------------------------------------------------------------
  // Which labels become block markers and layer starts

  /** Tool-selecting TOOLCHANGE tokens only accumulate. */
  lemma {:induction false} ChangeTokensMono(tokens: seq<Token>, a: nat, b: nat)
    requires a <= b <= |tokens|
    ensures |ChangeTokens(tokens, a)| <= |ChangeTokens(tokens, b)|
    decreases b - a
  {
    if a < b {
      ChangeTokensMono(tokens, a, b - 1);
    }
  }

  /** No block label was read while a change not yet made was current. */
  lemma {:induction false} LastBlockFresh(tokens: seq<Token>, n: nat, j: nat, start: bool)
    requires n <= |tokens| && |ChangeTokens(tokens, n)| <= j
    ensures LastBlock(tokens, n, j, start) == None
    decreases n
  {
    if n > 0 {
      ChangeTokensMono(tokens, n - 1, n);
      LastBlockFresh(tokens, n - 1, j, start);
    }
  }

  /** Each token's handler records the block and layer-start labels the
      source records. */
  lemma {:induction false} StepMarks(c: Config, tokens: seq<Token>, n: nat, st: ScanState)
    requires n < |tokens| && Consecutive(tokens) && Inv(tokens, n, st)
    ensures |st.layers| > 0 && LayerRefsValid(Last(st.layers), |st.changes|)
    ensures var r := Step(c, st, tokens[n], n);
      r.Success? ==> MarksInv(tokens, n + 1, r.value)
  {
    assert LayerRefsValid(st.layers[|st.layers| - 1], |st.changes|);
    assert |ChangeTokens(tokens, n)| == |st.changes|;
    var t := tokens[n];
    if IsAfterLayerChange(t) {
      StepAfterMarks(c, tokens, n, st);
    } else if IsBeforeLayerChange(t) {
      StepBeforeMarks(c, tokens, n, st);
    } else if t.kind.ToolChangeCmd? && t.kind.nextTool != -1 {
      StepToolChangeMarks(c, tokens, n, st);
    } else if IsBlockMarker(t) && BlockTool(t) != -1 {
      StepBlockMarks(c, tokens, n, st);
    } else {
      assert Step(c, st, tokens[n], n) == Success(st);
      MarksWiden(tokens, n, st);
    }
  }

  lemma {:induction false} StepAfterMarks(c: Config, tokens: seq<Token>, n: nat, st: ScanState)
    requires n < |tokens| && Consecutive(tokens) && Inv(tokens, n, st)
    requires |st.layers| > 0 && LayerRefsValid(Last(st.layers), |st.changes|)
    requires IsAfterLayerChange(tokens[n])
    ensures var r := Step(c, st, tokens[n], n);
      r.Success? ==> MarksInv(tokens, n + 1, r.value)
  {
    var k, z := tokens[n].kind.tag.layer, tokens[n].kind.tag.z;
    assert Step(c, st, tokens[n], n) == Success(OnAfter(st, k, z, n));
    AfterTokens(tokens, n, st, k, z);
    AfterMarks(tokens, n, st, k, z);
  }

  lemma {:induction false} StepBeforeMarks(c: Config, tokens: seq<Token>, n: nat, st: ScanState)
    requires n < |tokens| && MarksInv(tokens, n, st)
    requires |st.layers| > 0 && LayerRefsValid(Last(st.layers), |st.changes|)
    requires IsBeforeLayerChange(tokens[n])
    ensures var r := Step(c, st, tokens[n], n);
      r.Success? ==> MarksInv(tokens, n + 1, r.value)
  {
    assert Step(c, st, tokens[n], n) == OnBefore(c, st, n);
    MarksWiden(tokens, n, st);
    StartsSetLast(tokens, n + 1, st.layers, Last(st.layers).(end := Some(n)));
  }

  lemma {:induction false} StepToolChangeMarks(c: Config, tokens: seq<Token>, n: nat, st: ScanState)
    requires n < |tokens| && MarksInv(tokens, n, st) && |ChangeTokens(tokens, n)| == |st.changes|
    requires |st.layers| > 0 && LayerRefsValid(Last(st.layers), |st.changes|)
    requires tokens[n].kind.ToolChangeCmd? && tokens[n].kind.nextTool != -1
    ensures var r := Step(c, st, tokens[n], n);
      r.Success? ==> MarksInv(tokens, n + 1, r.value)
  {
    var tool := tokens[n].kind.nextTool;
    assert Step(c, st, tokens[n], n) == Success(OnToolChange(st, tool, n));
    ToolChangeMarks(tokens, n, st, tool);
  }

  lemma {:induction false} StepBlockMarks(c: Config, tokens: seq<Token>, n: nat, st: ScanState)
    requires n < |tokens| && MarksInv(tokens, n, st) && |ChangeTokens(tokens, n)| == |st.changes|
    requires |st.layers| > 0 && LayerRefsValid(Last(st.layers), |st.changes|)
    requires IsBlockMarker(tokens[n]) && BlockTool(tokens[n]) != -1
    ensures var r := Step(c, st, tokens[n], n);
      r.Success? ==> MarksInv(tokens, n + 1, r.value)
  {
    var tool := BlockTool(tokens[n]);
    var start := tokens[n].kind.tag.ToolBlockStart?;
    assert Step(c, st, tokens[n], n) == OnBlock(st, tool, start, n);
    BlockMarks(tokens, n, st, tool, start);
  }

  /** A token that is neither an AFTER_LAYER_CHANGE label nor a block label
      naming a tool moves no recorded label. */
  lemma {:induction false} MarksWiden(tokens: seq<Token>, n: nat, st: ScanState)
    requires n < |tokens| && MarksInv(tokens, n, st)
    requires !IsAfterLayerChange(tokens[n]) && !IsBlockLabel(tokens[n], true) && !IsBlockLabel(tokens[n], false)
    ensures MarksInv(tokens, n + 1, st)
  {
    BlocksKeep(tokens, n, st.changes);
    forall i | 0 <= i < |st.layers| ensures st.layers[i].start == LastAfter(tokens, n + 1, i) {
    }
  }

  /** Replacing the last layer by one with the same start keeps every start. */
  lemma {:induction false} StartsSetLast(tokens: seq<Token>, n: nat, ls: seq<Layer>, l: Layer)
    requires n <= |tokens| && |ls| > 0 && StartsPlaced(tokens, n, ls) && l.start == Last(ls).start
    ensures StartsPlaced(tokens, n, SetLast(ls, l))
  {
    var rs := SetLast(ls, l);
    forall i | 0 <= i < |rs| ensures rs[i].start == LastAfter(tokens, n, i) {
      if i < |ls| - 1 {
        assert rs[i] == rs[..|ls| - 1][i];
      }
    }
  }

  /** A new change starts with no block label: none was read after it. */
  lemma {:induction false} ToolChangeMarks(tokens: seq<Token>, n: nat, st: ScanState, tool: ToolId)
    requires n < |tokens| && MarksInv(tokens, n, st) && |st.layers| > 0
    requires |ChangeTokens(tokens, n)| == |st.changes|
    requires tokens[n].kind == ToolChangeCmd(tool) && tool != -1
    ensures MarksInv(tokens, n + 1, OnToolChange(st, tool, n))
  {
    var r := OnToolChange(st, tool, n);
    var l := Last(st.layers);
    MarksWiden(tokens, n, st);
    StartsSetLast(tokens, n + 1, st.layers, l.(changeSeq := l.changeSeq + [|st.changes|],
                                                toolsSeq := l.toolsSeq + [|st.changes|]));
    var m := |st.changes|;
    LastBlockFresh(tokens, n, m, true);
    LastBlockFresh(tokens, n, m, false);
    forall j | 0 <= j < |r.changes|
      ensures r.changes[j].blockStart == LastBlock(tokens, n + 1, j, true)
      ensures r.changes[j].blockEnd == LastBlock(tokens, n + 1, j, false)
    {
      if j < m {
        assert r.changes[j] == st.changes[j];
      }
    }
  }

  /** A block label of the current tool becomes the current change's
      marker of its kind; nothing else moves. */
  lemma {:induction false} BlockMarks(tokens: seq<Token>, n: nat, st: ScanState, tool: ToolId, start: bool)
    requires n < |tokens| && MarksInv(tokens, n, st) && tool != -1
    requires tokens[n].kind == Params(if start then ToolBlockStart(tool) else ToolBlockEnd(tool))
    requires |ChangeTokens(tokens, n)| == |st.changes|
    ensures var r := OnBlock(st, tool, start, n);
      r.Success? ==> MarksInv(tokens, n + 1, r.value)
  {
    var r := OnBlock(st, tool, start, n);
    if r.Success? {
      var ch := r.value.changes;
      var m := |st.changes|;
      assert IsBlockLabel(tokens[n], start) && !IsBlockLabel(tokens[n], !start);
      forall j | 0 <= j < m
        ensures ch[j].blockStart == LastBlock(tokens, n + 1, j, true)
        ensures ch[j].blockEnd == LastBlock(tokens, n + 1, j, false)
      {
        if j < m - 1 {
          assert ch[j] == st.changes[j];
        } else {
          assert ch[j] == Last(ch);
        }
      }
      forall i | 0 <= i < |st.layers| ensures st.layers[i].start == LastAfter(tokens, n + 1, i) {
      }
    }
  }

  /** AFTER_LAYER_CHANGE becomes the start of the layer it makes current. */
  lemma {:induction false} AfterMarks(tokens: seq<Token>, n: nat, st: ScanState, k: int, z: real)
    requires n < |tokens| && MarksInv(tokens, n, st) && |st.layers| == 1 + NewLayers(tokens, n)
    requires tokens[n].kind == Params(AfterLayerChange(k, z))
    requires k == 0 ==> |st.layers| == 1
    ensures MarksInv(tokens, n + 1, OnAfter(st, k, z, n))
  {
    var r := OnAfter(st, k, z, n);
    BlocksKeep(tokens, n, st.changes);
    if k != 0 {
      assert r.layers == st.layers + [Last(r.layers)];
      StartsOpened(tokens, n, st.layers, Last(r.layers));
    } else {
      assert r.layers == [Last(r.layers)];
      StartsRestarted(tokens, n, Last(r.layers));
    }
  }

  /** A token that is no block label naming a tool moves no block marker. */
  lemma {:induction false} BlocksKeep(tokens: seq<Token>, n: nat, changes: seq<ToolChange>)
    requires n < |tokens| && BlocksPlaced(tokens, n, changes)
    requires !IsBlockLabel(tokens[n], true) && !IsBlockLabel(tokens[n], false)
    ensures BlocksPlaced(tokens, n + 1, changes)
  {
    forall j | 0 <= j < |changes|
      ensures changes[j].blockStart == LastBlock(tokens, n + 1, j, true)
      ensures changes[j].blockEnd == LastBlock(tokens, n + 1, j, false)
    {
    }
  }

  /** A layer-opening label starts the layer it appends. */
  lemma {:induction false} StartsOpened(tokens: seq<Token>, n: nat, ls: seq<Layer>, l: Layer)
    requires n < |tokens| && OpensLayer(tokens[n]) && |ls| == 1 + NewLayers(tokens, n)
    requires StartsPlaced(tokens, n, ls) && l.start == Some(n)
    ensures StartsPlaced(tokens, n + 1, ls + [l])
  {
    var rs := ls + [l];
    assert NewLayers(tokens, n + 1) == |ls|;
    forall i | 0 <= i < |rs| ensures rs[i].start == LastAfter(tokens, n + 1, i) {
      if i < |ls| {
        assert rs[i] == ls[i];
      }
    }
  }

  /** A layer-0 label read before any layer was opened restarts layer 0. */
  lemma {:induction false} StartsRestarted(tokens: seq<Token>, n: nat, l: Layer)
    requires n < |tokens| && IsAfterLayerChange(tokens[n]) && !OpensLayer(tokens[n])
    requires NewLayers(tokens, n) == 0 && l.start == Some(n)
    ensures StartsPlaced(tokens, n + 1, [l])
  {
    assert NewLayers(tokens, n + 1) == 0;
  }

  // ---------------------------------------------------------------------
  // Where the changes, the layer ends and layer 0's tools go

  /** Layer-opening labels only accumulate. */
  lemma {:induction false} NewLayersMono(tokens: seq<Token>, a: nat, b: nat)
    requires a <= b <= |tokens|
    ensures NewLayers(tokens, a) <= NewLayers(tokens, b)
    decreases b - a
  {
    if a < b {
      NewLayersMono(tokens, a, b - 1);
    }
  }

  /** Each token's handler keeps the placement facts. */
  lemma {:induction false} StepPlace(c: Config, tokens: seq<Token>, n: nat, st: ScanState)
    requires n < |tokens| && Consecutive(tokens) && Inv(tokens, n, st)
    ensures |st.layers| > 0 && LayerRefsValid(Last(st.layers), |st.changes|)
    ensures var r := Step(c, st, tokens[n], n);
      r.Success? ==> PlaceInv(tokens, n + 1, r.value)
  {
    assert LayerRefsValid(st.layers[|st.layers| - 1], |st.changes|);
    var t := tokens[n];
    if t.kind.Params? && t.kind.tag.AfterLayerChange? {
      StepAfterPlace(c, tokens, n, st);
    } else if IsBeforeLayerChange(t) {
      StepBeforePlace(c, tokens, n, st);
    } else if t.kind.ToolChangeCmd? && t.kind.nextTool != -1 {
      StepToolChangePlace(c, tokens, n, st);
    } else if IsBlockMarker(t) && BlockTool(t) != -1 {
      StepBlockPlace(c, tokens, n, st);
    } else {
      StepNeutralPlace(c, tokens, n, st);
    }
  }

  lemma {:induction false} StepAfterPlace(c: Config, tokens: seq<Token>, n: nat, st: ScanState)
    requires n < |tokens| && Consecutive(tokens) && Inv(tokens, n, st)
    requires |st.layers| > 0 && LayerRefsValid(Last(st.layers), |st.changes|)
    requires tokens[n].kind.Params? && tokens[n].kind.tag.AfterLayerChange?
    ensures var r := Step(c, st, tokens[n], n);
      r.Success? ==> PlaceInv(tokens, n + 1, r.value)
  {
    var k, z := tokens[n].kind.tag.layer, tokens[n].kind.tag.z;
    assert Step(c, st, tokens[n], n) == Success(OnAfter(st, k, z, n));
    AfterPlace(tokens, n, st, k, z);
  }

  lemma {:induction false} StepBeforePlace(c: Config, tokens: seq<Token>, n: nat, st: ScanState)
    requires n < |tokens| && Inv(tokens, n, st)
    requires |st.layers| > 0 && LayerRefsValid(Last(st.layers), |st.changes|)
    requires IsBeforeLayerChange(tokens[n])
    ensures var r := Step(c, st, tokens[n], n);
      r.Success? ==> PlaceInv(tokens, n + 1, r.value)
  {
    assert Step(c, st, tokens[n], n) == OnBefore(c, st, n);
    BeforePlace(tokens, n, st);
  }

  lemma {:induction false} StepToolChangePlace(c: Config, tokens: seq<Token>, n: nat, st: ScanState)
    requires n < |tokens| && Inv(tokens, n, st)
    requires |st.layers| > 0 && LayerRefsValid(Last(st.layers), |st.changes|)
    requires tokens[n].kind.ToolChangeCmd? && tokens[n].kind.nextTool != -1
    ensures var r := Step(c, st, tokens[n], n);
      r.Success? ==> PlaceInv(tokens, n + 1, r.value)
  {
    var tool := tokens[n].kind.nextTool;
    assert Step(c, st, tokens[n], n) == Success(OnToolChange(st, tool, n));
    ToolChangePlace(tokens, n, st, tool);
  }

  lemma {:induction false} StepBlockPlace(c: Config, tokens: seq<Token>, n: nat, st: ScanState)
    requires n < |tokens| && PlaceInv(tokens, n, st)
    requires |st.layers| > 0 && LayerRefsValid(Last(st.layers), |st.changes|)
    requires IsBlockMarker(tokens[n]) && BlockTool(tokens[n]) != -1
    ensures var r := Step(c, st, tokens[n], n);
      r.Success? ==> PlaceInv(tokens, n + 1, r.value)
  {
    var tool := BlockTool(tokens[n]);
    var start := tokens[n].kind.tag.ToolBlockStart?;
    assert Step(c, st, tokens[n], n) == OnBlock(st, tool, start, n);
    PlaceWiden(tokens, n, st.layers, st.changes);
    BlockPlace(tokens, n + 1, st, tool, start, n);
  }

  lemma {:induction false} StepNeutralPlace(c: Config, tokens: seq<Token>, n: nat, st: ScanState)
    requires n < |tokens| && PlaceInv(tokens, n, st)
    requires |st.layers| > 0 && LayerRefsValid(Last(st.layers), |st.changes|)
    requires !(tokens[n].kind.Params? && tokens[n].kind.tag.AfterLayerChange?)
    requires !IsBeforeLayerChange(tokens[n])
    requires !(tokens[n].kind.ToolChangeCmd? && tokens[n].kind.nextTool != -1)
    requires !(IsBlockMarker(tokens[n]) && BlockTool(tokens[n]) != -1)
    ensures var r := Step(c, st, tokens[n], n);
      r.Success? ==> PlaceInv(tokens, n + 1, r.value)
  {
    assert Step(c, st, tokens[n], n) == Success(st);
    PlaceWiden(tokens, n, st.layers, st.changes);
  }

  /** A token that is no BEFORE_LAYER_CHANGE label moves no layer end. */
  lemma {:induction false} PlaceWiden(tokens: seq<Token>, n: nat, ls: seq<Layer>, changes: seq<ToolChange>)
    requires n < |tokens| && !IsBeforeLayerChange(tokens[n])
    requires PlaceInv(tokens, n, ScanState(ls, changes))
    ensures PlaceInv(tokens, n + 1, ScanState(ls, changes))
  {
    forall i | 0 <= i < |ls| ensures ls[i].end == LastBefore(tokens, n + 1, i) {
      assert ls[i].end == LastBefore(tokens, n, i);
    }
  }

  /** A block label only records a marker on the current change. */
  lemma {:induction false} BlockPlace(tokens: seq<Token>, n: nat, st: ScanState, tool: ToolId, start: bool, i: nat)
    requires n <= |tokens| && PlaceInv(tokens, n, st)
    ensures var r := OnBlock(st, tool, start, i);
      r.Success? ==> PlaceInv(tokens, n, r.value)
  {
    var r := OnBlock(st, tool, start, i);
    if r.Success? {
      var ch := r.value.changes;
      forall j | 0 <= j < |ch| ensures ch[j].source == st.changes[j].source {
        if j == |ch| - 1 {
          assert ch[j] == Last(ch);
        }
      }
    }
  }

  /** AFTER_LAYER_CHANGE opens an empty layer no change and no end belongs
      to yet, or restarts layer 0 with the current tool and no later
      change. */
  lemma {:induction false} AfterPlace(tokens: seq<Token>, n: nat, st: ScanState, k: int, z: real)
    requires n < |tokens| && Consecutive(tokens) && Inv(tokens, n, st)
    requires tokens[n].kind == Params(AfterLayerChange(k, z))
    ensures PlaceInv(tokens, n + 1, OnAfter(st, k, z, n))
  {
    AfterTokens(tokens, n, st, k, z);
    PlaceWiden(tokens, n, st.layers, st.changes);
    var r := OnAfter(st, k, z, n);
    var m := |st.layers|;
    if k != 0 {
      OpenedPlace(tokens, n, st, r.layers);
    } else {
      assert r.layers == [Last(r.layers)];
      assert Flatten(st.layers) == Flatten([]) + Last(st.layers).changeSeq;
      assert st.layers[0] == Last(st.layers);
      assert |ChangeTokens(tokens, n)| == |st.changes|;
    }
  }

  /** The layer opened at token n holds nothing read before it. */
  lemma {:induction false} OpenedPlace(tokens: seq<Token>, n: nat, st: ScanState, rs: seq<Layer>)
    requires n < |tokens| && OpensLayer(tokens[n]) && !IsBeforeLayerChange(tokens[n])
    requires |st.layers| == 1 + NewLayers(tokens, n)
    requires PlaceInv(tokens, n + 1, st)
    requires |rs| == |st.layers| + 1 && rs[..|st.layers|] == st.layers
    requires Last(rs).changeSeq == [] && Last(rs).end == None
    ensures PlaceInv(tokens, n + 1, ScanState(rs, st.changes))
  {
    var m := |st.layers|;
    assert rs[0] == st.layers[0];
    forall i, j | 0 <= i < |rs| && 0 <= j < |st.changes|
      ensures j in rs[i].changeSeq <==> NewLayers(tokens, st.changes[j].source) == i
    {
      if i < m {
        assert rs[i] == st.layers[i];
      } else {
        NewLayersMono(tokens, st.changes[j].source, n);
      }
    }
    forall i | 0 <= i < |rs| ensures rs[i].end == LastBefore(tokens, n + 1, i) {
      if i < m {
        assert rs[i] == st.layers[i];
      } else {
        var b := LastBefore(tokens, n + 1, i);
        if b.Some? {
          NewLayersMono(tokens, b.value, n);
        }
      }
    }
  }

  /** BEFORE_LAYER_CHANGE ends the current layer, the one counted by the
      layer-opening labels so far. */
  lemma {:induction false} BeforePlace(tokens: seq<Token>, n: nat, st: ScanState)
    requires n < |tokens| && IsBeforeLayerChange(tokens[n])
    requires TokenInv(tokens, n, st) && PlaceInv(tokens, n, st)
    ensures PlaceInv(tokens, n + 1, ScanState(SetLast(st.layers, Last(st.layers).(end := Some(n))), st.changes))
  {
    var ls := SetLast(st.layers, Last(st.layers).(end := Some(n)));
    var m := |ls|;
    forall i | 0 <= i < m
      ensures ls[i].changeSeq == st.layers[i].changeSeq && ls[i].toolsSeq == st.layers[i].toolsSeq
      ensures ls[i].start == st.layers[i].start
      ensures ls[i].end == LastBefore(tokens, n + 1, i)
    {
      if i < m - 1 {
        assert ls[i] == ls[..m - 1][i] == st.layers[..m - 1][i] == st.layers[i];
        assert st.layers[i].end == LastBefore(tokens, n, i);
      }
    }
    assert ChangesPlaced(tokens, n + 1, ls, st.changes);
  }

  /** A tool-selecting TOOLCHANGE joins the current layer, the one counted
      by the layer-opening labels so far. */
  lemma {:induction false} ToolChangePlace(tokens: seq<Token>, n: nat, st: ScanState, tool: ToolId)
    requires n < |tokens| && TokenInv(tokens, n, st) && ShapeInv(st) && PlaceInv(tokens, n, st)
    requires tokens[n].kind == ToolChangeCmd(tool) && tool != -1
    ensures PlaceInv(tokens, n + 1, OnToolChange(st, tool, n))
  {
    var r := OnToolChange(st, tool, n);
    var l := Last(st.layers);
    var l' := l.(changeSeq := l.changeSeq + [|st.changes|], toolsSeq := l.toolsSeq + [|st.changes|]);
    PlaceWiden(tokens, n, st.layers, st.changes);
    JoinChanges(tokens, n, st.layers, st.changes, tool);
    EndsSetLast(tokens, n + 1, st.layers, l');
    JoinFirst(tokens, n, st.layers, |st.changes|);
  }

  /** The new change is in the current layer and in no other. */
  lemma {:induction false} JoinChanges(tokens: seq<Token>, n: nat, ls: seq<Layer>, changes: seq<ToolChange>,
                                       tool: ToolId)
    requires n < |tokens| && |ls| == 1 + NewLayers(tokens, n) && RefsValid(changes, ls)
    requires ChangesPlaced(tokens, n + 1, ls, changes)
    ensures var c := |changes|;
      var l := Last(ls);
      ChangesPlaced(tokens, n + 1, SetLast(ls, l.(changeSeq := l.changeSeq + [c], toolsSeq := l.toolsSeq + [c])),
                    changes + [ToolChange(tool, n, None, None)])
  {
    var c := |changes|;
    var m := |ls|;
    var l := Last(ls);
    var rs := SetLast(ls, l.(changeSeq := l.changeSeq + [c], toolsSeq := l.toolsSeq + [c]));
    var ch := changes + [ToolChange(tool, n, None, None)];
    forall i | 0 <= i < m - 1 ensures rs[i] == ls[i] {
      assert rs[i] == rs[..m - 1][i];
    }
    forall j | 0 <= j < c + 1 ensures ch[j].source < n + 1 {
      if j < c {
        assert ch[j] == changes[j];
      }
    }
    forall i, j | 0 <= i < m && 0 <= j < c + 1
      ensures j in rs[i].changeSeq <==> NewLayers(tokens, ch[j].source) == i
    {
      assert LayerRefsValid(ls[i], c);
      if j < c {
        assert ch[j] == changes[j];
      }
    }
  }

  /** Replacing the last layer by one with the same end keeps every end. */
  lemma {:induction false} EndsSetLast(tokens: seq<Token>, n: nat, ls: seq<Layer>, l: Layer)
    requires n <= |tokens| && |ls| > 0 && EndsPlaced(tokens, n, ls) && l.end == Last(ls).end
    ensures EndsPlaced(tokens, n, SetLast(ls, l))
  {
    var rs := SetLast(ls, l);
    forall i | 0 <= i < |rs| ensures rs[i].end == LastBefore(tokens, n, i) {
      if i < |ls| - 1 {
        assert rs[i] == rs[..|ls| - 1][i];
      }
    }
  }

  /** A change joining layer 0 extends its tool sequence too. */
  lemma {:induction false} JoinFirst(tokens: seq<Token>, n: nat, ls: seq<Layer>, c: nat)
    requires n < |tokens| && FirstTools(tokens, n + 1, ls)
    requires ls[0].start.Some? ==> ls[0].start.value < n
    ensures var l := Last(ls);
      FirstTools(tokens, n + 1, SetLast(ls, l.(changeSeq := l.changeSeq + [c], toolsSeq := l.toolsSeq + [c])))
  {
    var l := Last(ls);
    var rs := SetLast(ls, l.(changeSeq := l.changeSeq + [c], toolsSeq := l.toolsSeq + [c]));
    if |ls| == 1 {
      assert rs[0] == Last(rs) && ls[0] == l;
      if l.start.Some? {
        var q := |ChangeTokens(tokens, l.start.value)|;
        assert (l.changeSeq + [c])[q..] == l.changeSeq[q..] + [c];
      }
    } else {
      assert rs[0] == rs[..|ls| - 1][0];
    }
  }

  /** A layer-height error names the BEFORE_LAYER_CHANGE label at which the
      scan, having read every token before it, found the current layer
      higher than the largest layer height its tool set allows. */
  lemma TooHighAt(c: Config, tokens: seq<Token>, n: nat) returns (at: nat)
    requires n <= |tokens| && Consecutive(tokens)
    requires ScanPrefix(c, tokens, n).Failure? && ScanPrefix(c, tokens, n).error.LayerTooHigh?
    ensures at == ScanPrefix(c, tokens, n).error.at && at < n
    ensures TooHighWhen(c, tokens, at)
  {
    at := FirstFailure(c, tokens, n);
    TooHighStep(c, tokens, at);
  }

  /** A layer-height error of the whole analysis is a scan error, so it
      names a BEFORE_LAYER_CHANGE label where the layer was too high. */
  lemma AnalyzeTooHigh(c: Config, tokens: seq<Token>)
    requires PositiveNozzles(c) && Consecutive(tokens)
    ensures var r := AnalyzeGcode(c, tokens);
      r.Failure? && r.error.LayerTooHigh? ==> TooHighWhen(c, tokens, r.error.at)
  {
    var r := AnalyzeGcode(c, tokens);
    if r.Failure? && r.error.LayerTooHigh? {
      assert ScanPrefix(c, tokens, |tokens|).Failure?;
      var at := TooHighAt(c, tokens, |tokens|);
    }
  }

  /** A failed prefix scan failed at some step, with that step's error. */
  lemma {:induction false} FirstFailure(c: Config, tokens: seq<Token>, n: nat) returns (k: nat)
    requires n <= |tokens| && Consecutive(tokens) && ScanPrefix(c, tokens, n).Failure?
    ensures k < n && ScanPrefix(c, tokens, k).Success?
    ensures ScanPrefix(c, tokens, k + 1).Failure?
    ensures ScanPrefix(c, tokens, k + 1).error == ScanPrefix(c, tokens, n).error
    decreases n
  {
    var m := n - 1;
    if ScanPrefix(c, tokens, m).Failure? {
      FailureCarries(c, tokens, n);
      k := FirstFailure(c, tokens, m);
      assert ScanPrefix(c, tokens, k + 1).error == ScanPrefix(c, tokens, m).error;
    } else {
      k := m;
      assert k + 1 == n;
    }
  }

  /** Token `at` is a BEFORE_LAYER_CHANGE label, the scan of the tokens
      before it succeeds, and the layer it closes is higher than the
      maximum layer height of that layer's tool set. */
  predicate TooHighWhen(c: Config, tokens: seq<Token>, at: nat)
    requires Consecutive(tokens)
  {
    && at < |tokens| && IsBeforeLayerChange(tokens[at])
    && ScanPrefix(c, tokens, at).Success?
    && var st := ScanPrefix(c, tokens, at).value;
       && |st.layers| > 0 && LayerRefsValid(Last(st.layers), |st.changes|)
       && Last(st.layers).height > c.maxLayerHeight(ToolSet(st.changes, Last(st.layers).toolsSeq))
  }

  /** Token `at` is a BEFORE_LAYER_CHANGE label, the scan of the tokens
      before it succeeds, and the layer it closes is no higher than the
      maximum layer height of that layer's tool set. */
  predicate HeightWithin(c: Config, tokens: seq<Token>, at: nat)
    requires Consecutive(tokens)
  {
    && at < |tokens| && IsBeforeLayerChange(tokens[at])
    && ScanPrefix(c, tokens, at).Success?
    && var st := ScanPrefix(c, tokens, at).value;
       && |st.layers| > 0 && LayerRefsValid(Last(st.layers), |st.changes|)
       && Last(st.layers).height <= c.maxLayerHeight(ToolSet(st.changes, Last(st.layers).toolsSeq))
  }

  /** A prefix scan that succeeds passed the height check at every
      BEFORE_LAYER_CHANGE label it read. */
  lemma {:induction false} HeightsChecked(c: Config, tokens: seq<Token>, n: nat)
    requires n <= |tokens| && Consecutive(tokens) && ScanPrefix(c, tokens, n).Success?
    ensures forall at :: 0 <= at < n && IsBeforeLayerChange(tokens[at]) ==> HeightWithin(c, tokens, at)
    decreases n
  {
    if n > 0 {
      var m := n - 1;
      if ScanPrefix(c, tokens, m).Failure? {
        FailureCarries(c, tokens, n);
        assert false;
      }
      HeightsChecked(c, tokens, m);
      forall at | 0 <= at < n && IsBeforeLayerChange(tokens[at]) ensures HeightWithin(c, tokens, at) {
        if at == m {
          BeforeStepWithin(c, tokens, m);
        }
      }
    }
  }

  /** A BEFORE_LAYER_CHANGE step that succeeds found the height within
      the maximum. */
  lemma BeforeStepWithin(c: Config, tokens: seq<Token>, k: nat)
    requires k < |tokens| && Consecutive(tokens) && IsBeforeLayerChange(tokens[k])
    requires ScanPrefix(c, tokens, k).Success? && ScanPrefix(c, tokens, k + 1).Success?
    ensures HeightWithin(c, tokens, k)
  {
    var st := ScanPrefix(c, tokens, k).value;
    PrefixStep(c, tokens, k + 1);
    assert Step(c, st, tokens[k], k) == OnBefore(c, st, k);
  }

  /** A successful analysis passed the height check at every
      BEFORE_LAYER_CHANGE label of the input. */
  lemma AnalyzeHeightsWithin(c: Config, tokens: seq<Token>)
    requires PositiveNozzles(c) && Consecutive(tokens) && AnalyzeGcode(c, tokens).Success?
    ensures forall at :: 0 <= at < |tokens| && IsBeforeLayerChange(tokens[at]) ==> HeightWithin(c, tokens, at)
  {
    HeightsChecked(c, tokens, |tokens|);
  }

  /** A failed prefix scan stays failed with the same error. */
  lemma FailureCarries(c: Config, tokens: seq<Token>, n: nat)
    requires 0 < n <= |tokens| && Consecutive(tokens)
    requires ScanPrefix(c, tokens, n - 1).Failure?
    ensures ScanPrefix(c, tokens, n).Failure?
    ensures ScanPrefix(c, tokens, n).error == ScanPrefix(c, tokens, n - 1).error
  {
  }

  /** The step that reads token k fails on the height of the layer it
      closes. */
  lemma TooHighStep(c: Config, tokens: seq<Token>, k: nat)
    requires k < |tokens| && Consecutive(tokens)
    requires ScanPrefix(c, tokens, k).Success?
    requires ScanPrefix(c, tokens, k + 1).Failure? && ScanPrefix(c, tokens, k + 1).error.LayerTooHigh?
    ensures ScanPrefix(c, tokens, k + 1).error.at == k
    ensures TooHighWhen(c, tokens, k)
  {
    var st := ScanPrefix(c, tokens, k).value;
    PrefixStep(c, tokens, k + 1);
    StepTooHigh(c, st, tokens[k], k);
  }

  /** A prefix scan one token longer is one more step. */
  lemma PrefixStep(c: Config, tokens: seq<Token>, n: nat)
    requires 0 < n <= |tokens| && Consecutive(tokens)
    requires ScanPrefix(c, tokens, n - 1).Success?
    ensures var st := ScanPrefix(c, tokens, n - 1).value;
      && |st.layers| > 0 && LayerRefsValid(Last(st.layers), |st.changes|)
      && ScanPrefix(c, tokens, n) == Step(c, st, tokens[n - 1], n - 1)
  {
  }

  /** Only a BEFORE_LAYER_CHANGE label can make a step fail on the layer
      height, and only by the height check. */
  lemma StepTooHigh(c: Config, st: ScanState, t: Token, i: nat)
    requires |st.layers| > 0 && LayerRefsValid(Last(st.layers), |st.changes|)
    requires Step(c, st, t, i).Failure? && Step(c, st, t, i).error.LayerTooHigh?
    ensures IsBeforeLayerChange(t) && Step(c, st, t, i).error.at == i
    ensures Last(st.layers).height > c.maxLayerHeight(ToolSet(st.changes, Last(st.layers).toolsSeq))
  {
    match t.kind
    case Params(BeforeLayerChange(_, _)) =>
    case Params(ToolBlockStart(tid)) =>
      if tid != -1 {
        assert false;
      }
    case Params(ToolBlockEnd(tid)) =>
      if tid != -1 {
        assert false;
      }
    case _ =>
  }

  lemma ErrorWiden(tokens: seq<Token>, n: nat, e: Error)
    requires n < |tokens| && ErrorAt(tokens, n, e)
    ensures ErrorAt(tokens, n + 1, e)
  {
  }

  // ---------------------------------------------------------------------
  // The whole analysis

  /** analyze_gcode: the scan, then the tool status of every layer, then
      the ring radii for layer 0's tool order. */
  function AnalyzeGcode(c: Config, tokens: seq<Token>): (r: Result<PrimeTower, Error>)
    requires PositiveNozzles(c) && Consecutive(tokens)
    ensures r.Failure? ==> ErrorAt(tokens, |tokens|, r.error) || r.error == NoToolForInwardRings
    ensures r.Success? ==> Analyzed(c, tokens, r.value)
  {
    var st :- ScanPrefix(c, tokens, |tokens|);
    var layers := AnalyzeToolStatus(st.changes, st.layers);
    var radii :- GeneratePillarBands(c, Layer0Order(st.changes, layers[0]));
    var t := PrimeTower(layers, st.changes, radii);
    AnalyzedTower(c, tokens, st, t);
    Success(t)
  }

  /** What the analysis promises about the tower it builds from `tokens`:
      the scan's structure (`Scanned`), every layer carrying the tool
      statuses the status pass computes from the change lists, and the
      radius table generated for layer 0's tool order. */
  predicate Analyzed(c: Config, tokens: seq<Token>, t: PrimeTower)
    requires PositiveNozzles(c)
  {
    && Scanned(tokens, t)
    && AnalyzeToolStatus(t.changes, t.layers) == t.layers
    && GeneratePillarBands(c, Layer0Order(t.changes, t.layers[0])) == Success(t.radii)
  }

  /** The structure the scan gives a tower: one layer per layer-opening
      label plus the initial one, numbered in order; the change table is
      the tool-selecting TOOLCHANGE tokens with their block labels; every
      change belongs to exactly one layer, in order; all markers are tokens
      of the right kind; and every block label agrees with the tool
      selected before it; each change sits in the layer counted by the
      layer-opening labels before it, each layer ends at the last
      BEFORE_LAYER_CHANGE label read while it was current, and layer 0's
      tool sequence starts with the tool carried into its last
      AFTER_LAYER_CHANGE label; each change's block markers are the last
      TOOL_BLOCK_START and TOOL_BLOCK_END labels read while it was current,
      and each layer starts at the AFTER_LAYER_CHANGE label that made it
      current last. */
  predicate Scanned(tokens: seq<Token>, t: PrimeTower) {
    && WellFormed(t, |tokens|)
    && |t.layers| == 1 + NewLayers(tokens, |tokens|)
    && Numbered(t.layers)
    && ChangesMatch(tokens, |tokens|, t.changes)
    && Flatten(t.layers) == Range(0, |t.changes|)
    && LayersShaped(t.layers)
    && (forall i :: 0 <= i < |t.layers| ==> LayerMarkersOk(tokens, |tokens|, t.layers[i]))
    && BlocksConsistent(tokens, |tokens|)
    && ChangesPlaced(tokens, |tokens|, t.layers, t.changes)
    && EndsPlaced(tokens, |tokens|, t.layers)
    && FirstTools(tokens, |tokens|, t.layers)
    && BlocksPlaced(tokens, |tokens|, t.changes)
    && StartsPlaced(tokens, |tokens|, t.layers)
  }

  /** The status pass changes no field the scan invariant reads. */
  lemma {:induction false} ShapedSameFields(a: seq<Layer>, b: seq<Layer>)
    requires |a| == |b|
    requires forall i :: 0 <= i < |a| ==>
      a[i] == b[i].(active := a[i].active, idle := a[i].idle, disabled := a[i].disabled)
    requires LayersShaped(b)
    ensures LayersShaped(a)
    decreases |a|
  {
    var m := |a|;
    if m > 1 {
      ShapedSameFields(a[..m - 1], b[..m - 1]);
      FlattenSameChanges(a[..m - 1], b[..m - 1]);
    }
  }

  lemma AnalyzedTower(c: Config, tokens: seq<Token>, st: ScanState, t: PrimeTower)
    requires PositiveNozzles(c) && Inv(tokens, |tokens|, st)
    requires t.changes == st.changes && t.layers == AnalyzeToolStatus(st.changes, st.layers)
    requires GeneratePillarBands(c, Layer0Order(t.changes, t.layers[0])) == Success(t.radii)
    ensures Analyzed(c, tokens, t)
  {
    ScannedTower(tokens, st, t);
    AnalyzeIdempotent(st.changes, st.layers);
  }

  lemma ScannedTower(tokens: seq<Token>, st: ScanState, t: PrimeTower)
    requires Inv(tokens, |tokens|, st)
    requires t.changes == st.changes && t.layers == AnalyzeToolStatus(st.changes, st.layers)
    ensures Scanned(tokens, t)
  {
    var ls := t.layers;
    FlattenSameChanges(ls, st.layers);
    ShapedSameFields(ls, st.layers);
    StatusKeepsMarkers(tokens, |tokens|, ls, st.layers);
    StatusKeepsRefs(t.changes, ls, st.layers);
    MarkersOkWithin(tokens, |tokens|, t.changes, ls);
    StatusKeepsPlaces(tokens, |tokens|, t.changes, ls, st.layers);
  }

  /** The status pass keeps where the changes, the layer starts and the
      layer ends are. */
  lemma StatusKeepsPlaces(tokens: seq<Token>, n: nat, changes: seq<ToolChange>, a: seq<Layer>, b: seq<Layer>)
    requires n <= |tokens| && |a| == |b|
    requires forall i :: 0 <= i < |a| ==>
      a[i] == b[i].(active := a[i].active, idle := a[i].idle, disabled := a[i].disabled)
    requires PlaceInv(tokens, n, ScanState(b, changes))
    requires StartsPlaced(tokens, n, b)
    ensures ChangesPlaced(tokens, n, a, changes) && EndsPlaced(tokens, n, a) && FirstTools(tokens, n, a)
    ensures StartsPlaced(tokens, n, a)
  {
    forall i | 0 <= i < |a|
      ensures a[i].changeSeq == b[i].changeSeq && a[i].toolsSeq == b[i].toolsSeq
      ensures a[i].start == b[i].start && a[i].end == b[i].end
    {
    }
    assert a[0].changeSeq == b[0].changeSeq;
  }

  /** The status pass keeps each layer's number and markers. */
  lemma StatusKeepsMarkers(tokens: seq<Token>, n: nat, a: seq<Layer>, b: seq<Layer>)
    requires n <= |tokens| && |a| == |b|
    requires forall i :: 0 <= i < |a| ==>
      a[i] == b[i].(active := a[i].active, idle := a[i].idle, disabled := a[i].disabled)
    requires Numbered(b) && forall i :: 0 <= i < |b| ==> LayerMarkersOk(tokens, n, b[i])
    ensures Numbered(a) && forall i :: 0 <= i < |a| ==> LayerMarkersOk(tokens, n, a[i])
  {
    forall i | 0 <= i < |a| ensures a[i].num == i && LayerMarkersOk(tokens, n, a[i]) {
      assert LayerMarkersOk(tokens, n, b[i]);
      assert a[i].start == b[i].start && a[i].end == b[i].end;
      assert a[i].num == b[i].num && a[i].z == b[i].z;
    }
  }

  /** The status pass keeps each layer's references into the change table. */
  lemma StatusKeepsRefs(changes: seq<ToolChange>, a: seq<Layer>, b: seq<Layer>)
    requires |a| == |b|
    requires forall i :: 0 <= i < |a| ==>
      a[i] == b[i].(active := a[i].active, idle := a[i].idle, disabled := a[i].disabled)
    requires RefsValid(changes, b)
    ensures RefsValid(changes, a)
  {
    forall i | 0 <= i < |a| ensures LayerRefsValid(a[i], |changes|) {
      assert LayerRefsValid(b[i], |changes|);
      assert a[i].changeSeq == b[i].changeSeq && a[i].toolsSeq == b[i].toolsSeq;
    }
  }

  /** Markers that are tokens of the right kind lie within the token list. */
  lemma MarkersOkWithin(tokens: seq<Token>, n: nat, changes: seq<ToolChange>, ls: seq<Layer>)
    requires n <= |tokens| && ChangesMatch(tokens, n, changes)
    requires forall i :: 0 <= i < |ls| ==> LayerMarkersOk(tokens, n, ls[i])
    ensures forall i :: 0 <= i < |ls| ==> MarkersWithin(changes, ls[i], n)
  {
    forall i | 0 <= i < |ls| ensures MarkersWithin(changes, ls[i], n) {
      assert LayerMarkersOk(tokens, n, ls[i]);
      forall j | 0 <= j < |changes| ensures ChangeMarkersOk(tokens, n, changes[j]) {
      }
    }
  }
}

=== FILE: scenarios.dfy ===
/** Concrete runs of the model on small inputs. */
module Scenarios {
  import opened Wrappers
  import opened GCode
  import opened Conf
  import opened Tower
  import opened Optimizer
  import opened Bands
  import opened Transitions

  /** A configuration whose height window is 0.1 .. 0.5 for every tool set. */
  const FlatWindow := Config(
    1800.0, 6000.0, 5.0, 1, 1, 2, 20,
    (t: ToolId) => 0.4,
    (s: set<ToolId>) => 0.1,
    (s: set<ToolId>) => 0.5,
    (r: real, k: nat) => Point(r, 0.0),
    (p: Point, q: Point) => 0.0,
    (t: ToolId, h: real, d: real) => 0.0)

  /** T0 prints the first layer; in the second, T1 takes over. */
  const TwoChanges := [ToolChange(0, 3, Some(4), Some(9)), ToolChange(1, 12, Some(13), Some(20))]

  const FirstLayer := Layer(0, 0.2, 0.2, Some(1), Some(10), [0], [0], {0}, {1}, {})
  const SecondLayer := Layer(1, 0.4, 0.2, Some(11), Some(21), [1], [0, 1], {0, 1}, {}, {})

  const TwoLayers := PrimeTower([FirstLayer, SecondLayer], TwoChanges, Radii(map[], map[]))

  lemma TwoLayersFold(extend: bool)
    ensures var f := FoldLayers(FlatWindow, TwoChanges, TwoLayers.layers, extend);
            |f.layers| == 1 && f.layers[0].changeSeq == [0, 1]
            && f.layers[0].toolsSeq == (if extend then [0, 1] else [0])
  {
    var ls := TwoLayers.layers;
    ChangeIdsSingle(TwoChanges, 0);
    ChangeIdsSingle(TwoChanges, 1);
    assert |SecondLayer.active| == 2;
    assert !Terminal(ls[1]);
    assert CanFold(FlatWindow, TwoChanges, ls[0], ls[1]);
    var x := Absorb(TwoChanges, ls[0], ls[1], extend);
    assert FoldLayers(FlatWindow, TwoChanges, ls, extend)
        == Fold(FlatWindow, TwoChanges, ls, SetLast([ls[0]], x), [0], 2, extend)
        == Folded(SetLast([ls[0]], x), [0], 2);
    assert SetLast([ls[0]], x) == [x];
  }

  /** The second layer's change to T1 is folded into the first layer, but
      as written the tool sequence of the folded layer still holds only T0:
      injection prints no band for T1, although both input layers had a band
      for every change. */
  lemma FoldedChangeLosesItsBand()
    ensures ChangesBanded(FirstLayer) && ChangesBanded(SecondLayer)
    ensures var r := OptimizeLayersAsWritten(FlatWindow, TwoLayers);
            |r.layers| == 1 && r.layers[0].changeSeq == [0, 1] && r.layers[0].toolsSeq == [0]
            && !ChangesBanded(r.layers[0])
  {
    TwoLayersFold(false);
  }

  /** With the tool sequence extended, the folded layer keeps a band for
      both changes. */
  lemma FoldedChangeKeepsItsBand()
    ensures var r := OptimizeLayers(FlatWindow, TwoLayers);
            |r.layers| == 1 && r.layers[0].toolsSeq == [0, 1] && ChangesBanded(r.layers[0])
  {
    TwoLayersFold(true);
  }

  /** A 20 mm tower with 0.4 mm nozzles, brims and bands two rings wide. */
  const Tower20 := FlatWindow.(towerR := 20.0, brimWidth := 2, bandWidth := 2)

  /** The first tool's brim and band rings sit half a nozzle and one and a
      half nozzles out of the tower radius; the second tool's band rings
      continue outward. */
  lemma BandRadiiOfTwoTools()
    ensures var r := GeneratePillarBands(Tower20, [0, 1]);
            && r.Success?
            && r.value.brim[0] == [20.2, 20.6]
            && r.value.band[0] == [20.2, 20.6] && r.value.band[1] == [21.0, 21.4]
  {
    var ladders := Ladders(Tower20, [0, 1], 20.0, 2);
    LaddersStep(Tower20, [0, 1], 20.0, 2);
    LaddersStep(Tower20, [1], 20.8, 2);
    assert [0, 1][1..] == [1] && [1][1..] == [];
    assert Ladder(20.0, 0.4, 2) == [20.2] + Ladder(20.4, 0.4, 1) == [20.2, 20.6];
    assert Ladder(20.8, 0.4, 2) == [21.0] + Ladder(21.2, 0.4, 1) == [21.0, 21.4];
    assert ladders == [[20.2, 20.6], [21.0, 21.4]];
    assert [0, 1][..1] == [0] && ladders[..1] == [[20.2, 20.6]];
    assert Assign([0, 1], ladders) == Assign([0], [[20.2, 20.6]])[1 := [21.0, 21.4]];
  }

  const AtTowerHeight := Layer(3, 0.6, 0.2, None, None, [], [], {}, {}, {})

  /** From a retracted state already at the tower layer's height, move-in
      adds only the travel feed before the band's first move and the
      detraction after it. */
  lemma MoveInFromRetracted()
    ensures var s := MachineState(Some(1.0), Some(2.0), Some(0.6), 1200.0, Retracted);
            var band := [Travel(Point(20.2, 0.0)), Extrude(Point(0.0, 20.2), 0.1)];
            MoveIn(FlatWindow, AtTowerHeight, s, band)
              == Success([Feed(6000.0), Travel(Point(20.2, 0.0)), Detract, Extrude(Point(0.0, 20.2), 0.1)])
  {
    var s := MachineState(Some(1.0), Some(2.0), Some(0.6), 1200.0, Retracted);
    var band := [Travel(Point(20.2, 0.0)), Extrude(Point(0.0, 20.2), 0.1)];
    var code := [Feed(6000.0)] + [band[0]] + [Detract] + band[1..];
    assert MoveIn(FlatWindow, AtTowerHeight, s, band) == Success(code) by {
      assert MoveInBefore(FlatWindow, AtTowerHeight, s) == [Feed(6000.0)];
      assert MoveInAfter(AtTowerHeight, s) == [Detract];
    }
    assert code == [Feed(6000.0), Travel(Point(20.2, 0.0)), Detract, Extrude(Point(0.0, 20.2), 0.1)] by {
      assert band[1..] == [Extrude(Point(0.0, 20.2), 0.1)];
    }
  }

  /** Before a layer change, move-out only retracts again, and only if the
      marker was retracted. */
  lemma MoveOutBeforeLayerChange()
    ensures var s := MachineState(Some(1.0), Some(2.0), Some(0.8), 1200.0, Retracted);
            var tok := Token(Params(BeforeLayerChange(4, 0.8)), s);
            MoveOut(FlatWindow, AtTowerHeight, 7, tok, [Detract]) == Success([Detract, Retract])
  {
    var s := MachineState(Some(1.0), Some(2.0), Some(0.8), 1200.0, Retracted);
    var tok := Token(Params(BeforeLayerChange(4, 0.8)), s);
    assert IsBeforeLayerChange(tok) && tok.post.z.Some?;
    assert OptInstr(true, Retract) == [Retract];
    assert MoveOut(FlatWindow, AtTowerHeight, 7, tok, [Detract]) == Success([Detract] + [Retract]);
    assert [Detract] + [Retract] == [Detract, Retract];
  }

  /** Elsewhere move-out retracts, travels back at the marker's height
      (raised first, since the marker is above the tower layer), restores the
      feed rate and detracts the filament the marker had primed. */
  lemma MoveOutReturnsHigher()
    ensures var s := MachineState(Some(1.0), Some(2.0), Some(0.8), 1200.0, Unretracted);
            var tok := Token(Command, s);
            MoveOut(FlatWindow, AtTowerHeight, 7, tok, [])
              == Success([Retract, Feed(6000.0), MoveZ(0.8), Travel(Point(1.0, 2.0)), Feed(1200.0), Detract])
  {
    var s := MachineState(Some(1.0), Some(2.0), Some(0.8), 1200.0, Unretracted);
    assert Reposition(AtTowerHeight, 0.8, Point(1.0, 2.0)) == [MoveZ(0.8), Travel(Point(1.0, 2.0))];
    assert ReturnMiddle(FlatWindow, AtTowerHeight, s)
        == [Feed(6000.0), MoveZ(0.8), Travel(Point(1.0, 2.0)), Feed(1200.0)];
    assert ReturnMoves(FlatWindow, AtTowerHeight, s)
        == [Retract, Feed(6000.0), MoveZ(0.8), Travel(Point(1.0, 2.0)), Feed(1200.0), Detract];
  }
}

=== FILE: shapes.dfy ===
/** Tower geometry as instructions (PrimeTowerLayerInfo.gcode_print_shape,
    gcode_pillar_band and gcode_pillar_idle_tool_bands). */
module Shapes {
  import opened Wrappers
  import opened GCode
  import opened Conf
  import opened Tower
  import opened Geometry
  import opened Bands

  /** Extruding moves along the polygon `vs`, one per edge after the first
      vertex; each edge's extrusion is computed from the tool, the layer
      height and the edge length. */
  function Edges(c: Config, tool: ToolId, height: real, vs: seq<Point>): (code: seq<Instr>)
    requires |vs| > 0
    ensures |code| == |vs| - 1
    ensures forall k :: 0 <= k < |code| ==>
              code[k] == Extrude(vs[k + 1], c.extrusion(tool, height, c.distance(vs[k], vs[k + 1])))
  {
    seq(|vs| - 1, k requires 0 <= k < |vs| - 1 => Edge(c, tool, height, vs[k], vs[k + 1]))
  }

  /** The extruding move from `a` to `b`. */
  function Edge(c: Config, tool: ToolId, height: real, a: Point, b: Point): Instr {
    Extrude(b, c.extrusion(tool, height, c.distance(a, b)))
  }

  /** A sequence of moves visits exactly the targets of its moves. */
  lemma {:induction false} PathOfMoves(code: seq<Instr>)
    requires forall k :: 0 <= k < |code| ==> code[k].Travel? || code[k].Extrude?
    ensures |Path(code)| == |code|
    ensures forall k :: 0 <= k < |code| ==> Path(code)[k] == code[k].to
    decreases |code|
  {
    if |code| > 0 {
      PathOfMoves(code[1..]);
    }
  }

  /** The instructions of a shape: travel to the first vertex, set the
      print speed, extrude along every edge and, if `closed`, back to the
      first vertex. */
  function ShapeCode(c: Config, tool: ToolId, height: real, vs: seq<Point>, closed: bool): seq<Instr>
    requires |vs| > 0
  {
    [Travel(vs[0]), Feed(c.printSpeed)] + (Edges(c, tool, height, vs) + Closing(c, tool, height, vs, closed))
  }

  function Closing(c: Config, tool: ToolId, height: real, vs: seq<Point>, closed: bool): (code: seq<Instr>)
    requires |vs| > 0
    ensures |code| == if closed then 1 else 0
  {
    if closed then [Edge(c, tool, height, Last(vs), vs[0])] else []
  }

  lemma TailPath(c: Config, tool: ToolId, height: real, vs: seq<Point>, closed: bool)
    requires |vs| > 0
    ensures Path(Edges(c, tool, height, vs) + Closing(c, tool, height, vs, closed))
            == vs[1..] + (if closed then [vs[0]] else [])
  {
    var edges := Edges(c, tool, height, vs);
    var closing := Closing(c, tool, height, vs, closed);
    PathOfMoves(edges);
    PathOfMoves(closing);
    PathAppend(edges, closing);
  }

  /** A shape is plain, sets the print speed right after the first travel,
      and its path is its vertex list, closed if asked. */
  lemma ShapeFacts(c: Config, tool: ToolId, height: real, vs: seq<Point>, closed: bool)
    requires |vs| > 0
    ensures var code := ShapeCode(c, tool, height, vs, closed);
            && Plain(code)
            && |code| == |vs| + (if closed then 2 else 1)
            && code[1] == Feed(c.printSpeed)
            && Path(code) == vs + (if closed then [vs[0]] else [])
  {
    var tail := Edges(c, tool, height, vs) + Closing(c, tool, height, vs, closed);
    var head := [Travel(vs[0]), Feed(c.printSpeed)];
    var cl := if closed then [vs[0]] else [];
    PathAppend(head, tail);
    HeadPath(vs[0], c.printSpeed);
    TailPath(c, tool, height, vs, closed);
    assert ShapeCode(c, tool, height, vs, closed) == head + tail;
    assert Path(head + tail) == [vs[0]] + (vs[1..] + cl);
    assert [vs[0]] + (vs[1..] + cl) == vs + cl;
  }

  lemma HeadPath(p: Point, f: real)
    ensures Path([Travel(p), Feed(f)]) == [p]
  {
    var head := [Travel(p), Feed(f)];
    assert head[1..] == [Feed(f)];
    assert head[1..][1..] == [];
  }

  /** Every extruding move of `code`, run from a nozzle at `pos` (`None`:
      unknown), follows a known position and extrudes the amount computed
      for `tool`, the layer height `height` and the length of that move. */
  predicate MeteredFrom(c: Config, tool: ToolId, height: real, pos: Option<Point>, code: seq<Instr>)
    decreases |code|
  {
    if |code| == 0 then true
    else match code[0]
      case Extrude(p, e) =>
        && pos.Some? && e == c.extrusion(tool, height, c.distance(pos.value, p))
        && MeteredFrom(c, tool, height, Some(p), code[1..])
      case Travel(p) => MeteredFrom(c, tool, height, Some(p), code[1..])
      case _ => MeteredFrom(c, tool, height, pos, code[1..])
  }

  /** The same, from an unknown position: the code places the nozzle
      itself before its first extrusion. */
  predicate Metered(c: Config, tool: ToolId, height: real, code: seq<Instr>) {
    MeteredFrom(c, tool, height, None, code)
  }

  /** The first move of `code`, if any, is a travel. */
  predicate Anchored(code: seq<Instr>)
    decreases |code|
  {
    |code| == 0 || code[0].Travel? || (!code[0].Extrude? && Anchored(code[1..]))
  }

  /** Code that travels before it extrudes does not depend on where the
      nozzle was. */
  lemma {:induction false} AnchoredFree(c: Config, tool: ToolId, height: real, pos: Option<Point>, code: seq<Instr>)
    requires Anchored(code)
    ensures MeteredFrom(c, tool, height, pos, code) == Metered(c, tool, height, code)
    decreases |code|
  {
    if |code| > 0 && !code[0].Travel? {
      AnchoredFree(c, tool, height, pos, code[1..]);
      AnchoredFree(c, tool, height, None, code[1..]);
    }
  }

  /** Metered code followed by metered code that travels first is metered. */
  lemma {:induction false} MeteredAppend(c: Config, tool: ToolId, height: real, pos: Option<Point>, a: seq<Instr>, b: seq<Instr>)
    requires MeteredFrom(c, tool, height, pos, a)
    requires Anchored(b) && Metered(c, tool, height, b)
    ensures MeteredFrom(c, tool, height, pos, a + b)
    decreases |a|
  {
    if |a| == 0 {
      assert a + b == b;
      AnchoredFree(c, tool, height, pos, b);
    } else {
      assert (a + b)[0] == a[0];
      assert (a + b)[1..] == a[1..] + b;
      var next := match a[0]
        case Extrude(p, _) => Some(p)
        case Travel(p) => Some(p)
        case _ => pos;
      MeteredAppend(c, tool, height, next, a[1..], b);
    }
  }

  /** Instructions that do not move the head are transparent to metering. */
  lemma {:induction false} MeteredSkip(c: Config, tool: ToolId, height: real, pos: Option<Point>, pre: seq<Instr>, b: seq<Instr>)
    requires Stationary(pre)
    ensures MeteredFrom(c, tool, height, pos, pre + b) == MeteredFrom(c, tool, height, pos, b)
    decreases |pre|
  {
    if |pre| == 0 {
      assert pre + b == b;
    } else {
      assert (pre + b)[0] == pre[0];
      assert (pre + b)[1..] == pre[1..] + b;
      MeteredSkip(c, tool, height, pos, pre[1..], b);
    }
  }

  /** Code that never extrudes is metered from anywhere. */
  lemma {:induction false} NoExtrudeMetered(c: Config, tool: ToolId, height: real, pos: Option<Point>, b: seq<Instr>)
    requires forall k :: 0 <= k < |b| ==> !b[k].Extrude?
    ensures MeteredFrom(c, tool, height, pos, b)
    decreases |b|
  {
    if |b| > 0 {
      var next := if b[0].Travel? then Some(b[0].to) else pos;
      NoExtrudeMetered(c, tool, height, next, b[1..]);
    }
  }

  /** Metered code followed by code that never extrudes is metered. */
  lemma {:induction false} MeteredNoExtrude(c: Config, tool: ToolId, height: real, pos: Option<Point>, a: seq<Instr>, b: seq<Instr>)
    requires MeteredFrom(c, tool, height, pos, a)
    requires forall k :: 0 <= k < |b| ==> !b[k].Extrude?
    ensures MeteredFrom(c, tool, height, pos, a + b)
    decreases |a|
  {
    if |a| == 0 {
      assert a + b == b;
      NoExtrudeMetered(c, tool, height, pos, b);
    } else {
      assert (a + b)[0] == a[0];
      assert (a + b)[1..] == a[1..] + b;
      var next := match a[0]
        case Extrude(p, _) => Some(p)
        case Travel(p) => Some(p)
        case _ => pos;
      MeteredNoExtrude(c, tool, height, next, a[1..], b);
    }
  }

  /** Anchored code followed by anything is anchored. */
  lemma {:induction false} AnchoredAppend(a: seq<Instr>, b: seq<Instr>)
    requires Anchored(a) && Anchored(b)
    ensures Anchored(a + b)
    decreases |a|
  {
    if |a| == 0 {
      assert a + b == b;
    } else if !a[0].Travel? {
      assert (a + b)[1..] == a[1..] + b;
      AnchoredAppend(a[1..], b);
    }
  }

  /** Extruding along the polygon `ps` from its first vertex is metered. */
  lemma {:induction false} EdgesMetered(c: Config, tool: ToolId, height: real, ps: seq<Point>, code: seq<Instr>)
    requires |ps| > 0 && |code| == |ps| - 1
    requires forall k :: 0 <= k < |code| ==> code[k] == Edge(c, tool, height, ps[k], ps[k + 1])
    ensures MeteredFrom(c, tool, height, Some(ps[0]), code)
    decreases |code|
  {
    if |code| > 0 {
      assert code[0] == Edge(c, tool, height, ps[0], ps[1]);
      assert forall k :: 0 <= k < |code| - 1 ==> code[1..][k] == Edge(c, tool, height, ps[1..][k], ps[1..][k + 1]);
      EdgesMetered(c, tool, height, ps[1..], code[1..]);
    }
  }

  /** A shape's extruding moves are exactly its edges, each metered. */
  lemma ShapeMetered(c: Config, tool: ToolId, height: real, vs: seq<Point>, closed: bool)
    requires |vs| > 0
    ensures var code := ShapeCode(c, tool, height, vs, closed);
            && code[0] == Travel(vs[0])
            && (forall k :: 2 <= k < |code| ==> code[k].Extrude?)
            && Metered(c, tool, height, code)
  {
    var tail := Edges(c, tool, height, vs) + Closing(c, tool, height, vs, closed);
    TailMetered(c, tool, height, vs, closed);
    var code := ShapeCode(c, tool, height, vs, closed);
    assert code == [Travel(vs[0]), Feed(c.printSpeed)] + tail;
    assert code[1..] == [Feed(c.printSpeed)] + tail;
    assert code[1..][1..] == tail;
    assert forall k :: 2 <= k < |code| ==> code[k] == tail[k - 2];
  }

  /** The edges of a shape, closing edge included, are metered from its
      first vertex. */
  lemma TailMetered(c: Config, tool: ToolId, height: real, vs: seq<Point>, closed: bool)
    requires |vs| > 0
    ensures var tail := Edges(c, tool, height, vs) + Closing(c, tool, height, vs, closed);
            && (forall k :: 0 <= k < |tail| ==> tail[k].Extrude?)
            && MeteredFrom(c, tool, height, Some(vs[0]), tail)
  {
    var edges := Edges(c, tool, height, vs);
    var closing := Closing(c, tool, height, vs, closed);
    var ps := vs + (if closed then [vs[0]] else []);
    var tail := edges + closing;
    forall k | 0 <= k < |tail| ensures tail[k] == Edge(c, tool, height, ps[k], ps[k + 1]) {
      if k < |edges| {
        assert tail[k] == edges[k];
      } else {
        assert tail[k] == closing[0];
      }
    }
    EdgesMetered(c, tool, height, ps, tail);
  }

  /** gcode_print_shape: the tool must be active in the layer, and an empty
      polygon has no first vertex. The shape travels to the first vertex,
      sets the print speed and then only extrudes, each move by the amount
      for its own length. */
  function PrintShape(c: Config, l: Layer, vs: seq<Point>, tool: ToolId, closed: bool): (r: Result<seq<Instr>, Error>)
    ensures r.Failure? <==> tool !in l.active || |vs| == 0
    ensures tool !in l.active ==> r == Failure(ToolNotActive(tool, l.num))
    ensures tool in l.active && |vs| == 0 ==> r == Failure(EmptyShape)
    ensures r.Success? ==>
              && Plain(r.value)
              && |r.value| == |vs| + (if closed then 2 else 1)
              && r.value[0] == Travel(vs[0])
              && r.value[1] == Feed(c.printSpeed)
              && (forall k :: 2 <= k < |r.value| ==> r.value[k].Extrude?)
              && Path(r.value) == vs + (if closed then [vs[0]] else [])
              && Metered(c, tool, l.height, r.value)
  {
    if tool !in l.active then Failure(ToolNotActive(tool, l.num))
    else if |vs| == 0 then Failure(EmptyShape)
    else
      ShapeFacts(c, tool, l.height, vs, closed);
      ShapeMetered(c, tool, l.height, vs, closed);
      Success(ShapeCode(c, tool, l.height, vs, closed))
  }

  lemma HeadRun(s: MachineState, p: Point, f: real)
    ensures Run(s, [Travel(p), Feed(f)]) == s.(x := Some(p.x), y := Some(p.y), feedRate := f)
  {
    var head := [Travel(p), Feed(f)];
    var s1 := Exec(s, Travel(p));
    var s2 := Exec(s1, Feed(f));
    assert head[1..] == [Feed(f)];
    assert Run(s, head) == Run(s1, [Feed(f)]);
    assert [Feed(f)][1..] == [];
    assert Run(s1, [Feed(f)]) == Run(s2, []);
  }

  /** A printed shape ends where its path ends, at the print speed, and
      keeps the height and retraction state. */
  lemma ShapeRun(c: Config, l: Layer, vs: seq<Point>, tool: ToolId, closed: bool, s: MachineState)
    requires PrintShape(c, l, vs, tool, closed).Success?
    ensures var code := PrintShape(c, l, vs, tool, closed).value;
            var end := if closed then vs[0] else Last(vs);
            Run(s, code) == s.(x := Some(end.x), y := Some(end.y), feedRate := c.printSpeed)
  {
    var edges := Edges(c, tool, l.height, vs);
    var closing := Closing(c, tool, l.height, vs, closed);
    var head := [Travel(vs[0]), Feed(c.printSpeed)];
    var code := PrintShape(c, l, vs, tool, closed).value;
    assert code == head + (edges + closing);
    RunAppend(s, head, edges + closing);
    HeadRun(s, vs[0], c.printSpeed);
    var s1 := Run(s, head);
    RunAppend(s1, edges, closing);
    MovesEnd(s1, edges);
    var s2 := Run(s1, edges);
    MovesEnd(s2, closing);
    var end := if closed then vs[0] else Last(vs);
    if closed {
      assert Last(closing).to == vs[0];
    } else if |edges| > 0 {
      assert Last(edges).to == Last(vs);
      assert closing == [];
    } else {
      assert |vs| == 1 && closing == [];
    }
  }

  /** Moves only change the position, ending at the last target. */
  lemma {:induction false} MovesEnd(s: MachineState, code: seq<Instr>)
    requires forall k :: 0 <= k < |code| ==> code[k].Travel? || code[k].Extrude?
    ensures |code| == 0 ==> Run(s, code) == s
    ensures |code| > 0 ==> Run(s, code) == s.(x := Some(Last(code).to.x), y := Some(Last(code).to.y))
    decreases |code|
  {
    if |code| > 0 {
      MovesEnd(Exec(s, code[0]), code[1..]);
    }
  }

  /** The ring of radius `r` with its seam rotated by `rot`, closed. */
  function ClosedRing(c: Config, r: real, rot: int): (p: seq<Point>)
    ensures |p| == c.faces + 1
  {
    var ring := RotateRight(Ring(c, r), rot);
    ring + [if |ring| > 0 then ring[0] else c.vertex(r, 0)]
  }

  /** The tool path of a set of rings, innermost first: the reference the
      band instructions are checked against. */
  function RingsPath(c: Config, rs: seq<real>, rot: int): (p: seq<Point>)
    ensures |p| == |rs| * (c.faces + 1)
    decreases |rs|
  {
    if |rs| == 0 then []
    else
      var head := ClosedRing(c, rs[0], rot);
      var rest := RingsPath(c, rs[1..], rot);
      MulStep(|head|, |rest|, |rs|, c.faces + 1);
      head + rest
  }

  lemma MulStep(a: nat, b: nat, n: nat, m: nat)
    requires n > 0 && a == m && b == (n - 1) * m
    ensures a + b == n * m
  {
  }

  lemma PlainAppend(a: seq<Instr>, b: seq<Instr>)
    requires Plain(a) && Plain(b)
    ensures Plain(a + b)
  {
  }

  /** One closed shape per radius, each ring rotated by `rot`, printed with
      `tool`. */
  function RingsCode(c: Config, l: Layer, tool: ToolId, rs: seq<real>, rot: int): (r: Result<seq<Instr>, Error>)
    ensures r.Failure? <==> |rs| > 0 && (tool !in l.active || c.faces == 0)
    ensures r.Success? ==> Plain(r.value) && Path(r.value) == RingsPath(c, rs, rot)
    ensures r.Success? ==> Anchored(r.value) && Metered(c, tool, l.height, r.value)
    ensures r.Success? && |r.value| > 0 ==> r.value[0].Travel?
    decreases |rs|
  {
    if |rs| == 0 then Success([])
    else
      var shape := PrintShape(c, l, RotateRight(Ring(c, rs[0]), rot), tool, true);
      if shape.Failure? then Failure(shape.error)
      else
        // the remaining rings cannot fail once the first one printed
        var rest := RingsCode(c, l, tool, rs[1..], rot).value;
        RingsStep(c, rs, rot, shape.value, rest);
        MeteredAppend(c, tool, l.height, None, shape.value, rest);
        AnchoredAppend(shape.value, rest);
        Success(shape.value + rest)
  }

  lemma RingsStep(c: Config, rs: seq<real>, rot: int, shape: seq<Instr>, rest: seq<Instr>)
    requires |rs| > 0
    requires var ring := RotateRight(Ring(c, rs[0]), rot);
             |ring| > 0 && Plain(shape) && Path(shape) == ring + [ring[0]]
    requires Plain(rest) && Path(rest) == RingsPath(c, rs[1..], rot)
    ensures Plain(shape + rest)
    ensures Path(shape + rest) == RingsPath(c, rs, rot)
  {
    PathAppend(shape, rest);
    PlainAppend(shape, rest);
    assert Path(shape) == ClosedRing(c, rs[0], rot);
  }

  /** gcode_pillar_band: the rings the radius table gives this layer and
      tool, each started `layer_num` vertices further round. */
  function PillarBand(c: Config, radii: Radii, l: Layer, tool: ToolId): (r: Result<seq<Instr>, Error>)
    ensures var bands := GetPillarBands(c, radii, l.num, tool);
            && (bands.Failure? ==> r == Failure(UnknownTool(tool)))
            && (bands.Success? ==>
                  && (r.Failure? <==> |bands.value| > 0 && (tool !in l.active || c.faces == 0))
                  && (r.Success? ==> Plain(r.value) && Path(r.value) == RingsPath(c, bands.value, l.num)))
    ensures r.Success? ==> Anchored(r.value) && Metered(c, tool, l.height, r.value)
    ensures r.Success? && |r.value| > 0 ==> r.value[0].Travel?
  {
    var rs :- GetPillarBands(c, radii, l.num, tool);
    RingsCode(c, l, tool, rs, l.num)
  }

  /** The idle tool `idle`'s own rings, unrotated, printed with the current
      tool `tool` and bracketed by a retraction before the first move and a
      detraction after it. A tool without rings has no first move. */
  function IdleBand(c: Config, radii: Radii, l: Layer, tool: ToolId, idle: ToolId): (r: Result<seq<Instr>, Error>)
    ensures r.Success? <==> HasRings(c, radii, l.num, idle) && tool in l.active && c.faces > 0
    ensures r.Success? ==>
              && |r.value| >= 3
              && r.value[0] == Retract && r.value[1].Travel? && r.value[2] == Detract
              && Plain([r.value[1]] + r.value[3..])
              && Path(r.value) == RingsPath(c, GetPillarBands(c, radii, l.num, idle).value, 0)
              && Anchored(r.value) && Metered(c, tool, l.height, r.value)
  {
    var rs :- GetPillarBands(c, radii, l.num, idle);
    var gb :- RingsCode(c, l, tool, rs, 0);
    if |gb| == 0 then Failure(EmptyBlock)
    else
      Bracketed(c, tool, l.height, gb);
      Success([Retract, gb[0], Detract] + gb[1..])
  }

  /** Bracketing the first move of anchored, metered code by a retraction
      and a detraction keeps its path and its metering. */
  lemma Bracketed(c: Config, tool: ToolId, height: real, gb: seq<Instr>)
    requires |gb| > 0 && gb[0].Travel? && Metered(c, tool, height, gb)
    ensures var b := [Retract, gb[0], Detract] + gb[1..];
            && |b| >= 3 && b[0] == Retract && b[1] == gb[0] && b[2] == Detract
            && [b[1]] + b[3..] == gb
            && Path(b) == Path(gb)
            && Anchored(b) && Metered(c, tool, height, b)
  {
    var b := [Retract, gb[0], Detract] + gb[1..];
    assert b[3..] == gb[1..];
    assert [gb[0]] + gb[1..] == gb;
    BracketedPath(gb);
    BracketedMetered(c, tool, height, gb);
  }

  lemma BracketedMetered(c: Config, tool: ToolId, height: real, gb: seq<Instr>)
    requires |gb| > 0 && gb[0].Travel? && Metered(c, tool, height, gb)
    ensures var b := [Retract, gb[0], Detract] + gb[1..];
            Anchored(b) && Metered(c, tool, height, b)
  {
    var b := [Retract, gb[0], Detract] + gb[1..];
    var p := Some(gb[0].to);
    assert MeteredFrom(c, tool, height, p, gb[1..]);
    assert b[1..][1..][1..] == gb[1..];
    assert MeteredFrom(c, tool, height, p, b[1..][1..]);
    assert MeteredFrom(c, tool, height, None, b[1..]);
    assert Anchored(b[1..]);
  }

  lemma BracketedPath(gb: seq<Instr>)
    requires |gb| > 0 && gb[0].Travel?
    ensures Path([Retract, gb[0], Detract] + gb[1..]) == Path(gb)
  {
    PathAppend([Retract, gb[0], Detract], gb[1..]);
    PathAppend([Retract], [gb[0], Detract]);
    PathAppend([gb[0]], [Detract]);
    PathOne(Retract);
    PathOne(Detract);
    PathOne(gb[0]);
    assert gb == [gb[0]] + gb[1..];
    PathAppend([gb[0]], gb[1..]);
  }

  /** The radius table has a non-empty ring list for `t` on layer `layerNum`. */
  predicate HasRings(c: Config, radii: Radii, layerNum: int, t: ToolId) {
    var bands := GetPillarBands(c, radii, layerNum, t);
    bands.Success? && |bands.value| > 0
  }

  /** Every tool of `ts` has a non-empty ring list. */
  predicate AllHaveRings(c: Config, radii: Radii, layerNum: int, ts: seq<ToolId>) {
    forall k :: 0 <= k < |ts| ==> HasRings(c, radii, layerNum, ts[k])
  }

  lemma AllHaveRingsCons(c: Config, radii: Radii, layerNum: int, ts: seq<ToolId>)
    requires |ts| > 0
    ensures AllHaveRings(c, radii, layerNum, ts)
            <==> HasRings(c, radii, layerNum, ts[0]) && AllHaveRings(c, radii, layerNum, ts[1..])
  {
    assert forall k :: 1 <= k < |ts| ==> ts[1..][k - 1] == ts[k];
  }

  /** The idle bands of the tools `ts`, in order. */
  function IdleBands(c: Config, radii: Radii, l: Layer, tool: ToolId, ts: seq<ToolId>): (r: Result<seq<Instr>, Error>)
    ensures r.Success? <==>
              |ts| == 0 || (tool in l.active && c.faces > 0 && AllHaveRings(c, radii, l.num, ts))
    ensures r.Success? ==>
              && ZNeutral(r.value)
              && NoRetractAtEnd(r.value)
              && Count(r.value, Retract) == |ts|
              && Count(r.value, Detract) == |ts|
              && Path(r.value) == IdlePath(c, radii, l.num, ts)
              && Anchored(r.value) && Metered(c, tool, l.height, r.value)
    decreases |ts|
  {
    if |ts| == 0 then Success([])
    else
      AllHaveRingsCons(c, radii, l.num, ts);
      var band := IdleBand(c, radii, l, tool, ts[0]);
      if band.Failure? then Failure(band.error)
      else
        var rest := IdleBands(c, radii, l, tool, ts[1..]);
        if rest.Failure? then Failure(rest.error)
        else
          BracketFacts(band.value, rest.value);
          PathAppend(band.value, rest.value);
          MeteredAppend(c, tool, l.height, None, band.value, rest.value);
          AnchoredAppend(band.value, rest.value);
          Success(band.value + rest.value)
  }

  lemma BracketFacts(band: seq<Instr>, rest: seq<Instr>)
    requires |band| >= 3 && band[0] == Retract && band[2] == Detract && Plain([band[1]] + band[3..])
    requires ZNeutral(rest) && NoRetractAtEnd(rest)
    ensures ZNeutral(band + rest) && NoRetractAtEnd(band + rest)
    ensures Count(band + rest, Retract) == 1 + Count(rest, Retract)
    ensures Count(band + rest, Detract) == 1 + Count(rest, Detract)
  {
    BracketBody(band);
    BracketSafe(band, rest);
    BracketCounts(band);
    CountAppend(band, rest, Retract);
    CountAppend(band, rest, Detract);
  }

  /** Inside the bracket only the first instruction retracts, and nothing
      moves Z. */
  lemma BracketBody(band: seq<Instr>)
    requires |band| >= 3 && band[0] == Retract && band[2] == Detract && Plain([band[1]] + band[3..])
    ensures forall k :: 1 <= k < |band| ==> !band[k].Retract? && !band[k].MoveZ?
  {
    var p := [band[1]] + band[3..];
    forall k | 1 <= k < |band| ensures !band[k].Retract? && !band[k].MoveZ? {
      if k == 1 {
        assert band[1] == p[0];
      } else if k > 2 {
        assert band[k] == p[k - 2];
      }
    }
  }

  /** A bracketed band followed by safe code is safe. */
  lemma BracketSafe(band: seq<Instr>, rest: seq<Instr>)
    requires |band| >= 3 && band[0] == Retract && band[2] == Detract
    requires forall k :: 1 <= k < |band| ==> !band[k].Retract? && !band[k].MoveZ?
    requires ZNeutral(rest) && NoRetractAtEnd(rest)
    ensures ZNeutral(band + rest) && NoRetractAtEnd(band + rest)
  {
    var s := band + rest;
    forall k | 0 <= k < |s| && s[k].Retract? ensures exists j :: k < j < |s| && s[j].Detract? {
      if k < |band| {
        assert s[2].Detract?;
      } else {
        var j :| k - |band| < j < |rest| && rest[j].Detract?;
        assert s[j + |band|].Detract?;
      }
    }
  }

  /** A bracketed band holds one retraction and one detraction. */
  lemma BracketCounts(band: seq<Instr>)
    requires |band| >= 3 && band[0] == Retract && band[2] == Detract && Plain([band[1]] + band[3..])
    ensures Count(band, Retract) == 1 && Count(band, Detract) == 1
  {
    var p := [band[1]] + band[3..];
    assert band == [Retract, band[1], Detract] + band[3..];
    assert Retract !in p && Detract !in p;
    assert multiset(band) == multiset([Retract, Detract]) + multiset(p);
  }

  /** The path the idle bands of the tools `ts` follow: each tool's own
      rings, unrotated, one tool after the other. */
  function IdlePath(c: Config, radii: Radii, layerNum: int, ts: seq<ToolId>): seq<Point>
    decreases |ts|
  {
    if |ts| == 0 then [] else BandPath(c, radii, layerNum, ts[0], 0) + IdlePath(c, radii, layerNum, ts[1..])
  }

  /** The path of tool `t`'s rings on layer `layerNum`, each ring rotated
      by `rot`; nothing for a tool the radius table does not know. */
  function BandPath(c: Config, radii: Radii, layerNum: int, t: ToolId, rot: int): seq<Point> {
    var bands := GetPillarBands(c, radii, layerNum, t);
    if bands.Success? then RingsPath(c, bands.value, rot) else []
  }

  /** gcode_pillar_idle_tool_bands: one bracketed band per idle tool, in
      ascending tool order, all printed with the current tool. */
  function IdleToolBands(c: Config, radii: Radii, l: Layer, tool: ToolId): (r: Result<seq<Instr>, Error>)
    ensures r.Success? <==>
              |l.idle| == 0 || (tool in l.active && c.faces > 0 && AllHaveRings(c, radii, l.num, SortedElems(l.idle)))
    ensures r.Success? ==>
              && ZNeutral(r.value)
              && NoRetractAtEnd(r.value)
              && Count(r.value, Retract) == |l.idle|
              && Count(r.value, Detract) == |l.idle|
              && Path(r.value) == IdlePath(c, radii, l.num, SortedElems(l.idle))
              && Anchored(r.value) && Metered(c, tool, l.height, r.value)
  {
    var ts := SortedElems(l.idle);
    IdleBands(c, radii, l, tool, ts)
  }
}

=== FILE: stream.dfy ===
/** The token list being rewritten: the original tokens, identified by
    their index, with synthesized instructions spliced in between.

    Injection inserts a block right after a marker node of the doubly linked
    token list (append_nodes_right). A marker is found by identity, not by
    position, so a splice stays correct however many blocks were inserted
    before it. */
module Stream {
  import opened GCode
  import opened Tower

  datatype Entry = Orig(k: nat) | Added(instr: Instr)

  /** The untouched token list of `n` tokens. */
  function Initial(n: nat): (st: seq<Entry>)
    ensures |st| == n
    ensures forall k :: 0 <= k < n ==> st[k] == Orig(k)
  {
    seq(n, k requires 0 <= k < n => Orig(k))
  }

  /** The original tokens still in the list, in order. */
  function Origins(st: seq<Entry>): (o: seq<nat>)
    ensures |o| <= |st|
    decreases |st|
  {
    if |st| == 0 then []
    else Own(st[0]) + Origins(st[1..])
  }

  /** The token an entry stands for, if it is an original one. */
  function Own(e: Entry): (o: seq<nat>)
    ensures |o| <= 1
  {
    if e.Orig? then [e.k] else []
  }

  lemma {:induction false} OriginsAppend(a: seq<Entry>, b: seq<Entry>)
    ensures Origins(a + b) == Origins(a) + Origins(b)
    decreases |a|
  {
    if |a| == 0 {
      assert a + b == b;
    } else {
      var h := Own(a[0]);
      assert (a + b)[0] == a[0];
      assert (a + b)[1..] == a[1..] + b;
      assert Origins(a + b) == h + Origins(a[1..] + b);
      OriginsAppend(a[1..], b);
      assert Origins(a) == h + Origins(a[1..]);
      assert h + (Origins(a[1..]) + Origins(b)) == (h + Origins(a[1..])) + Origins(b);
    }
  }

  /** Synthesized instructions as list entries. */
  function Wrap(code: seq<Instr>): (w: seq<Entry>)
    ensures |w| == |code|
    ensures forall k :: 0 <= k < |code| ==> w[k] == Added(code[k])
  {
    seq(|code|, k requires 0 <= k < |code| => Added(code[k]))
  }

  lemma {:induction false} WrapHasNoOrigins(code: seq<Instr>)
    ensures Origins(Wrap(code)) == []
    decreases |code|
  {
    if |code| > 0 {
      assert Wrap(code)[1..] == Wrap(code[1..]);
      WrapHasNoOrigins(code[1..]);
    }
  }

  /** Reading the instructions back out of a wrapped block gives the block. */
  function Unwrap(w: seq<Entry>): (code: seq<Instr>)
    requires forall k :: 0 <= k < |w| ==> w[k].Added?
    ensures |code| == |w|
  {
    seq(|w|, k requires 0 <= k < |w| => w[k].instr)
  }

  lemma UnwrapWrap(code: seq<Instr>)
    ensures Unwrap(Wrap(code)) == code
  {
  }

  /** The list of the initial `n` tokens has origins 0 .. n-1. */
  lemma {:induction false} InitialOrigins(n: nat)
    ensures Origins(Initial(n)) == Range(0, n)
    decreases n
  {
    if n > 0 {
      assert Initial(n) == Initial(n - 1) + [Orig(n - 1)];
      OriginsAppend(Initial(n - 1), [Orig(n - 1)]);
      assert [Orig(n - 1)][1..] == [];
      InitialOrigins(n - 1);
      assert Range(0, n) == Range(0, n - 1) + [n - 1];
    }
  }

  /** Inserts `code` right after the first entry for token `m`. */
  function SpliceAfter(st: seq<Entry>, m: nat, code: seq<Instr>): (r: seq<Entry>)
    requires m in Origins(st)
    ensures |r| == |st| + |code|
    decreases |st|
  {
    if st[0] == Orig(m) then [st[0]] + Wrap(code) + st[1..]
    else
      assert m in Origins(st[1..]);
      [st[0]] + SpliceAfter(st[1..], m, code)
  }

  /** The splice keeps the original tokens, in their order. */
  lemma {:induction false} SpliceKeepsOrigins(st: seq<Entry>, m: nat, code: seq<Instr>)
    requires m in Origins(st)
    ensures Origins(SpliceAfter(st, m, code)) == Origins(st)
    decreases |st|
  {
    var r := SpliceAfter(st, m, code);
    assert st == [st[0]] + st[1..];
    OriginsAppend([st[0]], st[1..]);
    if st[0] == Orig(m) {
      assert r == ([st[0]] + Wrap(code)) + st[1..];
      OriginsAppend([st[0]] + Wrap(code), st[1..]);
      OriginsAppend([st[0]], Wrap(code));
      WrapHasNoOrigins(code);
    } else {
      assert m in Origins(st[1..]);
      SpliceKeepsOrigins(st[1..], m, code);
      OriginsAppend([st[0]], SpliceAfter(st[1..], m, code));
    }
  }

  /** Position of the first entry for token `m`. */
  function FirstAt(st: seq<Entry>, m: nat): (i: nat)
    requires m in Origins(st)
    ensures i < |st| && st[i] == Orig(m) && Orig(m) !in st[..i]
    decreases |st|
  {
    if st[0] == Orig(m) then 0
    else
      assert m in Origins(st[1..]);
      var j := FirstAt(st[1..], m);
      assert st[..j + 1] == [st[0]] + st[1..][..j];
      j + 1
  }

  /** The block sits in one piece right after the first entry for `m`. */
  lemma {:induction false} SplicePlacesBlock(st: seq<Entry>, m: nat, code: seq<Instr>)
    requires m in Origins(st)
    ensures var i := FirstAt(st, m);
            SpliceAfter(st, m, code) == st[..i + 1] + Wrap(code) + st[i + 1..]
    decreases |st|
  {
    var r := SpliceAfter(st, m, code);
    if st[0] == Orig(m) {
      assert st[..1] == [st[0]];
    } else {
      assert m in Origins(st[1..]);
      var t := st[1..];
      SplicePlacesBlock(t, m, code);
      var j := FirstAt(t, m);
      assert FirstAt(st, m) == j + 1;
      assert r == [st[0]] + SpliceAfter(t, m, code);
      assert st[..j + 2] == [st[0]] + t[..j + 1];
      assert st[j + 2..] == t[j + 1..];
      ConsAssoc(st[0], t[..j + 1], Wrap(code), t[j + 1..]);
    }
  }

  /** `code` sits in one piece right after the first entry for token `m`. */
  predicate Placed(st: seq<Entry>, m: nat, code: seq<Instr>) {
    && m in Origins(st)
    && FirstAt(st, m) + |code| < |st|
    && st[FirstAt(st, m) + 1 .. FirstAt(st, m) + 1 + |code|] == Wrap(code)
  }

  lemma {:induction false} OrigInOrigins(st: seq<Entry>, i: nat)
    requires i < |st| && st[i].Orig?
    ensures st[i].k in Origins(st)
    decreases i
  {
    if i > 0 {
      OrigInOrigins(st[1..], i - 1);
    }
  }

  /** The first entry for `m` is the one no earlier entry repeats. */
  lemma FirstAtUnique(st: seq<Entry>, m: nat, i: nat)
    requires i < |st| && st[i] == Orig(m) && Orig(m) !in st[..i]
    ensures m in Origins(st) && FirstAt(st, m) == i
  {
    OrigInOrigins(st, i);
  }

  /** A splice places its block. */
  lemma SplicePlaced(st: seq<Entry>, m: nat, code: seq<Instr>)
    requires m in Origins(st)
    ensures Placed(SpliceAfter(st, m, code), m, code)
  {
    var i := FirstAt(st, m);
    var r := SpliceAfter(st, m, code);
    SplicePlacesBlock(st, m, code);
    assert r[..i] == st[..i];
    assert r[i] == Orig(m);
    FirstAtUnique(r, m, i);
    assert r[i + 1 .. i + 1 + |code|] == Wrap(code);
  }

  /** A splice at another token leaves a placed block in place. */
  lemma SpliceKeepsPlaced(st: seq<Entry>, m: nat, code: seq<Instr>, b: nat, block: seq<Instr>)
    requires m in Origins(st) && m != b && Placed(st, b, block)
    ensures Placed(SpliceAfter(st, m, code), b, block)
  {
    var i := FirstAt(st, m);
    var p := FirstAt(st, b);
    SplicePlacesBlock(st, m, code);
    var r := SpliceAfter(st, m, code);
    if p < i {
      BlockBefore(st, p, block, i);
      InsertAfterBlock(st, i, code, b, p, block, r);
    } else {
      InsertBeforeBlock(st, i, code, b, p, block, r);
    }
  }

  /** An original token after the start of a block lies past its end. */
  lemma BlockBefore(st: seq<Entry>, p: nat, block: seq<Instr>, i: nat)
    requires p < i < |st| && st[i].Orig?
    requires p + |block| < |st| && st[p + 1 .. p + 1 + |block|] == Wrap(block)
    ensures p + |block| < i
  {
  }

  /** Inserting behind a placed block keeps it where it is. */
  lemma InsertAfterBlock(st: seq<Entry>, i: nat, code: seq<Instr>, b: nat, p: nat, block: seq<Instr>, r: seq<Entry>)
    requires p + |block| < i < |st|
    requires st[p] == Orig(b) && Orig(b) !in st[..p]
    requires st[p + 1 .. p + 1 + |block|] == Wrap(block)
    requires r == st[..i + 1] + Wrap(code) + st[i + 1..]
    ensures Placed(r, b, block)
  {
    assert r[..p] == st[..p];
    FirstAtUnique(r, b, p);
    assert r[p + 1 .. p + 1 + |block|] == st[p + 1 .. p + 1 + |block|];
  }

  /** Inserting in front of a placed block shifts it by the insertion. */
  lemma InsertBeforeBlock(st: seq<Entry>, i: nat, code: seq<Instr>, b: nat, p: nat, block: seq<Instr>, r: seq<Entry>)
    requires i < p && p + |block| < |st|
    requires st[p] == Orig(b) && Orig(b) !in st[..p]
    requires st[p + 1 .. p + 1 + |block|] == Wrap(block)
    requires r == st[..i + 1] + Wrap(code) + st[i + 1..]
    ensures Placed(r, b, block)
  {
    var q := p + |code|;
    assert r[q] == st[p];
    assert Orig(b) !in r[..q] by {
      forall j | 0 <= j < q ensures r[j] != Orig(b) {
        if j <= i {
          assert r[j] == st[..p][j];
        } else if j <= i + |code| {
          assert r[j] == Wrap(code)[j - i - 1];
        } else {
          assert r[j] == st[..p][j - |code|];
        }
      }
    }
    FirstAtUnique(r, b, q);
    assert r[q + 1 .. q + 1 + |block|] == st[p + 1 .. p + 1 + |block|];
  }

  lemma ConsAssoc<T>(x: T, a: seq<T>, w: seq<T>, b: seq<T>)
    ensures [x] + (a + w + b) == ([x] + a) + w + b
  {
  }
}

=== FILE: tool_status.dfy ===
/** Tool-status dataflow (PrimeTower.analyze_tool_status).

    A forward pass carries the last selected tool across layers and yields
    each layer's active set; a backward pass from the last layer yields the
    idle set (needed again later) and the disabled set (never used again).
    Both passes are written as the loops they model; the lemmas relate them
    to closed-form definitions. */
module ToolStatus {
  import opened Wrappers
  import opened GCode
  import opened Tower

  function OptSet(o: Option<ToolId>): set<ToolId> {
    if o.Some? then {o.value} else {}
  }

  /** Chronological tool ids of every layer's tool changes. */
  function LayerToolIds(changes: seq<ToolChange>, ls: seq<Layer>): (ids: seq<seq<ToolId>>)
    requires RefsValid(changes, ls)
    ensures |ids| == |ls|
    ensures forall i :: 0 <= i < |ls| ==> ids[i] == ToolIds(changes, ls[i].changeSeq)
  {
    seq(|ls|, i requires 0 <= i < |ls| && RefsValid(changes, ls) => ToolIds(changes, ls[i].changeSeq))
  }

  /** Forward pass: `carried` is the tool selected before the first layer. */
  function ForwardPass(ids: seq<seq<ToolId>>, carried: Option<ToolId>): (act: seq<set<ToolId>>)
    ensures |act| == |ids|
    decreases |ids|
  {
    if |ids| == 0 then []
    else
      var next := if |ids[0]| > 0 then Some(Last(ids[0])) else carried;
      [OptSet(carried) + Elems(ids[0])] + ForwardPass(ids[1..], next)
  }

  /** The last tool selected in a layer before layer `i` (`c` if none). */
  function CarriedInto(ids: seq<seq<ToolId>>, c: Option<ToolId>, i: nat): Option<ToolId>
    requires i <= |ids|
    decreases i
  {
    if i == 0 then c
    else if |ids[i - 1]| > 0 then Some(Last(ids[i - 1]))
    else CarriedInto(ids, c, i - 1)
  }

  /** Union of a sequence of tool sets. */
  function UnionOf(s: seq<set<ToolId>>): set<ToolId>
    decreases |s|
  {
    if |s| == 0 then {} else s[0] + UnionOf(s[1..])
  }

  datatype Status = Status(idle: set<ToolId>, disabled: set<ToolId>)

  /** Backward pass, from the last layer towards the first. */
  function BackwardPass(act: seq<set<ToolId>>, enabled: set<ToolId>): (st: seq<Status>)
    ensures |st| == |act|
    decreases |act|
  {
    if |act| == 0 then []
    else if |act| == 1 then [Status({}, enabled - act[0])]
    else
      var rest := BackwardPass(act[1..], enabled);
      [Status((rest[0].idle + act[1]) - act[0], rest[0].disabled - act[0])] + rest
  }

  /** Active sets of a layer list. */
  function Actives(ls: seq<Layer>): (a: seq<set<ToolId>>)
    ensures |a| == |ls|
    ensures forall i :: 0 <= i < |ls| ==> a[i] == ls[i].active
  {
    seq(|ls|, i requires 0 <= i < |ls| => ls[i].active)
  }

  /** Tools ever active: the analysis' enabled set. */
  function Enabled(ls: seq<Layer>): set<ToolId> {
    UnionOf(Actives(ls))
  }

  /** analyze_tool_status: recomputes active/idle/disabled of every layer. */
  function AnalyzeToolStatus(changes: seq<ToolChange>, ls: seq<Layer>): (r: seq<Layer>)
    requires RefsValid(changes, ls)
    requires Numbered(ls)
    ensures |r| == |ls|
    ensures forall i :: 0 <= i < |ls| ==>
              r[i] == ls[i].(active := r[i].active, idle := r[i].idle, disabled := r[i].disabled)
  {
    var act := ForwardPass(LayerToolIds(changes, ls), None);
    var st := BackwardPass(act, UnionOf(act));
    seq(|ls|, i requires 0 <= i < |ls| =>
      ls[i].(active := act[i], idle := st[i].idle, disabled := st[i].disabled))
  }

  // ---------------------------------------------------------------------
  // Closed forms

  lemma {:induction false} CarriedShift(ids: seq<seq<ToolId>>, c: Option<ToolId>, i: nat)
    requires 0 < |ids| && 0 < i <= |ids|
    ensures CarriedInto(ids[1..], if |ids[0]| > 0 then Some(Last(ids[0])) else c, i - 1)
            == CarriedInto(ids, c, i)
    decreases i
  {
    if i > 1 {
      assert ids[1..][i - 2] == ids[i - 1];
      if |ids[i - 1]| == 0 {
        CarriedShift(ids, c, i - 1);
      }
    }
  }

  /** The forward loop computes "changes of this layer plus the tool carried in". */
  lemma {:induction false} ForwardPassClosedForm(ids: seq<seq<ToolId>>, c: Option<ToolId>, i: nat)
    requires i < |ids|
    ensures ForwardPass(ids, c)[i] == OptSet(CarriedInto(ids, c, i)) + Elems(ids[i])
    decreases i
  {
    if i > 0 {
      var next := if |ids[0]| > 0 then Some(Last(ids[0])) else c;
      ForwardPassClosedForm(ids[1..], next, i - 1);
      CarriedShift(ids, c, i);
      assert ids[1..][i - 1] == ids[i];
    }
  }

  lemma {:induction false} BackwardPassClosedForm(act: seq<set<ToolId>>, en: set<ToolId>, i: nat)
    requires i < |act|
    ensures BackwardPass(act, en)[i].idle == UnionOf(act[i + 1..]) - act[i]
    ensures BackwardPass(act, en)[i].disabled == en - UnionOf(act[i..])
    decreases |act|
  {
    if |act| == 1 {
      assert act[i..] == [act[0]];
      assert act[i..][1..] == [];
    } else if i == 0 {
      BackwardPassClosedForm(act[1..], en, 0);
      assert act[1..][0] == act[1];
      assert act[1..][1..] == act[2..];
      assert act[1..][0..] == act[1..];
      assert act[0..] == act;
      assert act[1..] == [act[1]] + act[2..];
      assert UnionOf(act[1..]) == act[1] + UnionOf(act[2..]);
    } else {
      BackwardPassClosedForm(act[1..], en, i - 1);
      assert act[1..][i - 1] == act[i];
      assert act[1..][i - 1 + 1..] == act[i + 1..];
      assert act[1..][i - 1..] == act[i..];
    }
  }

  /** Union of a suffix is contained in the union of the whole. */
  lemma {:induction false} UnionOfSuffix(s: seq<set<ToolId>>, i: nat)
    requires i <= |s|
    ensures UnionOf(s[i..]) <= UnionOf(s)
    decreases i
  {
    if i > 0 {
      UnionOfSuffix(s[1..], i - 1);
      assert s[1..][i - 1..] == s[i..];
    } else {
      assert s[0..] == s;
    }
  }

  lemma UnionOfSplit(s: seq<set<ToolId>>, i: nat)
    requires i < |s|
    ensures UnionOf(s[i..]) == s[i] + UnionOf(s[i + 1..])
  {
    assert s[i..][1..] == s[i + 1..];
  }

  /** Membership in a union: some element contains it. */
  lemma {:induction false} UnionOfMember(s: seq<set<ToolId>>, t: ToolId)
    ensures t in UnionOf(s) <==> exists j :: 0 <= j < |s| && t in s[j]
    decreases |s|
  {
    if |s| > 0 {
      UnionOfMember(s[1..], t);
      if t in UnionOf(s[1..]) {
        var j :| 0 <= j < |s[1..]| && t in s[1..][j];
        assert t in s[j + 1];
      }
      if exists j :: 0 <= j < |s| && t in s[j] {
        var j :| 0 <= j < |s| && t in s[j];
        if j > 0 {
          assert t in s[1..][j - 1];
        }
      }
    }
  }

  /** The analysis rests on the layers' change lists only. */
  lemma AnalyzeActives(changes: seq<ToolChange>, ls: seq<Layer>)
    requires RefsValid(changes, ls) && Numbered(ls)
    ensures Actives(AnalyzeToolStatus(changes, ls)) == ForwardPass(LayerToolIds(changes, ls), None)
  {
  }

  // ---------------------------------------------------------------------
  // Properties of analyze_tool_status

  /** active[i] is layer i's tool-change ids plus the last tool changed in an earlier layer. */
  lemma ActiveIsCarriedPlusChanges(changes: seq<ToolChange>, ls: seq<Layer>, i: nat)
    requires RefsValid(changes, ls) && Numbered(ls) && i < |ls|
    ensures AnalyzeToolStatus(changes, ls)[i].active
            == OptSet(CarriedInto(LayerToolIds(changes, ls), None, i)) + ToolSet(changes, ls[i].changeSeq)
  {
    ForwardPassClosedForm(LayerToolIds(changes, ls), None, i);
  }

  /** idle[i] is the tools active in some later layer, minus active[i];
      disabled[i] is the enabled tools never active from layer i onward. */
  lemma IdleAndDisabledClosedForm(changes: seq<ToolChange>, ls: seq<Layer>, i: nat)
    requires RefsValid(changes, ls) && Numbered(ls) && i < |ls|
    ensures var r := AnalyzeToolStatus(changes, ls);
            && r[i].idle == UnionOf(Actives(r)[i + 1..]) - r[i].active
            && r[i].disabled == Enabled(r) - UnionOf(Actives(r)[i..])
  {
    var r := AnalyzeToolStatus(changes, ls);
    var act := ForwardPass(LayerToolIds(changes, ls), None);
    AnalyzeActives(changes, ls);
    BackwardPassClosedForm(act, UnionOf(act), i);
  }

  /** The three sets partition the enabled tools; the last layer has no idle tool. */
  lemma StatusPartition(changes: seq<ToolChange>, ls: seq<Layer>, i: nat)
    requires RefsValid(changes, ls) && Numbered(ls) && i < |ls|
    ensures var r := AnalyzeToolStatus(changes, ls);
            && r[i].active !! r[i].idle
            && r[i].active !! r[i].disabled
            && r[i].idle !! r[i].disabled
            && r[i].active + r[i].idle + r[i].disabled == Enabled(r)
            && (i == |ls| - 1 ==> r[i].idle == {})
  {
    var r := AnalyzeToolStatus(changes, ls);
    var a := Actives(r);
    IdleAndDisabledClosedForm(changes, ls, i);
    UnionOfSplit(a, i);
    UnionOfSuffix(a, i);
    if i == |ls| - 1 {
      assert a[i + 1..] == [];
    }
  }

  /** Re-running the analysis reproduces identical results. */
  lemma AnalyzeIdempotent(changes: seq<ToolChange>, ls: seq<Layer>)
    requires RefsValid(changes, ls) && Numbered(ls)
    ensures RefsValid(changes, AnalyzeToolStatus(changes, ls))
    ensures Numbered(AnalyzeToolStatus(changes, ls))
    ensures AnalyzeToolStatus(changes, AnalyzeToolStatus(changes, ls)) == AnalyzeToolStatus(changes, ls)
  {
    var r := AnalyzeToolStatus(changes, ls);
    assert forall i :: 0 <= i < |ls| ==> r[i].changeSeq == ls[i].changeSeq && r[i].toolsSeq == ls[i].toolsSeq;
    assert LayerToolIds(changes, r) == LayerToolIds(changes, ls);
  }
}

=== FILE: tower.dfy ===
/** The records the prime tower builds: tool changes, layers and radius
    tables, plus the errors that abort a run.

    Tool-change records are shared by reference in the original (a layer's
    chronological change list, its tool sequence and the next layer's
    carried-over entry all point at the same object, and later block markers
    update it in place). Here they live in one table, `changes`, in creation
    order, and layers refer to them by index. */
module Tower {
  import opened Wrappers
  import opened GCode

  /** A token index into the annotated token sequence. */
  type Marker = nat

  /** ToolChangeInfo: the tool selected, its TOOLCHANGE token, and the
      TOOL_BLOCK_START / TOOL_BLOCK_END markers seen while it was current. */
  datatype ToolChange = ToolChange(
    toolId: ToolId,
    source: Marker,
    blockStart: Option<Marker>,
    blockEnd: Option<Marker>)

  /** PrimeTowerLayerInfo. `changeSeq` and `toolsSeq` hold indices into the
      tool-change table. */
  datatype Layer = Layer(
    num: int,
    z: real,
    height: real,
    start: Option<Marker>,
    end: Option<Marker>,
    changeSeq: seq<nat>,
    toolsSeq: seq<nat>,
    active: set<ToolId>,
    idle: set<ToolId>,
    disabled: set<ToolId>)

  /** A freshly constructed layer record. */
  const EmptyLayer := Layer(0, 0.0, 0.0, None, None, [], [], {}, {}, {})

  /** Ring radii per tool: anchoring brim and steady-state band. */
  datatype Radii = Radii(brim: map<ToolId, seq<real>>, band: map<ToolId, seq<real>>)

  datatype PrimeTower = PrimeTower(layers: seq<Layer>, changes: seq<ToolChange>, radii: Radii)

  datatype Error =
    | ToolNotActive(tool: ToolId, layer: int)   // GCodeSerializeException in gcode_print_shape
    | UnknownTool(tool: ToolId)                 // KeyError on the radius tables
    | EmptyShape                                // vertices[0] of an empty vertex list
    | EmptyBlock                                // head of an empty instruction list
    | NoToolForInwardRings                      // inward brim loop with no tool in layer 0
    | BlockMarkerWithoutTool(at: Marker)        // block marker before any tool change
    | BlockMarkerMismatch(at: Marker)           // block marker names another tool
    | LayerTooHigh(at: Marker)                  // layer height above the toolset maximum
    | MissingZ(at: Marker)                      // move-out where Z is not set
    | MissingMarker(layer: int, entry: nat)     // injection point is None

  /** Every reference held by layer `l` is an index of the change table. */
  predicate LayerRefsValid(l: Layer, n: nat) {
    && (forall j :: 0 <= j < |l.changeSeq| ==> l.changeSeq[j] < n)
    && (forall j :: 0 <= j < |l.toolsSeq| ==> l.toolsSeq[j] < n)
  }

  predicate RefsValid(changes: seq<ToolChange>, ls: seq<Layer>) {
    forall i :: 0 <= i < |ls| ==> LayerRefsValid(ls[i], |changes|)
  }

  /** Every marker of the layer and of the change table is a token index. */
  predicate MarkersWithin(changes: seq<ToolChange>, l: Layer, n: nat) {
    && (l.start.Some? ==> l.start.value < n)
    && (l.end.Some? ==> l.end.value < n)
    && (forall j :: 0 <= j < |changes| ==> changes[j].blockStart.Some? ==> changes[j].blockStart.value < n)
    && (forall j :: 0 <= j < |changes| ==> changes[j].blockEnd.Some? ==> changes[j].blockEnd.value < n)
  }

  /** The tower's references and markers all point into its tables and
      the token list. */
  predicate WellFormed(t: PrimeTower, n: nat) {
    && RefsValid(t.changes, t.layers)
    && forall i :: 0 <= i < |t.layers| ==> MarkersWithin(t.changes, t.layers[i], n)
  }

  /** Layer numbers equal positions. */
  predicate Numbered(ls: seq<Layer>) {
    forall i :: 0 <= i < |ls| ==> ls[i].num == i
  }

  /** A single active tool and no idle one: the tower is not needed any
      more and neither injection nor the optimizer go past this layer. */
  predicate Terminal(l: Layer) {
    |l.active| == 1 && |l.idle| == 0
  }

  /** Tool ids of a list of change references, in order. */
  function ToolIds(changes: seq<ToolChange>, refs: seq<nat>): (ids: seq<ToolId>)
    requires forall j :: 0 <= j < |refs| ==> refs[j] < |changes|
    ensures |ids| == |refs|
    ensures forall j :: 0 <= j < |refs| ==> ids[j] == changes[refs[j]].toolId
  {
    seq(|refs|, j requires 0 <= j < |refs| => changes[refs[j]].toolId)
  }

  function Elems<T>(s: seq<T>): set<T> {
    set x | x in s
  }

  lemma ElemsSnoc<T>(s: seq<T>)
    requires |s| > 0
    ensures Elems(s) == Elems(s[..|s| - 1]) + {s[|s| - 1]}
  {
    assert s == s[..|s| - 1] + [s[|s| - 1]];
  }

  /** Set of tool ids touched by a list of change references. */
  function ToolSet(changes: seq<ToolChange>, refs: seq<nat>): set<ToolId>
    requires forall j :: 0 <= j < |refs| ==> refs[j] < |changes|
  {
    Elems(ToolIds(changes, refs))
  }

  function Last<T>(s: seq<T>): T
    requires |s| > 0
  {
    s[|s| - 1]
  }

  /** `s` with its last element replaced by `x`. */
  function SetLast<T>(s: seq<T>, x: T): (r: seq<T>)
    requires |s| > 0
    ensures |r| == |s| && r[..|s| - 1] == s[..|s| - 1] && Last(r) == x
  {
    s[..|s| - 1] + [x]
  }

  /** Concatenation of the chronological change lists of `ls`. */
  function Flatten(ls: seq<Layer>): seq<nat>
  {
    if |ls| == 0 then [] else Flatten(ls[..|ls| - 1]) + Last(ls).changeSeq
  }

  /** Flatten only looks at the change lists. */
  lemma {:induction false} FlattenSameChanges(a: seq<Layer>, b: seq<Layer>)
    requires |a| == |b| && forall i :: 0 <= i < |a| ==> a[i].changeSeq == b[i].changeSeq
    ensures Flatten(a) == Flatten(b)
    decreases |a|
  {
    if |a| > 0 {
      FlattenSameChanges(a[..|a| - 1], b[..|b| - 1]);
    }
  }

  lemma {:induction false} FlattenAppend(a: seq<Layer>, b: seq<Layer>)
    ensures Flatten(a + b) == Flatten(a) + Flatten(b)
    decreases |b|
  {
    if |b| == 0 {
      assert a + b == a;
    } else {
      assert (a + b)[..|a + b| - 1] == a + b[..|b| - 1];
      FlattenAppend(a, b[..|b| - 1]);
    }
  }

  /** The integers lo, lo+1, ..., hi-1. */
  function Range(lo: nat, hi: nat): (r: seq<nat>)
    requires lo <= hi
    ensures |r| == hi - lo
    ensures forall k :: 0 <= k < |r| ==> r[k] == lo + k
  {
    seq(hi - lo, k requires 0 <= k < hi - lo => lo + k)
  }

  // ---------------------------------------------------------------------
  // Ascending order of a finite set of tool ids (Python's `sorted(set)`)

  lemma NonEmpty(s: set<ToolId>)
    requires |s| > 0
    ensures exists y :: y in s
  {
    if forall y :: y !in s {
      assert false;
    }
  }

  predicate IsMin(m: ToolId, s: set<ToolId>) {
    m in s && forall x | x in s :: m <= x
  }

  lemma MinOfInsert(y: ToolId, m: ToolId, s: set<ToolId>)
    requires IsMin(m, s - {y}) && y in s
    ensures IsMin(if y < m then y else m, s)
  {
    forall x | x in s ensures (if y < m then y else m) <= x {
      if x != y {
        assert x in s - {y};
      }
    }
  }

  lemma Singleton(y: ToolId, s: set<ToolId>)
    requires y in s && |s| == 1
    ensures IsMin(y, s)
  {
    var rest := s - {y};
    assert |rest| == 0;
    assert s == rest + {y};
  }

  lemma {:induction false} MinExists(s: set<ToolId>)
    requires |s| > 0
    ensures exists m :: IsMin(m, s)
    decreases |s|
  {
    NonEmpty(s);
    var y :| y in s;
    if |s| > 1 {
      var rest := s - {y};
      assert |rest| == |s| - 1;
      MinExists(rest);
      var m :| IsMin(m, rest);
      MinOfInsert(y, m, s);
    } else {
      Singleton(y, s);
    }
  }

  function MinOf(s: set<ToolId>): (m: ToolId)
    requires |s| > 0
    ensures IsMin(m, s)
  {
    MinExists(s);
    var m :| IsMin(m, s);
    m
  }

  predicate Ascending(r: seq<ToolId>) {
    forall i, j :: 0 <= i < j < |r| ==> r[i] < r[j]
  }

  lemma EmptySet(s: set<ToolId>)
    requires |s| == 0
    ensures s == {}
  {
    if s != {} {
      NonEmpty(s);
    }
  }

  lemma AscendingCons(m: ToolId, s: set<ToolId>, rest: seq<ToolId>)
    requires IsMin(m, s) && Elems(rest) == s - {m} && Ascending(rest)
    ensures Elems([m] + rest) == s && Ascending([m] + rest)
  {
    assert Elems([m] + rest) == {m} + Elems(rest);
    forall j | 0 <= j < |rest| ensures m < rest[j] {
      assert rest[j] in Elems(rest);
    }
  }

  /** The elements of `s` in strictly ascending order. */
  function SortedElems(s: set<ToolId>): (r: seq<ToolId>)
    ensures Elems(r) == s
    ensures Ascending(r)
    ensures |r| == |s|
    decreases |s|
  {
    if |s| == 0 then
      EmptySet(s);
      []
    else
      var m := MinOf(s);
      var rest := SortedElems(s - {m});
      AscendingCons(m, s, rest);
      [m] + rest
  }
}

=== FILE: transitions.dfy ===
/** The moves that take the nozzle from an injection point into the prime
    tower and back (inject_prime_tower_move_in, inject_prime_tower_move_out).

    The tower code for one tool change is spliced into the print right after
    a marker token whose annotated state is `s`. Move-in puts the nozzle at
    the tower layer's height with the filament primed; move-out restores the
    position, height, feed rate and retraction state of `s`, so the print
    continues as if nothing had been inserted. `RoundTrip` states exactly
    that, over the abstract machine `GCode.Run`. */
module Transitions {
  import opened Wrappers
  import opened GCode
  import opened Conf
  import opened Tower

  /** The height the first tower move must happen at from state `s`:
      never below the tower layer, and never below the current height. */
  function SafeZ(s: MachineState, lz: real): real {
    if s.z.None? || s.z.value < lz then lz else s.z.value
  }

  /** What move-in puts left of the band's first move, in this order. */
  function MoveInBefore(c: Config, l: Layer, s: MachineState): seq<Instr> {
    OptInstr(s.z.None? || s.z.value < l.z, MoveZ(l.z))
    + OptInstr(s.retraction == Unretracted, Retract)
    + [Feed(c.moveSpeed)]
  }

  /** What move-in puts right of the band's first move: right inserts are
      placed next to the anchor, so they come out in reverse order. */
  function MoveInAfter(l: Layer, s: MachineState): seq<Instr> {
    OptInstr(s.retraction != UnknownRetraction, Detract)
    + OptInstr(s.z.Some? && s.z.value > l.z, MoveZ(l.z))
  }

  function B2N(b: bool): nat {
    if b then 1 else 0
  }

  /** Wraps a band with the move into the tower: a height change done
      before the first move when the tower is higher (or the height is
      unknown) and after it when the tower is lower, a retraction for the
      travel if the filament was primed, and a detraction after it whenever
      the retraction state is known. An empty band has no first move. */
  function MoveIn(c: Config, l: Layer, s: MachineState, band: seq<Instr>): (r: Result<seq<Instr>, Error>)
    ensures r.Failure? <==> |band| == 0
    ensures r.Failure? ==> r.error == EmptyBlock
    ensures r.Success? ==>
      && |r.value| == |band| + |MoveInBefore(c, l, s)| + |MoveInAfter(l, s)|
      && r.value[|MoveInBefore(c, l, s)|] == band[0]
      && r.value[|r.value| - (|band| - 1)..] == band[1..]
      && Count(r.value, MoveZ(l.z)) == Count(band, MoveZ(l.z)) + B2N(s.z != Some(l.z))
      && Count(r.value, Retract) == Count(band, Retract) + B2N(s.retraction == Unretracted)
      && Count(r.value, Detract) == Count(band, Detract) + B2N(s.retraction != UnknownRetraction)
      && Count(r.value, Feed(c.moveSpeed)) == Count(band, Feed(c.moveSpeed)) + 1
      && Path(r.value) == Path(band)
  {
    if |band| == 0 then Failure(EmptyBlock)
    else
      var pre := MoveInBefore(c, l, s);
      var post := MoveInAfter(l, s);
      var code := pre + [band[0]] + post + band[1..];
      MoveInCounts(c, l, s, band);
      MoveInPath(c, l, s, band);
      assert code[|pre|] == band[0];
      assert code[|code| - (|band| - 1)..] == band[1..];
      Success(code)
  }

  /** Move-in adds no point to the band's path. */
  lemma MoveInPath(c: Config, l: Layer, s: MachineState, band: seq<Instr>)
    requires |band| > 0
    ensures Path(MoveInBefore(c, l, s) + [band[0]] + MoveInAfter(l, s) + band[1..]) == Path(band)
  {
    MoveInStationary(c, l, s);
    assert band == [band[0]] + band[1..];
    PathAround(MoveInBefore(c, l, s), band[0], MoveInAfter(l, s), band[1..]);
  }

  lemma MoveInStationary(c: Config, l: Layer, s: MachineState)
    ensures Stationary(MoveInBefore(c, l, s)) && Stationary(MoveInAfter(l, s))
    ensures Path(MoveInBefore(c, l, s)) == [] && Path(MoveInAfter(l, s)) == []
  {
    var zl := OptInstr(s.z.None? || s.z.value < l.z, MoveZ(l.z));
    var rl := OptInstr(s.retraction == Unretracted, Retract);
    var dl := OptInstr(s.retraction != UnknownRetraction, Detract);
    var zr := OptInstr(s.z.Some? && s.z.value > l.z, MoveZ(l.z));
    assert Stationary(zl + rl + [Feed(c.moveSpeed)]);
    assert Stationary(dl + zr);
    PathStationary(zl + rl + [Feed(c.moveSpeed)]);
    PathStationary(dl + zr);
  }

  /** Instructions that do not move, placed around `x`, leave the path
      alone. */
  lemma PathAround(pre: seq<Instr>, x: Instr, post: seq<Instr>, rest: seq<Instr>)
    requires Path(pre) == [] && Path(post) == []
    ensures Path(pre + [x] + post + rest) == Path([x] + rest)
  {
    PathAppend(pre + [x] + post, rest);
    PathAppend(pre + [x], post);
    PathAppend(pre, [x]);
    PathAppend([x], rest);
  }

  lemma MoveInCounts(c: Config, l: Layer, s: MachineState, band: seq<Instr>)
    requires |band| > 0
    ensures var code := MoveInBefore(c, l, s) + [band[0]] + MoveInAfter(l, s) + band[1..];
      && Count(code, MoveZ(l.z)) == Count(band, MoveZ(l.z)) + B2N(s.z != Some(l.z))
      && Count(code, Retract) == Count(band, Retract) + B2N(s.retraction == Unretracted)
      && Count(code, Detract) == Count(band, Detract) + B2N(s.retraction != UnknownRetraction)
      && Count(code, Feed(c.moveSpeed)) == Count(band, Feed(c.moveSpeed)) + 1
  {
    MoveInSplit(c, l, s, band, MoveZ(l.z));
    MoveInSplit(c, l, s, band, Retract);
    MoveInSplit(c, l, s, band, Detract);
    MoveInSplit(c, l, s, band, Feed(c.moveSpeed));
    AddedCounts(c, l, s);
  }

  lemma MoveInSplit(c: Config, l: Layer, s: MachineState, band: seq<Instr>, i: Instr)
    requires |band| > 0
    ensures var pre := MoveInBefore(c, l, s);
      var post := MoveInAfter(l, s);
      Count(pre + [band[0]] + post + band[1..], i) == Count(pre, i) + Count(post, i) + Count(band, i)
  {
    var pre := MoveInBefore(c, l, s);
    var post := MoveInAfter(l, s);
    CountAppend(pre + [band[0]] + post, band[1..], i);
    CountAppend(pre + [band[0]], post, i);
    CountAppend(pre, [band[0]], i);
    assert band == [band[0]] + band[1..];
    CountAppend([band[0]], band[1..], i);
  }

  /** The instructions move-in adds, counted by kind. */
  lemma AddedCounts(c: Config, l: Layer, s: MachineState)
    ensures var pre := MoveInBefore(c, l, s);
      var post := MoveInAfter(l, s);
      && Count(pre, MoveZ(l.z)) + Count(post, MoveZ(l.z)) == B2N(s.z != Some(l.z))
      && Count(pre, Retract) + Count(post, Retract) == B2N(s.retraction == Unretracted)
      && Count(pre, Detract) + Count(post, Detract) == B2N(s.retraction != UnknownRetraction)
      && Count(pre, Feed(c.moveSpeed)) + Count(post, Feed(c.moveSpeed)) == 1
  {
    AddedCount(c, l, s, MoveZ(l.z));
    AddedCount(c, l, s, Retract);
    AddedCount(c, l, s, Detract);
    AddedCount(c, l, s, Feed(c.moveSpeed));
  }

  lemma AddedCount(c: Config, l: Layer, s: MachineState, i: Instr)
    ensures Count(MoveInBefore(c, l, s), i)
         == B2N((s.z.None? || s.z.value < l.z) && i == MoveZ(l.z))
          + B2N(s.retraction == Unretracted && i == Retract)
          + B2N(i == Feed(c.moveSpeed))
    ensures Count(MoveInAfter(l, s), i)
         == B2N(s.retraction != UnknownRetraction && i == Detract)
          + B2N(s.z.Some? && s.z.value > l.z && i == MoveZ(l.z))
  {
    BeforeCount(c, l, s, i);
    AfterCount(l, s, i);
  }

  lemma BeforeCount(c: Config, l: Layer, s: MachineState, i: Instr)
    ensures Count(MoveInBefore(c, l, s), i)
         == B2N((s.z.None? || s.z.value < l.z) && i == MoveZ(l.z))
          + B2N(s.retraction == Unretracted && i == Retract)
          + B2N(i == Feed(c.moveSpeed))
  {
    var zl := OptInstr(s.z.None? || s.z.value < l.z, MoveZ(l.z));
    var rl := OptInstr(s.retraction == Unretracted, Retract);
    CountAppend(zl + rl, [Feed(c.moveSpeed)], i);
    CountAppend(zl, rl, i);
    CountOne(Feed(c.moveSpeed), i);
    OptCount(s.z.None? || s.z.value < l.z, MoveZ(l.z), i);
    OptCount(s.retraction == Unretracted, Retract, i);
  }

  lemma AfterCount(l: Layer, s: MachineState, i: Instr)
    ensures Count(MoveInAfter(l, s), i)
         == B2N(s.retraction != UnknownRetraction && i == Detract)
          + B2N(s.z.Some? && s.z.value > l.z && i == MoveZ(l.z))
  {
    var dl := OptInstr(s.retraction != UnknownRetraction, Detract);
    var zr := OptInstr(s.z.Some? && s.z.value > l.z, MoveZ(l.z));
    CountAppend(dl, zr, i);
    OptCount(s.retraction != UnknownRetraction, Detract, i);
    OptCount(s.z.Some? && s.z.value > l.z, MoveZ(l.z), i);
  }

  /** The one-instruction sequence `[x]` when `b` holds, else nothing. */
  function OptInstr(b: bool, x: Instr): (r: seq<Instr>)
    ensures |r| == B2N(b)
  {
    if b then [x] else []
  }

  lemma OptCount(b: bool, x: Instr, i: Instr)
    ensures Count(OptInstr(b, x), i) == B2N(b && x == i)
  {
    if b {
      CountOne(x, i);
    }
  }

  /** The travel back to the marker's position, ordered so that it happens
      at the higher of the marker's and the tower layer's heights. */
  function Reposition(l: Layer, z: real, p: Point): seq<Instr> {
    if z < l.z then [Travel(p), MoveZ(z)]
    else if z > l.z then [MoveZ(z), Travel(p)]
    else [Travel(p)]
  }

  /** What move-out appends after a marker that is not BEFORE_LAYER_CHANGE
      and whose height is known. */
  function ReturnMoves(c: Config, l: Layer, s: MachineState): seq<Instr>
    requires s.z.Some?
  {
    [Retract] + ReturnMiddle(c, l, s) + OptInstr(s.retraction == Unretracted, Detract)
  }

  /** Appends the move back to the marker `m` (token `tok`). Before a layer
      change the next layer's own moves take the nozzle away, so only the
      retraction state is restored; a marker with unknown height is an
      error. The code built so far is never altered. */
  function MoveOut(c: Config, l: Layer, m: Marker, tok: Token, code: seq<Instr>): (r: Result<seq<Instr>, Error>)
    ensures r.Failure? <==> tok.post.z.None?
    ensures r.Failure? ==> r.error == MissingZ(m)
    ensures r.Success? ==> |r.value| >= |code| && r.value[..|code|] == code
    ensures r.Success? && IsBeforeLayerChange(tok) ==>
      r.value[|code|..] == (if tok.post.retraction == Retracted then [Retract] else [])
    ensures r.Success? && !IsBeforeLayerChange(tok) ==>
      var added := r.value[|code|..];
      && |added| > 0 && added[0] == Retract
      && (tok.post.retraction == Unretracted <==> Last(added) == Detract)
      && Count(added, Retract) == 1
      && Path(added) == (if tok.post.x.Some? && tok.post.y.Some?
                         then [Point(tok.post.x.value, tok.post.y.value)] else [])
    ensures r.Success? ==> forall k :: |code| <= k < |r.value| ==> !r.value[k].Extrude?
  {
    var s := tok.post;
    if s.z.None? then Failure(MissingZ(m))
    else if IsBeforeLayerChange(tok) then
      var added := OptInstr(s.retraction == Retracted, Retract);
      assert (code + added)[|code|..] == added;
      Success(code + added)
    else
      var added := ReturnMoves(c, l, s);
      ReturnMovesFacts(c, l, s);
      ReturnNoExtrude(c, l, s);
      assert (code + added)[|code|..] == added;
      Success(code + added)
  }

  lemma ReturnMovesFacts(c: Config, l: Layer, s: MachineState)
    requires s.z.Some?
    ensures var added := ReturnMoves(c, l, s);
      && |added| > 0 && added[0] == Retract
      && (s.retraction == Unretracted <==> Last(added) == Detract)
      && Count(added, Retract) == 1
      && Path(added) == (if s.x.Some? && s.y.Some? then [Point(s.x.value, s.y.value)] else [])
  {
    ReturnMovesCount(c, l, s);
    ReturnMovesPath(c, l, s);
  }

  /** Move-out never extrudes. */
  lemma ReturnNoExtrude(c: Config, l: Layer, s: MachineState)
    requires s.z.Some?
    ensures forall k :: 0 <= k < |ReturnMoves(c, l, s)| ==> !ReturnMoves(c, l, s)[k].Extrude?
  {
    var mid := ReturnMiddle(c, l, s);
    var tail := OptInstr(s.retraction == Unretracted, Detract);
    assert ReturnMoves(c, l, s) == [Retract] + mid + tail;
    assert forall k :: 0 <= k < |mid| ==> !mid[k].Extrude?;
  }

  /** The part of the return between the retraction and the detraction. */
  function ReturnMiddle(c: Config, l: Layer, s: MachineState): seq<Instr>
    requires s.z.Some?
  {
    if s.x.Some? && s.y.Some?
    then [Feed(c.moveSpeed)] + Reposition(l, s.z.value, Point(s.x.value, s.y.value)) + [Feed(s.feedRate)]
    else []
  }

  lemma ReturnMovesCount(c: Config, l: Layer, s: MachineState)
    requires s.z.Some?
    ensures Count(ReturnMoves(c, l, s), Retract) == 1
  {
    var mid := ReturnMiddle(c, l, s);
    var tail := OptInstr(s.retraction == Unretracted, Detract);
    assert ReturnMoves(c, l, s) == [Retract] + mid + tail;
    MiddleNoRetract(c, l, s);
    OptCount(s.retraction == Unretracted, Detract, Retract);
    CountAppend([Retract] + mid, tail, Retract);
    CountAppend([Retract], mid, Retract);
    CountOne(Retract, Retract);
  }

  /** The return's middle part is moves and feed changes only. */
  lemma MiddleNoRetract(c: Config, l: Layer, s: MachineState)
    requires s.z.Some?
    ensures Count(ReturnMiddle(c, l, s), Retract) == 0
  {
    var mid := ReturnMiddle(c, l, s);
    if s.x.Some? && s.y.Some? {
      var rep := Reposition(l, s.z.value, Point(s.x.value, s.y.value));
      assert Retract !in rep;
      assert mid == [Feed(c.moveSpeed)] + rep + [Feed(s.feedRate)];
      assert Retract !in mid;
    }
  }

  lemma ReturnMovesPath(c: Config, l: Layer, s: MachineState)
    requires s.z.Some?
    ensures Path(ReturnMoves(c, l, s)) == (if s.x.Some? && s.y.Some? then [Point(s.x.value, s.y.value)] else [])
  {
    var mid := ReturnMiddle(c, l, s);
    var tail := OptInstr(s.retraction == Unretracted, Detract);
    assert ReturnMoves(c, l, s) == [Retract] + mid + tail;
    PathAppend([Retract] + mid, tail);
    PathAppend([Retract], mid);
    PathOne(Retract);
    PathOne(Detract);
    assert Path(tail) == [];
    if s.x.Some? && s.y.Some? {
      var p := Point(s.x.value, s.y.value);
      var rp := Reposition(l, s.z.value, p);
      PathAppend([Feed(c.moveSpeed)] + rp, [Feed(s.feedRate)]);
      PathAppend([Feed(c.moveSpeed)], rp);
      PathOne(Feed(c.moveSpeed));
      PathOne(Feed(s.feedRate));
      PathOne(Travel(p));
      PathOne(MoveZ(s.z.value));
      if s.z.value < l.z {
        assert rp == [Travel(p)] + [MoveZ(s.z.value)];
        PathAppend([Travel(p)], [MoveZ(s.z.value)]);
      } else if s.z.value > l.z {
        assert rp == [MoveZ(s.z.value)] + [Travel(p)];
        PathAppend([MoveZ(s.z.value)], [Travel(p)]);
      }
    } else {
      assert Path(mid) == [];
    }
  }

  /** The return trip mirrors the way in: off a layer change and with the
      marker's position known, move-out switches to the travel feed rate
      right after its retraction, travels to the marker's position at the
      higher of the marker's and the tower layer's heights (from a nozzle
      at the tower layer's height), changes height at most once and only to
      the marker's height, and only when the two heights differ, and
      restores the marker's feed rate as its last move-related
      instruction. */
  lemma MoveOutOrder(c: Config, l: Layer, m: Marker, tok: Token, code: seq<Instr>, u: MachineState)
    requires tok.post.z.Some? && tok.post.x.Some? && tok.post.y.Some?
    requires !IsBeforeLayerChange(tok) && u.z == Some(l.z)
    ensures MoveOut(c, l, m, tok, code).Success?
    ensures var s := tok.post;
      var added := MoveOut(c, l, m, tok, code).value[|code|..];
      && |added| >= 4 && added[1] == Feed(c.moveSpeed)
      && added[|added| - 1 - B2N(s.retraction == Unretracted)] == Feed(s.feedRate)
      && Count(added, MoveZ(s.z.value)) == B2N(s.z.value != l.z)
      && ZMovesTo(added, s.z.value)
      && (exists i :: 2 <= i < |added| && added[i] == Travel(Point(s.x.value, s.y.value))
                      && Run(u, added[..i]).z == Some(SafeZ(s, l.z))
                      && Run(u, added[..i]).feedRate == c.moveSpeed)
  {
    var s := tok.post;
    assert MoveOut(c, l, m, tok, code).value[|code|..] == ReturnMoves(c, l, s);
    ReturnOrder(c, l, s, u);
  }

  /** Every height change of `code` goes to `z`. */
  predicate ZMovesTo(code: seq<Instr>, z: real) {
    forall k :: 0 <= k < |code| && code[k].MoveZ? ==> code[k] == MoveZ(z)
  }

  lemma ReturnOrder(c: Config, l: Layer, s: MachineState, u: MachineState)
    requires s.z.Some? && s.x.Some? && s.y.Some? && u.z == Some(l.z)
    ensures var added := ReturnMoves(c, l, s);
      && |added| >= 4 && added[1] == Feed(c.moveSpeed)
      && added[|added| - 1 - B2N(s.retraction == Unretracted)] == Feed(s.feedRate)
      && Count(added, MoveZ(s.z.value)) == B2N(s.z.value != l.z)
      && ZMovesTo(added, s.z.value)
      && (exists i :: 2 <= i < |added| && added[i] == Travel(Point(s.x.value, s.y.value))
                      && Run(u, added[..i]).z == Some(SafeZ(s, l.z))
                      && Run(u, added[..i]).feedRate == c.moveSpeed)
  {
    var z := s.z.value;
    var p := Point(s.x.value, s.y.value);
    var tail := OptInstr(s.retraction == Unretracted, Detract);
    var lit := [Retract, Feed(c.moveSpeed)] + Reposition(l, z, p) + [Feed(s.feedRate)];
    var added := ReturnMoves(c, l, s);
    ReturnSplit(c, l, s);
    var i := if z > l.z then 3 else 2;
    ReturnLiteral(c, l, s, u);
    TailAppend(lit, tail, z, Feed(s.feedRate), i);
    assert added[..i] == lit[..i] && added[i] == Travel(p);
  }

  lemma ReturnSplit(c: Config, l: Layer, s: MachineState)
    requires s.z.Some? && s.x.Some? && s.y.Some?
    ensures ReturnMoves(c, l, s)
         == [Retract, Feed(c.moveSpeed)] + Reposition(l, s.z.value, Point(s.x.value, s.y.value)) + [Feed(s.feedRate)]
            + OptInstr(s.retraction == Unretracted, Detract)
  {
  }

  /** The return without its final detraction, case by case. */
  lemma ReturnLiteral(c: Config, l: Layer, s: MachineState, u: MachineState)
    requires s.z.Some? && s.x.Some? && s.y.Some? && u.z == Some(l.z)
    ensures var z := s.z.value;
      var p := Point(s.x.value, s.y.value);
      var lit := [Retract, Feed(c.moveSpeed)] + Reposition(l, z, p) + [Feed(s.feedRate)];
      var i := if z > l.z then 3 else 2;
      && |lit| >= 4 && lit[1] == Feed(c.moveSpeed) && Last(lit) == Feed(s.feedRate)
      && Count(lit, MoveZ(z)) == B2N(z != l.z)
      && ZMovesTo(lit, z)
      && i < |lit| && lit[i] == Travel(p)
      && Run(u, lit[..i]).z == Some(SafeZ(s, l.z))
      && Run(u, lit[..i]).feedRate == c.moveSpeed
  {
    if s.z.value > l.z {
      ReturnHigh(c, l, s, u);
    } else {
      ReturnLow(c, l, s, u);
    }
  }

  lemma ReturnHigh(c: Config, l: Layer, s: MachineState, u: MachineState)
    requires s.z.Some? && s.x.Some? && s.y.Some? && s.z.value > l.z
    ensures var z := s.z.value;
      var p := Point(s.x.value, s.y.value);
      var lit := [Retract, Feed(c.moveSpeed)] + Reposition(l, z, p) + [Feed(s.feedRate)];
      && |lit| >= 4 && lit[1] == Feed(c.moveSpeed) && Last(lit) == Feed(s.feedRate)
      && Count(lit, MoveZ(z)) == 1
      && ZMovesTo(lit, z)
      && lit[3] == Travel(p)
      && Run(u, lit[..3]).z == Some(z)
      && Run(u, lit[..3]).feedRate == c.moveSpeed
  {
    var z := s.z.value;
    var p := Point(s.x.value, s.y.value);
    assert [Retract, Feed(c.moveSpeed)] + Reposition(l, z, p) + [Feed(s.feedRate)]
        == [Retract, Feed(c.moveSpeed), MoveZ(z), Travel(p), Feed(s.feedRate)];
    ClimbFirst(c.moveSpeed, z, p, s.feedRate, u);
  }

  lemma ReturnLow(c: Config, l: Layer, s: MachineState, u: MachineState)
    requires s.z.Some? && s.x.Some? && s.y.Some? && s.z.value <= l.z
    ensures var z := s.z.value;
      var p := Point(s.x.value, s.y.value);
      var lit := [Retract, Feed(c.moveSpeed)] + Reposition(l, z, p) + [Feed(s.feedRate)];
      && |lit| >= 4 && lit[1] == Feed(c.moveSpeed) && Last(lit) == Feed(s.feedRate)
      && Count(lit, MoveZ(z)) == B2N(z != l.z)
      && ZMovesTo(lit, z)
      && lit[2] == Travel(p)
      && Run(u, lit[..2]).z == u.z
      && Run(u, lit[..2]).feedRate == c.moveSpeed
  {
    var z := s.z.value;
    TravelFirst(c.moveSpeed, z, Point(s.x.value, s.y.value), s.feedRate, u, Reposition(l, z, Point(s.x.value, s.y.value)), z < l.z);
  }

  lemma ClimbFirst(ms: real, z: real, p: Point, f: real, u: MachineState)
    ensures var lit := [Retract, Feed(ms), MoveZ(z), Travel(p), Feed(f)];
      && Count(lit, MoveZ(z)) == 1
      && ZMovesTo(lit, z)
      && lit[..3] == [Retract, Feed(ms), MoveZ(z)]
      && Run(u, lit[..3]).z == Some(z) && Run(u, lit[..3]).feedRate == ms
  {
    var lit := [Retract, Feed(ms), MoveZ(z), Travel(p), Feed(f)];
    assert multiset(lit) == multiset{Retract, Feed(ms), MoveZ(z), Travel(p), Feed(f)};
    assert lit[..3] == [Retract, Feed(ms), MoveZ(z)];
    RunThree(u, Retract, Feed(ms), MoveZ(z));
  }

  lemma TravelFirst(ms: real, z: real, p: Point, f: real, u: MachineState, rp: seq<Instr>, below: bool)
    requires rp == if below then [Travel(p), MoveZ(z)] else [Travel(p)]
    ensures var lit := [Retract, Feed(ms)] + rp + [Feed(f)];
      && Count(lit, MoveZ(z)) == B2N(below)
      && ZMovesTo(lit, z)
      && lit[..2] == [Retract, Feed(ms)] && lit[2] == Travel(p)
      && Run(u, lit[..2]).z == u.z && Run(u, lit[..2]).feedRate == ms
  {
    RunTwo(u, Retract, Feed(ms));
    if below {
      assert [Retract, Feed(ms)] + rp + [Feed(f)] == [Retract, Feed(ms), Travel(p), MoveZ(z), Feed(f)];
      TravelThenClimb(ms, z, p, f);
    } else {
      assert [Retract, Feed(ms)] + rp + [Feed(f)] == [Retract, Feed(ms), Travel(p), Feed(f)];
      TravelOnly(ms, z, p, f);
    }
  }

  lemma TravelThenClimb(ms: real, z: real, p: Point, f: real)
    ensures var lit := [Retract, Feed(ms), Travel(p), MoveZ(z), Feed(f)];
      Count(lit, MoveZ(z)) == 1 && ZMovesTo(lit, z) && lit[..2] == [Retract, Feed(ms)]
  {
    var lit := [Retract, Feed(ms), Travel(p), MoveZ(z), Feed(f)];
    assert multiset(lit) == multiset{Retract, Feed(ms), Travel(p), MoveZ(z), Feed(f)};
  }

  lemma TravelOnly(ms: real, z: real, p: Point, f: real)
    ensures var lit := [Retract, Feed(ms), Travel(p), Feed(f)];
      Count(lit, MoveZ(z)) == 0 && ZMovesTo(lit, z) && lit[..2] == [Retract, Feed(ms)]
  {
    var lit := [Retract, Feed(ms), Travel(p), Feed(f)];
    assert multiset(lit) == multiset{Retract, Feed(ms), Travel(p), Feed(f)};
  }

  /** A tail of at most one detraction keeps the return's height changes,
      its front part and what precedes its last feed change. */
  lemma TailAppend(lit: seq<Instr>, tail: seq<Instr>, z: real, f: Instr, i: nat)
    requires |lit| > 1 && Last(lit) == f && ZMovesTo(lit, z) && i < |lit|
    requires tail == [] || tail == [Detract]
    ensures Count(lit + tail, MoveZ(z)) == Count(lit, MoveZ(z))
    ensures ZMovesTo(lit + tail, z)
    ensures (lit + tail)[|lit + tail| - 1 - |tail|] == f
    ensures (lit + tail)[..i] == lit[..i] && (lit + tail)[i] == lit[i] && (lit + tail)[1] == lit[1]
  {
    CountAppend(lit, tail, MoveZ(z));
    if tail == [Detract] {
      CountOne(Detract, MoveZ(z));
    }
  }

  lemma RunThree(s: MachineState, i: Instr, j: Instr, k: Instr)
    ensures Run(s, [i, j, k]) == Exec(Exec(Exec(s, i), j), k)
  {
    assert [i, j, k][1..] == [j, k];
    RunTwo(Exec(s, i), j, k);
  }

  /** After the instructions move-in puts before the band's first move and
      that move itself, the nozzle is at the band's first point, at the
      higher of the marker's and the layer's heights, at the travel feed
      rate, and retracted whenever it had been primed. */
  lemma ArriveAtTower(c: Config, l: Layer, s: MachineState, band: seq<Instr>)
    requires |band| > 0 && Plain(band)
    ensures var t := Run(s, MoveInBefore(c, l, s) + [band[0]]);
      && t.z == Some(SafeZ(s, l.z))
      && t.retraction == (if s.retraction == Unretracted then Retracted else s.retraction)
      && (band[0].Travel? ==>
            t.x == Some(band[0].to.x) && t.y == Some(band[0].to.y) && t.feedRate == c.moveSpeed)
  {
    var zpart := if s.z.None? || s.z.value < l.z then [MoveZ(l.z)] else [];
    var rpart := if s.retraction == Unretracted then [Retract] else [];
    assert MoveInBefore(c, l, s) + [band[0]] == zpart + rpart + [Feed(c.moveSpeed), band[0]];
    RunAppend(s, zpart + rpart, [Feed(c.moveSpeed), band[0]]);
    RunAppend(s, zpart, rpart);
    if |zpart| > 0 {
      RunOne(s, MoveZ(l.z));
    }
    if |rpart| > 0 {
      RunOne(Run(s, zpart), Retract);
    }
    assert band[0].Travel? || band[0].Feed? || band[0].Extrude?;
    RunTwo(Run(s, zpart + rpart), Feed(c.moveSpeed), band[0]);
  }

  /** Once the move-in is complete, the machine is at the tower layer's
      height and primed (when the marker's retraction state was known). */
  lemma MoveInLands(c: Config, l: Layer, s: MachineState, band: seq<Instr>)
    requires |band| > 0 && Plain(band) && s.retraction != UnknownRetraction
    ensures MoveIn(c, l, s, band).Success?
    ensures Run(s, MoveIn(c, l, s, band).value).z == Some(l.z)
    ensures Run(s, MoveIn(c, l, s, band).value).retraction == Unretracted
  {
    assert MoveIn(c, l, s, band).value
        == MoveInBefore(c, l, s) + [band[0]] + MoveInAfter(l, s) + band[1..];
    MoveInPartsLand(c, l, s, band);
  }

  /** The same, stated on move-in's three parts: what goes before the
      band's first move, that move, what goes after it, and the rest of the
      band. */
  lemma MoveInPartsLand(c: Config, l: Layer, s: MachineState, band: seq<Instr>)
    requires |band| > 0 && Plain(band) && s.retraction != UnknownRetraction
    ensures var code := MoveInBefore(c, l, s) + [band[0]] + MoveInAfter(l, s) + band[1..];
            Run(s, code).z == Some(l.z) && Run(s, code).retraction == Unretracted
  {
    var head := MoveInBefore(c, l, s) + [band[0]];
    var post := MoveInAfter(l, s);
    var rest := band[1..];
    ArriveAtTower(c, l, s, band);
    var t := Run(s, head);
    var u := Run(t, post);
    LeaveAnchor(l, s, t);
    RunAppend(s, head, post);
    assert Run(s, head + post) == u;
    RunAppend(s, head + post, rest);
    assert Plain(rest);
    RunPlain(u, rest);
  }

  /** The instructions after the anchor bring the nozzle down to the layer
      and prime it. */
  lemma LeaveAnchor(l: Layer, s: MachineState, t: MachineState)
    requires s.retraction != UnknownRetraction && t.z == Some(SafeZ(s, l.z))
    ensures Run(t, MoveInAfter(l, s)).z == Some(l.z)
    ensures Run(t, MoveInAfter(l, s)).retraction == Unretracted
  {
    if s.z.Some? && s.z.value > l.z {
      assert MoveInAfter(l, s) == [Detract, MoveZ(l.z)];
      RunTwo(t, Detract, MoveZ(l.z));
    } else {
      assert MoveInAfter(l, s) == [Detract];
      RunOne(t, Detract);
    }
  }

  /** The travel back lands exactly on the marker's position and height. */
  lemma RepositionRun(l: Layer, z: real, p: Point, u: MachineState)
    requires u.z == Some(l.z)
    ensures Run(u, Reposition(l, z, p)) == u.(x := Some(p.x), y := Some(p.y), z := Some(z))
  {
    if z < l.z {
      RunTwo(u, Travel(p), MoveZ(z));
    } else if z > l.z {
      RunTwo(u, MoveZ(z), Travel(p));
    } else {
      RunOne(u, Travel(p));
    }
  }

  lemma MiddleRun(c: Config, l: Layer, s: MachineState, u: MachineState)
    requires s.z.Some? && u.z == Some(l.z)
    ensures var v := Run(u, ReturnMiddle(c, l, s));
      && v.retraction == u.retraction
      && (s.x.Some? && s.y.Some? ==> v.x == s.x && v.y == s.y && v.z == s.z && v.feedRate == s.feedRate)
      && (s.x.None? || s.y.None? ==> v == u)
  {
    if s.x.Some? && s.y.Some? {
      var p := Point(s.x.value, s.y.value);
      var rp := Reposition(l, s.z.value, p);
      RunAppend(u, [Feed(c.moveSpeed)] + rp, [Feed(s.feedRate)]);
      RunAppend(u, [Feed(c.moveSpeed)], rp);
      RunOne(u, Feed(c.moveSpeed));
      RepositionRun(l, s.z.value, p, Exec(u, Feed(c.moveSpeed)));
      RunOne(Run(u, [Feed(c.moveSpeed)] + rp), Feed(s.feedRate));
    }
  }

  /** The retraction state move-out leaves behind off a layer change: it
      retracts for the travel and detracts again only if the marker was
      primed, so a marker of unknown state is left retracted. */
  function Back(s: MachineState): Retraction {
    if s.retraction == Unretracted then Unretracted else Retracted
  }

  /** From the tower (at the layer's height), the return moves bring back
      the marker's position, height and feed rate when its position is
      known, and leave the filament as `Back` says. */
  lemma ReturnRun(c: Config, l: Layer, s: MachineState, t: MachineState)
    requires s.z.Some? && t.z == Some(l.z)
    ensures var f := Run(t, ReturnMoves(c, l, s));
      && f.retraction == Back(s)
      && (s.x.Some? && s.y.Some? ==> f == s.(retraction := Back(s)))
      && (s.x.None? || s.y.None? ==> f.z == Some(l.z))
  {
    var mid := ReturnMiddle(c, l, s);
    var tail := OptInstr(s.retraction == Unretracted, Detract);
    assert ReturnMoves(c, l, s) == [Retract] + mid + tail;
    RunAppend(t, [Retract] + mid, tail);
    RunAppend(t, [Retract], mid);
    RunOne(t, Retract);
    var u := Exec(t, Retract);
    MiddleRun(c, l, s, u);
    var v := Run(u, mid);
    if s.retraction == Unretracted {
      RunOne(v, Detract);
    }
  }

  /** The whole excursion: moving in, printing a plain band, printing idle
      tool bands that keep the height and never leave the filament
      retracted, and moving out. Off a layer change it restores the
      marker's complete machine state when its position is known, except
      that a marker of unknown retraction state is left retracted; before a
      layer change the nozzle is left at the tower layer's height, with the
      marker's retraction state when that was known. */
  lemma RoundTrip(c: Config, l: Layer, m: Marker, tok: Token, band: seq<Instr>, idle: seq<Instr>)
    requires tok.post.z.Some?
    requires |band| > 0 && Plain(band)
    requires ZNeutral(idle) && NoRetractAtEnd(idle)
    ensures MoveIn(c, l, tok.post, band).Success?
    ensures var out := MoveOut(c, l, m, tok, MoveIn(c, l, tok.post, band).value + idle);
      var s := tok.post;
      var f := Run(s, out.value);
      && out.Success?
      && (IsBeforeLayerChange(tok) ==>
            f.z == Some(l.z) && (s.retraction != UnknownRetraction ==> f.retraction == s.retraction))
      && (!IsBeforeLayerChange(tok) ==> f.retraction == Back(s))
      && (!IsBeforeLayerChange(tok) && s.x.Some? && s.y.Some? ==> f == s.(retraction := Back(s)))
      && (!IsBeforeLayerChange(tok) && (s.x.None? || s.y.None?) ==> f.z == Some(l.z))
  {
    var s := tok.post;
    MoveInHeight(c, l, s, band);
    var code := MoveIn(c, l, s, band).value;
    if s.retraction != UnknownRetraction {
      MoveInLands(c, l, s, band);
      IdleKeeps(s, code, idle, l.z);
    } else {
      RunAppend(s, code, idle);
      RunZNeutral(Run(s, code), idle);
    }
    MoveOutRestores(c, l, m, tok, code + idle);
  }

  /** Move-in always lands at the tower layer's height, whatever the
      marker's retraction state. */
  lemma MoveInHeight(c: Config, l: Layer, s: MachineState, band: seq<Instr>)
    requires |band| > 0 && Plain(band)
    ensures MoveIn(c, l, s, band).Success?
    ensures Run(s, MoveIn(c, l, s, band).value).z == Some(l.z)
  {
    assert MoveIn(c, l, s, band).value
        == MoveInBefore(c, l, s) + [band[0]] + MoveInAfter(l, s) + band[1..];
    MoveInPartsHeight(c, l, s, band);
  }

  lemma MoveInPartsHeight(c: Config, l: Layer, s: MachineState, band: seq<Instr>)
    requires |band| > 0 && Plain(band)
    ensures Run(s, MoveInBefore(c, l, s) + [band[0]] + MoveInAfter(l, s) + band[1..]).z == Some(l.z)
  {
    var head := MoveInBefore(c, l, s) + [band[0]];
    var post := MoveInAfter(l, s);
    var rest := band[1..];
    ArriveAtTower(c, l, s, band);
    var t := Run(s, head);
    LeaveAnchorZ(l, s, t);
    RunAppend(s, head, post);
    RunAppend(s, head + post, rest);
    assert Plain(rest);
    RunPlain(Run(t, post), rest);
  }

  lemma LeaveAnchorZ(l: Layer, s: MachineState, t: MachineState)
    requires t.z == Some(SafeZ(s, l.z))
    ensures Run(t, MoveInAfter(l, s)).z == Some(l.z)
  {
    var dl := OptInstr(s.retraction != UnknownRetraction, Detract);
    if s.z.Some? && s.z.value > l.z {
      assert MoveInAfter(l, s) == dl + [MoveZ(l.z)];
      RunSnoc(t, dl, MoveZ(l.z));
    } else {
      assert MoveInAfter(l, s) == dl;
      if |dl| > 0 {
        RunOne(t, Detract);
      }
    }
  }

  /** Z-neutral code that never leaves the filament retracted keeps the
      height and the primed state reached before it. */
  lemma IdleKeeps(s: MachineState, code: seq<Instr>, idle: seq<Instr>, z: real)
    requires Run(s, code).z == Some(z) && Run(s, code).retraction == Unretracted
    requires ZNeutral(idle) && NoRetractAtEnd(idle)
    ensures Run(s, code + idle).z == Some(z) && Run(s, code + idle).retraction == Unretracted
  {
    var t0 := Run(s, code);
    RunAppend(s, code, idle);
    RunZNeutral(t0, idle);
    RunUnretracted(t0, idle);
  }

  /** Move-out after code that ends at the tower height restores the
      marker's state as far as `RoundTrip` says; before a layer change the
      marker's retraction state comes back only if the code left the
      filament primed. */
  lemma MoveOutRestores(c: Config, l: Layer, m: Marker, tok: Token, code: seq<Instr>)
    requires tok.post.z.Some? && Run(tok.post, code).z == Some(l.z)
    requires tok.post.retraction != UnknownRetraction ==> Run(tok.post, code).retraction == Unretracted
    ensures var out := MoveOut(c, l, m, tok, code);
      var s := tok.post;
      var f := Run(s, out.value);
      && out.Success?
      && (IsBeforeLayerChange(tok) ==>
            f.z == Some(l.z) && (s.retraction != UnknownRetraction ==> f.retraction == s.retraction))
      && (!IsBeforeLayerChange(tok) ==> f.retraction == Back(s))
      && (!IsBeforeLayerChange(tok) && s.x.Some? && s.y.Some? ==> f == s.(retraction := Back(s)))
      && (!IsBeforeLayerChange(tok) && (s.x.None? || s.y.None?) ==> f.z == Some(l.z))
  {
    var s := tok.post;
    var t := Run(s, code);
    if IsBeforeLayerChange(tok) {
      var added := OptInstr(s.retraction == Retracted, Retract);
      assert MoveOut(c, l, m, tok, code).value == code + added;
      RunAppend(s, code, added);
      if s.retraction == Retracted {
        RunOne(t, Retract);
      }
    } else {
      assert MoveOut(c, l, m, tok, code).value == code + ReturnMoves(c, l, s);
      RunAppend(s, code, ReturnMoves(c, l, s));
      ReturnRun(c, l, s, t);
    }
  }
}

=== FILE: wrappers.dfy ===
/** Failure-compatible wrappers used throughout the model: an optional value
    (Python's `None`) and a result that either carries a value or the error
    that aborted the run (Python's raised exceptions). */
module Wrappers {

  datatype Option<+T> = None | Some(value: T)

  datatype Result<+T, +E> = Success(value: T) | Failure(error: E) {

    predicate IsFailure() {
      Failure?
    }

    function PropagateFailure<U>(): Result<U, E>
      requires Failure?
    {
      Failure(error)
    }

    function Extract(): T
      requires Success?
    {
      value
    }
  }

  /** Runs a sequence of steps in order and stops at the first failure
      (a loop whose body may raise). */
  function Collect<T, E>(rs: seq<Result<T, E>>): (r: Result<seq<T>, E>)
    ensures r.Success? <==> forall j :: 0 <= j < |rs| ==> rs[j].Success?
    ensures r.Success? ==> |r.value| == |rs| && forall j :: 0 <= j < |rs| ==> rs[j].value == r.value[j]
    ensures r.Failure? ==>
      exists j :: 0 <= j < |rs| && rs[j].Failure? && rs[j].error == r.error
                  && forall i :: 0 <= i < j ==> rs[i].Success?
    decreases |rs|
  {
    if |rs| == 0 then Success([])
    else if rs[0].Failure? then Failure(rs[0].error)
    else
      var rest := Collect(rs[1..]);
      if rest.Failure? then
        assert exists j :: 0 <= j < |rs| && rs[j].Failure? && rs[j].error == rest.error
                           && forall i :: 0 <= i < j ==> rs[i].Success? by {
          var j :| 0 <= j < |rs[1..]| && rs[1..][j].Failure? && rs[1..][j].error == rest.error
                   && forall i :: 0 <= i < j ==> rs[1..][i].Success?;
          assert rs[j + 1].Failure? && rs[j + 1].error == rest.error;
          assert forall i :: 0 <= i < j + 1 ==> rs[i].Success? by {
            forall i | 0 <= i < j + 1 ensures rs[i].Success? {
              if i > 0 {
                assert rs[i] == rs[1..][i - 1];
              }
            }
          }
        }
        Failure(rest.error)
      else
        assert forall j :: 1 <= j < |rs| ==> ([rs[0].value] + rest.value)[j] == rest.value[j - 1];
        Success([rs[0].value] + rest.value)
  }

  /** Runs a sequence of steps that each yield a list, stops at the first
      failure, and otherwise joins the lists in order. */
  function Concat<T, E>(rs: seq<Result<seq<T>, E>>): (r: Result<seq<T>, E>)
    ensures r.Success? <==> forall j :: 0 <= j < |rs| ==> rs[j].Success?
    ensures r.Failure? ==>
      exists j :: 0 <= j < |rs| && rs[j] == Failure(r.error)
                  && forall i :: 0 <= i < j ==> rs[i].Success?
    decreases |rs|
  {
    if |rs| == 0 then Success([])
    else if rs[0].Failure? then Failure(rs[0].error)
    else
      var rest := Concat(rs[1..]);
      if rest.Failure? then
        assert exists j :: 0 <= j < |rs| && rs[j] == Failure(rest.error)
                           && forall i :: 0 <= i < j ==> rs[i].Success? by {
          var j :| 0 <= j < |rs[1..]| && rs[1..][j] == Failure(rest.error)
                   && forall i :: 0 <= i < j ==> rs[1..][i].Success?;
          assert rs[j + 1] == Failure(rest.error);
          assert forall i :: 0 <= i < j + 1 ==> rs[i].Success? by {
            forall i | 0 <= i < j + 1 ensures rs[i].Success? {
              if i > 0 {
                assert rs[i] == rs[1..][i - 1];
              }
            }
          }
        }
        Failure(rest.error)
      else
        Success(rs[0].value + rest.value)
  }
}
